=== FILE: README.md ===
# CUAController plugins, modelled in Dafny

CUAController is a set of Virt-A-Mate scene plugins. Three of them keep
engine objects in step by hand, and this project models and proves that
bookkeeping:

- **CUAControllers** (`cua_controllers.dfy`) gives every rigid body of
  an imported asset whose name passes a regular-expression filter its
  own control atom and link object.
  - The control atom is a "Sphere" atom in the scene's global atom
    registry. Its uid is `z$<owner uid>::<body name>::Control`.
  - The link object is `$<body name>Link`, under a "ControlLinks"
    container. It carries a rigid body and two fixed joints: one to the
    control atom's body and one to the asset's body.
  - A body whose name repeats an earlier one finds that body's link
    object, and the pass stops there. A name holding '/' is read as a
    path by the lookup and is never found, so such a body always gets a
    link object of its own.
  - The plugin also removes every atom inside its `z$<owner uid>::`
    scope, except while the scene is being restored.
- **UnityAssetVamifier** (`unity_asset_vamifier.dfy`) replaces every
  material of an imported asset that uses a Unity standard shader with
  a material on the host's own shader.
  - It keeps three parallel lists: the renderers, their original
    materials, and the replacements (null where an original is not
    supported).
  - It pushes nine UI settings to every replacement at start-up. The
    IBL filter is pushed only by its own handler, one of ten.
- **EmissiveClothing** (`emissive_clothing.dfy`) takes over every
  clothing skin wrap that has material options tagged `(em)`.
  - It moves each tagged slot's decal texture to a new glow material,
    and hides the slot in the wrap's own drawing with a hidden copy.
  - An `EmissiveDAZSkinWrap` component draws the wrap instead. Each
    frame it feeds the glow materials their slot's render queue and
    vertex buffer.
  - Teardown gives the decals and the drawing back. It is meant to give
    the wrap control back as well, but as written it does not (see
    Findings); the model's teardown uses the corrected hand-back.

How the engine is represented (`unity.dfy`, module `Unity`):

- Materials, textures, buffers, renderers and atoms are opaque ids.
- A material's mutable state is a value in the `Scene` store, keyed by
  id. Two lists that hold the same id therefore see the same material.
- A renderer's `materials` is a sequence of ids in the store. Reading
  it gives those ids as they are: the engine's instancing of shared
  materials on the first read is not modelled.

Shared helpers:

- `strings.dfy`: prefix tests, substring tests, `LastIndexOfAny` and
  `Split(...)[0]`.
- `seqs.dfy`: an order-preserving `Filter` and its laws.
- `wrappers.dfy`: `Option`.

Parts of the source that change state are classes with `modifies`
frames: the atom registry, the controllers plugin, the vamifier, the
emissive wrap and the emissive clothing plugin. Each loop is a `while`
loop with its invariants. Every method is proved against a
specification function (`SetupOne`, `LinksOf`, `SetAll`, `Settings`,
`Restored`, `ConvertMats`, `ReturnRows`, …), and the lemmas state what
the source promises about those functions.

## Model

| member | source | states |
|---|---|---|
| `Strings.LastIndexOfAny` | EmissiveClothing.cs:52 | The result is -1 exactly when no character of the set occurs; otherwise it is an index of such a character, with none after it. |
| `Strings.FirstField` | EmissiveClothing.cs:50 | `Split(c)[0]`: a prefix of the string that contains no `c`, and is either the whole string or followed by `c`. |
| `Strings.ContainsIffOccurs` | EmissiveClothing.cs:126 | `Contains` holds exactly when the needle occurs at some position. |
| `Seqs.FilterMembers` | UnityAssetVamifier.cs:179-195 | The filtered list holds exactly the elements that pass the test. |
| `EmissiveClothing.GetPluginPath` | EmissiveClothing.cs:48-54 | The script path is looked up under the store id's part before the first '_'. The result is absent exactly when the path has no '/' or '\\' (where `Substring(0, -1)` throws). Otherwise it is the prefix that ends just before the path's last separator. |
| `EmissiveClothing.TaggedSnoc` | EmissiveClothing.cs:138-146 | Scanning one more option adds its slots to the tagged set exactly when its override id contains "(em)", and adds nothing otherwise. The wrap has tagged slots afterwards exactly when it had them before or this option is tagged and names a slot. |
| `EmissiveClothing.TaggedListSlots` | EmissiveClothing.cs:138-146 | The slots in the order the options convert them are exactly the tagged slots. |
| `EmissiveClothing.HandOver` | EmissiveClothing.cs:239-242 | After the take-over no control drives the original wrap. |
| `EmissiveClothing.HandBack` | EmissiveClothing.cs:197-200 | After the corrected teardown no control drives the destroyed emissive wrap. |
| `EmissiveClothing.HandBackUndoesHandOver` | EmissiveClothing.cs:197-200 | Handing back after handing over puts a control that drove the original wrap or nothing onto the original wrap, and leaves any other control where it was. |
| `EmissiveClothing.AsWrittenStrandsControl` | EmissiveClothing.cs:198 | With the code as written (`HandBackAsWritten`), a control handed to the emissive wrap stays on that wrap after teardown, and so no longer drives the original. |
| `EmissiveClothing.Cleared` | EmissiveClothing.cs:157 | The slot's material loses its decal texture; everything else about it is kept. |
| `EmissiveClothing.Glow` | EmissiveClothing.cs:148-156 | A glow material carries the slot material's name, the plugin's shader, and the decal as its main texture. |
| `EmissiveClothing.Hidden` | EmissiveClothing.cs:160-161 | A hidden copy has `_AlphaAdjust` at -1 and every other property of the material it copies. |
| `EmissiveClothing.ReturnDecal` | EmissiveClothing.cs:187 | After teardown the material's decal is the glow material's main texture. |
| `EmissiveClothing.DecalRoundTrip` | EmissiveClothing.cs:156-157 | Taking a decal out and giving it back restores the original material exactly, provided the glow material's main texture was left alone in between. |
| `EmissiveClothing.SecondConversionLosesDecal` | EmissiveClothing.cs:146-157 | A slot converted a second time in one build gets a glow material with no texture, because the decal is already gone. |
| `EmissiveClothing.GlowDraws` | EmissiveClothing.cs:264-271 | Each frame's sub-mesh draws use only glow materials, each at its own slot, in slot order. |
| `EmissiveClothing.GlowDrawsAll` | EmissiveClothing.cs:264-271 | Every glow slot gets its sub-mesh draw. |
| `EmissiveClothing.Fed` | EmissiveClothing.cs:267-268 | A glow material takes its slot's render queue. Its "verts" buffer changes only when the cached buffer differed from the base wrap's, and then becomes the base wrap's. Its name, shader and every other property, its main texture included, are kept. |
| `EmissiveClothing.FedAll` | EmissiveClothing.cs:264-283 | After the frame's glow loop every glow slot's cache equals the base wrap's buffer. Cache entries of other slots, and all materials except the glow materials, are unchanged. |
| `EmissiveClothing.EmissiveSkinWrap.CopyFrom` | EmissiveClothing.cs:215-243 | The emissive wrap takes over the GPU materials, the hidden copies, the glow materials and the shared toggle. The original stops drawing and the emissive wrap draws. The wrap control moves as `HandOver` says. |
| `EmissiveClothing.EmissiveSkinWrap.UpdateBuffer` | EmissiveClothing.cs:274-283 | Afterwards the cache gives slot `i` the base wrap's buffer, and every other slot of the cache is unchanged. The material is written only when the two differed. |
| `EmissiveClothing.EmissiveSkinWrap.LateUpdate` | EmissiveClothing.cs:246-272 | When the toggle changed since the last frame, the base caches hold exactly the buffers the draw binds; otherwise the cached buffers are kept and only missing slots are filled. `oldOriginal` then equals the toggle. The mesh is drawn with the original materials, or with the hidden copies when the originals are switched off. `GPUmaterials` ends as it began. Every glow slot is drawn and fed as `FedAll` states. |
| `EmissiveClothing.ConvertFrame` | EmissiveClothing.cs:146-162 | Converting a slot changes no material of the store except that slot's own, and keeps its name. |
| `EmissiveClothing.ConvertShape` | EmissiveClothing.cs:134-162 | After a conversion the row is non-null exactly at the converted slots. Unconverted slots keep their material in the hidden row. |
| `EmissiveClothing.ConvertGlow` | EmissiveClothing.cs:148-157 | Each glow material of the row is a new material on the plugin's shader, named after its slot's original material, and does not hide. The slot's own material has lost its decal. |
| `EmissiveClothing.ConvertTexture` | EmissiveClothing.cs:148-157 | After converting one more slot, the glow material of every slot converted once, whose material sits at no other converted slot, has that material's original decal as its main texture. |
| `EmissiveClothing.ConvertHidden` | EmissiveClothing.cs:157-161 | Each converted slot's hidden copy is a new material equal to its slot's original material with the decal cleared and `_AlphaAdjust` at -1. |
| `EmissiveClothing.StoreTinted` | EmissiveClothing.cs:175 | Tinting the glow materials keeps everything `Build` established about the store. |
| `EmissiveClothing.GlowTinted` | EmissiveClothing.cs:56-67 | After `SyncMats` every glow material carries the picked colour with the slider's alpha. |
| `EmissiveClothing.ReturnRowsFrame` | EmissiveClothing.cs:181-188 | Teardown leaves every material that sits at no glow slot unchanged. |
| `EmissiveClothing.ReturnRowsAt` | EmissiveClothing.cs:181-188 | A glow slot whose material sits at no other glow slot gets its decal back from its glow material. |
| `EmissiveClothing.DecalRestored` | EmissiveClothing.cs:154-157 | Take the store `Build` leaves, then change it only in ways that keep the original materials and the glow materials' main textures, as re-tinting (`SyncMats`) and feeding (`Fed`) do. Teardown (`ReturnRows`) then gives a slot its original material back exactly. This holds for a slot converted once, whose material sits at no other glow slot and had a decal. |
| `EmissiveClothing.BuiltGlowsApart` | EmissiveClothing.cs:148 | Glow materials are new materials, so none of them sits at a glow slot of any wrap. |
| `EmissiveClothing.EmissiveClothing.Init` | EmissiveClothing.cs:23-46 | The plugin starts with white at full alpha, original materials rendered, and nothing taken over. |
| `EmissiveClothing.EmissiveClothing.SyncMats` | EmissiveClothing.cs:56-67 | Every non-null glow material's `_Color` becomes the picked colour with the slider's alpha. Nothing else changes. |
| `EmissiveClothing.EmissiveClothing.SetColor` | EmissiveClothing.cs:28 | The colour picker's callback re-tints every glow material. |
| `EmissiveClothing.EmissiveClothing.SetAlpha` | EmissiveClothing.cs:31-32 | The alpha slider's callback re-tints every glow material. |
| `EmissiveClothing.EmissiveClothing.ConvertSlot` | EmissiveClothing.cs:147-161 | The slot gets a new glow material and a new hidden copy, distinct from each other and from every existing material. Its own material loses its decal. Only that slot of the two arrays changes. |
| `EmissiveClothing.EmissiveClothing.TakeOver` | EmissiveClothing.cs:117-173 | The lists restart empty and, with no wraps, stay empty. Otherwise `wraps` is exactly the tracked wraps, in order. Each tracked wrap is hooked to its own emissive wrap with a row non-null exactly at its tagged slots. Untracked wraps are untouched. |
| `EmissiveClothing.EmissiveClothing.Build` | EmissiveClothing.cs:115-176 | `wraps` is exactly the wraps that are not emissive wraps, not delayed, and have a tagged option naming slots, in encounter order. The rows run in lockstep with `wraps` and are non-null exactly at tagged slots. Each converted slot's material loses its decal, and its hidden copy is exactly that cleared material with `_AlphaAdjust` at -1. The glow material of a slot converted once, whose material sits at no other glow slot, holds that material's original decal as its main texture. Untracked wraps are untouched. Every glow material is tinted. |
| `EmissiveClothing.EmissiveClothing.Release` | EmissiveClothing.cs:195-200 | The emissive wrap is destroyed, the original draws again, and the control goes back as the corrected `HandBack` says (see Findings). |
| `EmissiveClothing.EmissiveClothing.OnDestroy` | EmissiveClothing.cs:179-202 | Every taken-over wrap gets the decals of its glow slots back, draws again, and loses its emissive wrap. Its control goes back by the corrected hand-back (see Findings). Renderer slots are untouched. |
| `EmissiveClothing.EmissiveClothing.Rebuild` | EmissiveClothing.cs:108-114 | The old emissive wraps are all destroyed. Then `Build` runs on the store as teardown left it. Each tracked wrap gets a living, drawing emissive wrap that holds its GPU materials, glow row and hidden row, and the wrap itself stops drawing. Every other wrap draws when it was taken over before or drew already. A wrap that was never taken over keeps its control. The new rows and tints are as `Build` states. |
| `UnityAssetVamifier.IsValidMaterial` | UnityAssetVamifier.cs:139-149 | A material is valid exactly when its shader is one of the three standard names and no invalid keyword is enabled on it. |
| `UnityAssetVamifier.Default` | UnityAssetVamifier.cs:85-132 | Each setting starts at the value the UI gives it, of the kind its handler writes. |
| `UnityAssetVamifier.ShaderKeysSeparate` | UnityAssetVamifier.cs:258-327 | Each of the ten handlers writes its own shader property, and none of them writes a copied texture. |
| `UnityAssetVamifier.VamifyIsVamified` | UnityAssetVamifier.cs:218-222 | A substituted material carries the original's name followed by "vamified", the host shader, and the original's four textures under their new keys. |
| `UnityAssetVamifier.SettingKeepsVamified` | UnityAssetVamifier.cs:258-327 | Pushing a setting keeps a replacement's name and textures. |
| `UnityAssetVamifier.SettingsSet` | UnityAssetVamifier.cs:231-239 | After the settings are pushed, every replacement holds each pushed setting's value. |
| `UnityAssetVamifier.SettingsHold` | UnityAssetVamifier.cs:231-239 | After the initial push every replacement holds all nine initial values, and no other material changed. |
| `UnityAssetVamifier.SettingsKeys` | UnityAssetVamifier.cs:231-239 | Pushing settings creates no material. |
| `UnityAssetVamifier.SettingsElsewhere` | UnityAssetVamifier.cs:231-239 | Pushing settings leaves every material outside the replacements unchanged. |
| `UnityAssetVamifier.RestoreRow` | UnityAssetVamifier.cs:250-253 | The row keeps its length. Exactly the replaced slots show their originals again. |
| `UnityAssetVamifier.RestoreAsWritten` | UnityAssetVamifier.cs:244-255 | As written, the restore writes into the copy that `materials` returns, so no renderer's slots change. |
| `UnityAssetVamifier.AsWrittenKeepsReplacements` | UnityAssetVamifier.cs:252 | With the code as written, a converted slot still shows its replacement after teardown, not its original. |
| `UnityAssetVamifier.RestoreUndoesConvert` | UnityAssetVamifier.cs:244-255 | The corrected restore undoes the conversion: every converted renderer shows its original materials again, and no other renderer changes. |
| `UnityAssetVamifier.CollectedAll` | UnityAssetVamifier.cs:179-197 | After the first loop, the skip list is the unsupported materials in encounter order. The renderer list is exactly the renderers that have materials. Each original row is that renderer's materials. |
| `UnityAssetVamifier.RestoreSlots` | UnityAssetVamifier.cs:250-253 | The inner restore loop puts each replaced slot's original back and leaves every other slot as shown. |
| `UnityAssetVamifier.Vamifier.Init` | UnityAssetVamifier.cs:61-136 | Every setting starts at its default, and all three lists start empty. |
| `UnityAssetVamifier.Vamifier.PresentAreReplacements` | UnityAssetVamifier.cs:260 | Every non-null entry of `vamMaterials` is a recorded replacement in the store. |
| `UnityAssetVamifier.Vamifier.ClassifySlots` | UnityAssetVamifier.cs:181-190 | The row has one entry per original. A blank replacement appears exactly at each supported original, and nulls elsewhere. The unsupported originals are reported in order. |
| `UnityAssetVamifier.Vamifier.CollectRenderers` | UnityAssetVamifier.cs:179-197 | The three lists grow together. They keep exactly the renderers that have materials, in order, with their originals. The skip list is every unsupported material. |
| `UnityAssetVamifier.Vamifier.ReassignTextures` | UnityAssetVamifier.cs:218-222 | The replacement takes the original's suffixed name and its four textures. |
| `UnityAssetVamifier.Vamifier.SubstituteRenderer` | UnityAssetVamifier.cs:213-226 | Only the non-null slots of the renderer are rewritten, to their replacements; null slots keep their original material. |
| `UnityAssetVamifier.Vamifier.SubstituteAll` | UnityAssetVamifier.cs:212-227 | Every row is substituted, and no other renderer changes. |
| `UnityAssetVamifier.Vamifier.SetOnEach` | UnityAssetVamifier.cs:260-263 | Each handler's loop sets the property to the same value on exactly the listed materials. |
| `UnityAssetVamifier.Vamifier.Apply` | UnityAssetVamifier.cs:258-327 | A handler writes the setting's value into its property on every non-null replacement, and touches no other material. |
| `UnityAssetVamifier.Vamifier.SetProperty` | UnityAssetVamifier.cs:258-327 | One of the ten `Set…` callbacks: it records the new value and writes it to every non-null replacement only. |
| `UnityAssetVamifier.Vamifier.ApplyInitialValues` | UnityAssetVamifier.cs:231-239 | The nine initial settings, every one except the IBL filter, are pushed in order to every replacement. |
| `UnityAssetVamifier.Vamifier.ConvertMaterial` | UnityAssetVamifier.cs:169-241 | The skip list is every unsupported material, in order. The three lists hold exactly the renderers with materials, in lockstep. Old materials are unchanged and replacements are new. Each replacement holds the initial values. Renderers outside the list are untouched. |
| `UnityAssetVamifier.Vamifier.OnDestroy` | UnityAssetVamifier.cs:244-255 | Corrected teardown: every renderer shows what `Restored` gives, i.e. its originals again, and the store is unchanged. |
| `CUAControllers.ControlIdInScope` | CUAControllers.cs:152 | Every control id starts with its owner's scope prefix. |
| `CUAControllers.BaseNameInjective` | CUAControllers.cs:138 | Different owner uids have different scope prefixes. |
| `CUAControllers.ControlIdInjective` | CUAControllers.cs:152 | Within one owner, two control ids are equal exactly when the body names are. |
| `CUAControllers.LinkNameInjective` | CUAControllers.cs:124 | Two link names are equal exactly when the body names are. |
| `CUAControllers.NestedOwnerInScope` | CUAControllers.cs:138 | The control ids of owner `a + "::" + rest` fall inside owner `a`'s scope. |
| `CUAControllers.Find` | CUAControllers.cs:104 | A lookup by uid returns the atom with that uid, or nothing when no atom has it. |
| `CUAControllers.FindSurvivors` | CUAControllers.cs:71-76 | Removing the scope deletes exactly the atoms whose uid starts with the prefix, and keeps every other atom. |
| `CUAControllers.ScopeIsolation` | CUAControllers.cs:71-76 | When neither owner's prefix extends the other's, one owner's clean-up keeps every atom of the other. |
| `CUAControllers.NestedOwnerRemoved` | CUAControllers.cs:71-76 | An owner's clean-up removes the control atoms of an owner whose uid extends its own by "::". |
| `CUAControllers.SetupOneSpec` | CUAControllers.cs:102-115 | Afterwards the uid names a "Sphere" atom. An existing "Sphere" is reused and nothing changes. An atom of another type is replaced, and a missing one created, each parented to the owner. Other uids are untouched, and uids stay unique. |
| `CUAControllers.SetupAllSpec` | CUAControllers.cs:149-154 | After the loop every matched body has a "Sphere" control atom. Uids outside those control ids are untouched, and uids stay unique. |
| `CUAControllers.SetupAllNoop` | CUAControllers.cs:102-115 | When every control atom is already a "Sphere", setting them up changes nothing. |
| `CUAControllers.SetupAllIdempotent` | CUAControllers.cs:149-154 | Setting up the same control atoms twice is the same as once. |
| `CUAControllers.SetupAllFresh` | CUAControllers.cs:149-154 | With the owner's scope empty, every control atom is newly created and parented to the owner. |
| `CUAControllers.FindChild` | CUAControllers.cs:125 | `Transform.Find` on a container gives its first child with that name. A name holding '/' is a path, and since link objects have no children it finds nothing. |
| `CUAControllers.LinksOfHas` | CUAControllers.cs:149-163 | The container holds a link object named for a body name exactly when some linked body has that name. |
| `CUAControllers.LinksOfAt` | CUAControllers.cs:163-190 | Each linked body has its own link object, in pass order: named after the body, with its rigid body and exactly two joints, one to its control atom's body and one to the body. Neither joint auto-configures, and both have a zero anchor. |
| `CUAControllers.LinkFound` | CUAControllers.cs:124-127 | Looking up a body's link name in the container finds a link object exactly when the name has no '/' and an earlier linked body has it. |
| `CUAControllers.ApartAt` | CUAControllers.cs:124-127 | When no body found an earlier one's link object, a body whose name has no '/' is named unlike every earlier one. |
| `CUAControllers.PathNamesApart` | CUAControllers.cs:124-127 | Bodies whose names all contain '/' never find one another's link objects, even when names repeat. |
| `CUAControllers.UnmatchedUntouched` | CUAControllers.cs:149-151 | A body the filter rejects gets no link, and its control id is untouched by the pass. |
| `CUAControllers.PassStopsAtDuplicate` | CUAControllers.cs:163-164 | A matched body whose lookup finds an earlier body's link object (same name, no '/') stops the pass, after its control atom is set up. |
| `CUAControllers.PassCompletes` | CUAControllers.cs:149-191 | When no matched body finds an earlier one's link object, the pass sets up and links every matched body. |
| `CUAControllers.PassCompletesIffApart` | CUAControllers.cs:149-191 | A pass completes exactly when no matched body finds an earlier one's link object, that is when no name without '/' is matched twice. |
| `CUAControllers.PathNamesComplete` | CUAControllers.cs:124-164 | A pass whose matched names all contain '/' completes, however often a name repeats. |
| `CUAControllers.SecondPassChangesNothing` | CUAControllers.cs:139-192 | After a completed pass, a second pass over the same asset and filter completes and leaves the registry and links as they were. |
| `CUAControllers.RebuildRecreates` | CUAControllers.cs:92 | Clearing the scope and then completing a pass recreates every matched body's control atom, parented to the owner, and keeps every atom outside the scope. |
| `CUAControllers.Controllers.constructor` | CUAControllers.cs:86-99 | The filter pattern starts as ".*" and debug drawing starts off. |
| `CUAControllers.Controllers.DestroyOldAtoms` | CUAControllers.cs:63-78 | During a restore the registry is unchanged. Otherwise exactly the atoms inside the owner's scope are removed. |
| `CUAControllers.Controllers.OnDestroy` | CUAControllers.cs:80-83 | Same as `DestroyOldAtoms`. |
| `CUAControllers.Controllers.SetupControlAtom` | CUAControllers.cs:102-115 | The registry becomes `SetupOne` of the old one, which `SetupOneSpec` describes. |
| `CUAControllers.Controllers.CreateControlLink` | CUAControllers.cs:117-131 | Find-or-create: the result is the position of a child named `$<name>Link` in the first container. The container is created when missing. When `Transform.Find` finds a child, the result is that child and nothing changes. Otherwise a new empty object is appended, and nothing else changes. |
| `CUAControllers.Controllers.AddLinkRigidbody` | CUAControllers.cs:164 | A rigid body is added exactly when the link object has none. |
| `CUAControllers.Controllers.CreateFixedJoint` | CUAControllers.cs:194-200 | The link gains one joint to the target, with no automatic anchor and a zero connected anchor. |
| `CUAControllers.Controllers.SetLinkDebug` | CUAControllers.cs:183-190 | The link carries the debug drawer exactly when debug is on. |
| `CUAControllers.Controllers.SyncCO` | CUAControllers.cs:139-192 | The pass tears down every container. A bad pattern or a missing asset stops it there. Otherwise the matched bodies are handled in order, until the end or until one finds the link object of an earlier one. |
| `CUAControllers.Controllers.Sync` | CUAControllers.cs:133-137 | During a restore nothing changes; otherwise it is one pass. |
| `CUAControllers.Controllers.SetNodePattern` | CUAControllers.cs:92 | Editing the pattern clears the owner's scope and then syncs with the new pattern; during a restore nothing changes. |
| `CUAControllers.Controllers.SetDebug` | CUAControllers.cs:93 | Toggling debug syncs again with the new flag; during a restore nothing changes. |

## Left out

- Logging, the UI helpers, `BroadcastMessage("OnApplicationFocus")`
  and the material-option labels are not modelled. They are UI or host
  calls with no effect on the bookkeeping.
- Shader and asset-bundle loading (`AttemptLoadShader`,
  `LoadShaderAndInit`, `Shader.Find`) are host I/O. The loaded shader is
  a parameter of the emissive plugin.
- `WaitForAssetBundle` in both plugins is not modelled. It polls the
  engine for renderers on a float timer. The renderers or rigid bodies
  it finds are a parameter.
- Coroutine waits are not modelled, including `Rebuild`'s end-of-frame
  wait, which lets the engine destroy the old components. The model runs
  each coroutine to its end in one step. Likewise `AddAtomByType` is an
  atomic insert into the registry.
- Positions, rotations, scales, masses, drag, and collider or renderer
  enable flags in `SyncCO` are floating-point engine state and are not
  modelled. Only the links, their rigid body, their joints and the
  debug drawer are kept.
- `DebugComponent` and `printIt` are immediate-mode drawing and debug
  dumps, and are not modelled.
- `UpdateVertsGPU`, the mesh draws and `Graphics.DrawMesh` are not
  executed. They are recorded as a list of draw calls.
- Regular expressions are an uninterpreted `compile` function. A
  pattern that does not compile ends the pass after the teardown, as
  the uncaught exception does.
- A second `AddComponent<Rigidbody>` on one link object returns null,
  and the next line throws. The model ends the pass there
  (`DuplicateBody`). This happens when a body's lookup finds an earlier
  body's link object, which a name holding '/' never does (`FindChild`).
- A null `paramMaterialSlots` passes the emptiness test and then
  throws. The model has no null slot list.
- An out-of-range slot index throws. `Build` requires every listed slot
  to be in range (`SlotsInRange`).
- Unity's "destroyed equals null" is not modelled. A destroyed emissive
  wrap is marked not alive.
- CUAPoser.cs is not part of this model: its core is quaternion and
  spring arithmetic.
- RigidbodyAttributes.cs is not part of this model either: it only
  toggles an engine inertia tensor.
- `UnityAssetVamifier.Vamifier.ConvertMaterial`: takes each renderer's
  materials as already instanced. Unity's `Renderer.materials` getter,
  read at UnityAssetVamifier.cs:181 and 214, replaces each shared
  material with a new per-renderer instance, which the renderer then
  shows. The model does not capture that. Its "originals" are the ids the
  renderer held before the call. For a renderer still on shared
  materials, the source's originals and unsupported slots are fresh
  instances instead.
- `UnityAssetVamifier.Vamifier.CollectRenderers`: the same assumption.
  The row of originals is the renderer's current ids, not new instances.
- `UnityAssetVamifier.Vamifier.ConvertMaterial`: stated for the plugin's
  single call, with empty lists and a renderer list without repeats.
  Those are what `GetComponentsInChildren` gives at start-up.
- `UnityAssetVamifier.Vamifier.ConvertMaterial`: every renderer slot is
  taken to hold a material. In the source a slot holding null makes
  `mat.shader.name` (UnityAssetVamifier.cs:141) throw inside the
  classify loop (lines 183-184). That ends the conversion before the
  substitution (lines 212-226) and the initial push (lines 231-239).
  This early end is not modelled.
- `EmissiveClothing.EmissiveClothing.Build`: requires the wraps to be
  distinct, as `GetComponentsInChildren` returns them.
- `EmissiveClothing.EmissiveClothing.OnDestroy`: the decal round trip
  (`DecalRestored`) is proved for a slot converted once whose material
  sits at no other glow slot and has a decal. A slot converted twice, or
  a material listed at two glow slots, gets the decal back from a glow
  material that `SecondConversionLosesDecal` shows is empty. A material
  with no decal property ends with one that holds null.
- `EmissiveClothing.EmissiveClothing.Rebuild`: the control targets of
  wraps that were taken over before the rebuild are not stated across
  the two passes. Each pass's hand-over is covered by `Release` and
  `Build`.
- `UnityAssetVamifier.Vamifier.OnDestroy` is the corrected teardown
  (see Findings). The code as written is `RestoreAsWritten`.
- `CUAControllers.Controllers.DestroyOldAtoms`: the scope test
  `uid.StartsWith(baseName)` is modelled as an ordinal prefix test.
  .NET's one-argument `StartsWith` compares by the current culture, where
  ignorable characters such as a soft hyphen (U+00AD) can make a uid
  match or miss the prefix differently. That case is not modelled.
- `CUAControllers.Controllers.OnDestroy`: the same ordinal prefix test
  as `DestroyOldAtoms`. Culture-sensitive matching is not modelled.
- `EmissiveClothing.EmissiveClothing.Release`: the control hand-back is
  the corrected `HandBack` (see Findings). The code as written is
  `HandBackAsWritten`, which leaves a control that drove the original
  wrap on the destroyed emissive wrap (`AsWrittenStrandsControl`).
- `EmissiveClothing.EmissiveClothing.OnDestroy`: releases every wrap
  with the corrected `HandBack`, as `Release` does. The code as written
  is `HandBackAsWritten`.
- `EmissiveClothing.EmissiveSkinWrap.CopyFrom`: keeps only the GPU
  materials, the hidden copies, the glow materials, the toggle, the draw
  flags and the control. `base.CopyMaterials()`, the skin, mesh and
  compute references, `wrapName`, `wrapStore`, and the surface offset
  and thickness fields are engine state that is not modelled.
- `EmissiveClothing.EmissiveSkinWrap.DrawMeshGPU` stands for the
  engine's `DAZSkinWrap.DrawMeshGPU`, which is not part of this model.
  It is taken to bind a buffer to each slot missing from the base caches
  and to keep the cached ones, which is what clearing the caches on a
  toggle change relies on. The buffers it binds are parameters of
  `LateUpdate`.

## Findings

| source | as written | input that shows it | evidently intended | confidence | as-written member | corrected member |
|---|---|---|---|---|---|---|
| UnityAssetVamifier.cs:244-255 | `renderers[i].materials[j] = origMaterials[i][j]` stores into the fresh array that the `materials` getter returns, so no renderer slot changes | any converted asset: one renderer whose one material is a "Standard" material; after `OnDestroy` the renderer still shows the "vamified" replacement | copy `materials`, write the originals into it and assign it back, as the substitution loop at lines 214-226 does | not executed | `UnityAssetVamifier.AsWrittenKeepsReplacements` | `UnityAssetVamifier.RestoreUndoesConvert` |
| EmissiveClothing.cs:197-200 | the control is handed back only when `control.wrap == null` or `control.wrap == this`, where `this` is the plugin, not a wrap | a wrap with a `DAZSkinWrapControl` that drove the original wrap: `CopyFrom` hands it to the emissive wrap; `OnDestroy` leaves it there, on a destroyed component | hand back when the control drives nothing or the emissive wrap, mirroring `CopyFrom` at lines 239-242 | not executed | `EmissiveClothing.AsWrittenStrandsControl` | `EmissiveClothing.HandBackUndoesHandOver` |

=== FILE: cua_controllers.dfy ===
/**
 * Control-atom linking of the CUAControllers plugin.
 *
 * The plugin sits on an atom that holds an imported asset.  For every
 * rigid body of the asset whose name passes a user filter it keeps a
 * "Sphere" control atom, named inside a scope prefix derived from the
 * owning atom's uid, in the host's global atom registry; and under the
 * owning atom's transform, in a "ControlLinks" container, one link
 * object per body, holding a rigid body and two fixed joints: one to the
 * control atom's body and one to the asset's body.
 *
 * The registry is `AtomRegistry`; the owning plugin is `Controllers`.
 * Whether a restore is in progress, the compiled filter and the asset's
 * rigid bodies are supplied by the host and are parameters here.
 */
module CUAControllers {
  import opened Wrappers
  import opened Strings
  import opened Seqs

  /** The type of every control atom (`atomType`). */
  const AtomType: string := "Sphere"

  // ---------------------------------------------------------------------
  // Naming

  /** The scope prefix of the plugin on atom `ownerUid` (`baseName`). */
  function BaseName(ownerUid: string): string {
    "z$" + ownerUid + "::"
  }

  /** The uid of the control atom for the rigid body named `rbName`. */
  function ControlId(ownerUid: string, rbName: string): string {
    BaseName(ownerUid) + rbName + "::Control"
  }

  /** The name of the link object for the rigid body named `rbName`. */
  function LinkName(rbName: string): string {
    "$" + rbName + "Link"
  }

  /** Every control id lies inside its owner's scope. */
  lemma ControlIdInScope(ownerUid: string, rbName: string)
    ensures StartsWith(ControlId(ownerUid, rbName), BaseName(ownerUid))
  {
    var s := ControlId(ownerUid, rbName);
    assert s == BaseName(ownerUid) + (rbName + "::Control");
    assert s[..|BaseName(ownerUid)|] == BaseName(ownerUid);
  }

  /** Different owners have different scope prefixes. */
  lemma BaseNameInjective(a: string, b: string)
    requires BaseName(a) == BaseName(b)
    ensures a == b
  {
    assert a == BaseName(a)[2..|BaseName(a)| - 2];
    assert b == BaseName(b)[2..|BaseName(b)| - 2];
  }

  /** Within one owner, equal control ids mean equal body names, and conversely. */
  lemma ControlIdInjective(ownerUid: string, n1: string, n2: string)
    ensures ControlId(ownerUid, n1) == ControlId(ownerUid, n2) <==> n1 == n2
  {
    if ControlId(ownerUid, n1) == ControlId(ownerUid, n2) {
      var p := |BaseName(ownerUid)|;
      var s1, s2 := ControlId(ownerUid, n1), ControlId(ownerUid, n2);
      assert s1 == BaseName(ownerUid) + n1 + "::Control";
      assert n1 == s1[p..|s1| - 9];
      assert n2 == s2[p..|s2| - 9];
    }
  }

  /** Different body names give different link names. */
  lemma LinkNameInjective(n1: string, n2: string)
    ensures LinkName(n1) == LinkName(n2) <==> n1 == n2
  {
    if LinkName(n1) == LinkName(n2) {
      assert n1 == LinkName(n1)[1..|LinkName(n1)| - 4];
      assert n2 == LinkName(n2)[1..|LinkName(n2)| - 4];
    }
  }

  /**
   * Scopes are not isolated when one owner's uid extends another's by
   * "::": every control id of owner `a + "::" + rest` lies inside the
   * scope of owner `a`.
   */
  lemma NestedOwnerInScope(a: string, rest: string, rbName: string)
    ensures StartsWith(ControlId(a + "::" + rest, rbName), BaseName(a))
  {
    var s := ControlId(a + "::" + rest, rbName);
    assert s == BaseName(a) + (rest + "::" + rbName + "::Control");
    assert s[..|BaseName(a)|] == BaseName(a);
  }

  // ---------------------------------------------------------------------
  // The atom registry

  /** An atom of the scene: its uid, its type and the uid of its parent atom. */
  datatype Atom = Atom(uid: string, kind: string, parent: Option<string>)

  /** No two atoms share a uid. */
  ghost predicate UniqueUids(atoms: seq<Atom>) {
    forall j, k :: 0 <= j < k < |atoms| ==> atoms[j].uid != atoms[k].uid
  }

  /** The atom with uid `uid` (`GetAtomById`, `GetAtomByUid`). */
  function Find(atoms: seq<Atom>, uid: string): (r: Option<Atom>)
    ensures r.Some? ==> r.value in atoms && r.value.uid == uid
    ensures r.None? ==> forall k :: 0 <= k < |atoms| ==> atoms[k].uid != uid
    decreases |atoms|
  {
    if atoms == [] then None
    else if atoms[|atoms| - 1].uid == uid then Some(atoms[|atoms| - 1])
    else Find(atoms[..|atoms| - 1], uid)
  }

  /** The registry after `RemoveAtom` of the atom with uid `uid`. */
  function Without(atoms: seq<Atom>, uid: string): seq<Atom> {
    Filter(atoms, OtherThan(uid))
  }

  /** The atoms outside the scope `prefix`: what `DestroyOldAtoms` leaves. */
  function Survivors(atoms: seq<Atom>, prefix: string): seq<Atom> {
    Filter(atoms, Outside(prefix))
  }

  function OtherThan(uid: string): Atom -> bool {
    (a: Atom) => a.uid != uid
  }

  function Outside(prefix: string): Atom -> bool {
    (a: Atom) => !StartsWith(a.uid, prefix)
  }

  /** `atom.parentAtom = parent` for the atom with uid `uid`. */
  function Reparent(atoms: seq<Atom>, uid: string, parent: Option<string>): seq<Atom>
    decreases |atoms|
  {
    if atoms == [] then []
    else
      var last := atoms[|atoms| - 1];
      Reparent(atoms[..|atoms| - 1], uid, parent) + [if last.uid == uid then last.(parent := parent) else last]
  }

  lemma FindSnoc(atoms: seq<Atom>, a: Atom, uid: string)
    ensures Find(atoms + [a], uid) == if a.uid == uid then Some(a) else Find(atoms, uid)
  {
    assert (atoms + [a])[..|atoms|] == atoms;
  }

  /** Appending an atom whose uid is absent keeps uids unique. */
  lemma UniqueSnoc(atoms: seq<Atom>, a: Atom)
    requires UniqueUids(atoms) && Find(atoms, a.uid).None?
    ensures UniqueUids(atoms + [a])
  {
  }

  /** Reparenting changes the parent of the atom with uid `uid` and nothing else. */
  lemma {:induction false} FindReparent(atoms: seq<Atom>, uid: string, parent: Option<string>, u: string)
    ensures Find(Reparent(atoms, uid, parent), u) ==
      match Find(atoms, u)
      case None => None
      case Some(a) => Some(if u == uid then a.(parent := parent) else a)
    decreases |atoms|
  {
    if atoms != [] {
      var init, last := atoms[..|atoms| - 1], atoms[|atoms| - 1];
      FindReparent(init, uid, parent, u);
      FindSnoc(Reparent(init, uid, parent), if last.uid == uid then last.(parent := parent) else last, u);
    }
  }

  /** Reparenting keeps uids unique. */
  lemma {:induction false} ReparentUnique(atoms: seq<Atom>, uid: string, parent: Option<string>)
    requires UniqueUids(atoms)
    ensures UniqueUids(Reparent(atoms, uid, parent))
    decreases |atoms|
  {
    if atoms != [] {
      var init, last := atoms[..|atoms| - 1], atoms[|atoms| - 1];
      ReparentUnique(init, uid, parent);
      FindReparent(init, uid, parent, last.uid);
      UniqueSnoc(Reparent(init, uid, parent), if last.uid == uid then last.(parent := parent) else last);
    }
  }

  /** Reparenting an absent uid changes nothing. */
  lemma {:induction false} ReparentAbsent(atoms: seq<Atom>, uid: string, parent: Option<string>)
    requires Find(atoms, uid).None?
    ensures Reparent(atoms, uid, parent) == atoms
    decreases |atoms|
  {
    if atoms != [] {
      ReparentAbsent(atoms[..|atoms| - 1], uid, parent);
    }
  }

  /** Filtering keeps uids unique. */
  lemma {:induction false} FilterUnique(atoms: seq<Atom>, keep: Atom -> bool)
    requires UniqueUids(atoms)
    ensures UniqueUids(Filter(atoms, keep))
    decreases |atoms|
  {
    if atoms != [] {
      var init, last := atoms[..|atoms| - 1], atoms[|atoms| - 1];
      FilterUnique(init, keep);
      if keep(last) {
        var f := Filter(init, keep);
        FilterMembers(init, keep);
        UniqueSnoc(f, last);
      } else {
        assert Filter(atoms, keep) == Filter(init, keep);
      }
    }
  }

  /** Removing a uid keeps every other atom and drops that uid. */
  lemma {:induction false} FindWithout(atoms: seq<Atom>, uid: string, u: string)
    ensures Find(Without(atoms, uid), u) == if u == uid then None else Find(atoms, u)
    decreases |atoms|
  {
    if atoms != [] {
      var init, last := atoms[..|atoms| - 1], atoms[|atoms| - 1];
      FindWithout(init, uid, u);
      if last.uid != uid {
        FindSnoc(Without(init, uid), last, u);
      } else {
        assert Without(atoms, uid) == Without(init, uid);
      }
      assert Find(atoms, u) == if last.uid == u then Some(last) else Find(init, u);
    }
  }

  /** `DestroyOldAtoms` removes exactly the atoms inside the scope; every other atom is kept. */
  lemma {:induction false} FindSurvivors(atoms: seq<Atom>, prefix: string, u: string)
    ensures Find(Survivors(atoms, prefix), u) == if StartsWith(u, prefix) then None else Find(atoms, u)
    decreases |atoms|
  {
    if atoms != [] {
      var init, last := atoms[..|atoms| - 1], atoms[|atoms| - 1];
      FindSurvivors(init, prefix, u);
      if !StartsWith(last.uid, prefix) {
        FindSnoc(Survivors(init, prefix), last, u);
      } else {
        assert Survivors(atoms, prefix) == Survivors(init, prefix);
      }
      assert Find(atoms, u) == if last.uid == u then Some(last) else Find(init, u);
    }
  }

  /**
   * Scope isolation: when neither owner's prefix extends the other's,
   * `DestroyOldAtoms` of owner `a` leaves every atom of owner `b`.
   */
  lemma ScopeIsolation(a: string, b: string, atoms: seq<Atom>, u: string)
    requires !StartsWith(BaseName(a), BaseName(b)) && !StartsWith(BaseName(b), BaseName(a))
    requires StartsWith(u, BaseName(b))
    ensures Find(Survivors(atoms, BaseName(a)), u) == Find(atoms, u)
  {
    FindSurvivors(atoms, BaseName(a), u);
    if StartsWith(u, BaseName(a)) {
      PrefixesComparable(u, BaseName(a), BaseName(b));
    }
  }

  /**
   * ... and the isolation fails for nested owners: `DestroyOldAtoms` of
   * owner `a` removes the control atoms of owner `a + "::" + rest`.
   */
  lemma NestedOwnerRemoved(a: string, rest: string, rbName: string, atoms: seq<Atom>)
    ensures Find(Survivors(atoms, BaseName(a)), ControlId(a + "::" + rest, rbName)) == None
  {
    NestedOwnerInScope(a, rest, rbName);
    FindSurvivors(atoms, BaseName(a), ControlId(a + "::" + rest, rbName));
  }

  class AtomRegistry {
    var atoms: seq<Atom>

    ghost predicate Valid()
      reads this
    {
      UniqueUids(atoms)
    }

    constructor (atoms: seq<Atom>)
      requires UniqueUids(atoms)
      ensures Valid() && this.atoms == atoms
    {
      this.atoms := atoms;
    }

    /** `GetAtomByUid`. */
    function GetAtomByUid(uid: string): Option<Atom>
      reads this
    {
      Find(atoms, uid)
    }

    /** `RemoveAtom`. */
    method RemoveAtom(uid: string)
      modifies this
      ensures atoms == Without(old(atoms), uid)
    {
      atoms := Without(atoms, uid);
    }

    /** `AddAtomByType`, treated as one atomic insertion. */
    method AddAtomByType(kind: string, uid: string)
      requires Valid() && Find(atoms, uid).None?
      modifies this
      ensures Valid()
      ensures atoms == old(atoms) + [Atom(uid, kind, None)]
    {
      UniqueSnoc(atoms, Atom(uid, kind, None));
      atoms := atoms + [Atom(uid, kind, None)];
    }

    /** `atom.parentAtom = …`. */
    method SetParentAtom(uid: string, parent: Option<string>)
      requires Valid()
      modifies this
      ensures Valid()
      ensures atoms == Reparent(old(atoms), uid, parent)
    {
      ReparentUnique(atoms, uid, parent);
      atoms := Reparent(atoms, uid, parent);
    }
  }

  // ---------------------------------------------------------------------
  // Setting up control atoms

  /**
   * The registry after `SetupControlAtom(id)`: a "Sphere" atom with that
   * uid is reused; an atom of another type is removed and replaced; a
   * missing one is created; a new atom is parented to the owner.
   */
  function SetupOne(atoms: seq<Atom>, id: string, ownerUid: string): seq<Atom> {
    match Find(atoms, id)
    case Some(a) =>
      if a.kind == AtomType then atoms
      else Without(atoms, id) + [Atom(id, AtomType, Some(ownerUid))]
    case None => atoms + [Atom(id, AtomType, Some(ownerUid))]
  }

  lemma ReparentNew(atoms: seq<Atom>, id: string, kind: string, parent: Option<string>)
    requires Find(atoms, id).None?
    ensures Reparent(atoms + [Atom(id, kind, None)], id, parent) == atoms + [Atom(id, kind, parent)]
  {
    ReparentAbsent(atoms, id, parent);
    assert (atoms + [Atom(id, kind, None)])[..|atoms|] == atoms;
  }

  /** What `SetupControlAtom` promises about the registry. */
  lemma SetupOneSpec(atoms: seq<Atom>, id: string, ownerUid: string)
    requires UniqueUids(atoms)
    ensures UniqueUids(SetupOne(atoms, id, ownerUid))
    ensures Find(SetupOne(atoms, id, ownerUid), id).Some?
    ensures Find(SetupOne(atoms, id, ownerUid), id).value.kind == AtomType
    ensures Find(atoms, id).Some? && Find(atoms, id).value.kind == AtomType ==>
      SetupOne(atoms, id, ownerUid) == atoms
    ensures !(Find(atoms, id).Some? && Find(atoms, id).value.kind == AtomType) ==>
      Find(SetupOne(atoms, id, ownerUid), id) == Some(Atom(id, AtomType, Some(ownerUid)))
    ensures forall u :: u != id ==> Find(SetupOne(atoms, id, ownerUid), u) == Find(atoms, u)
  {
    var created := Atom(id, AtomType, Some(ownerUid));
    match Find(atoms, id)
    case Some(a) =>
      if a.kind != AtomType {
        var w := Without(atoms, id);
        FilterUnique(atoms, OtherThan(id));
        FindWithout(atoms, id, id);
        FindSnoc(w, created, id);
        forall u | u != id
          ensures Find(w + [created], u) == Find(atoms, u)
        {
          FindSnoc(w, created, u);
          FindWithout(atoms, id, u);
        }
      }
    case None =>
      FindSnoc(atoms, created, id);
      forall u | u != id
        ensures Find(atoms + [created], u) == Find(atoms, u)
      {
        FindSnoc(atoms, created, u);
      }
  }

  /** A rigid body of the asset: an opaque identity and its name. */
  datatype RigidBody = RigidBody(id: nat, name: string)

  /** The names of some bodies. */
  function Names(bodies: seq<RigidBody>): set<string> {
    set b | b in bodies :: b.name
  }

  /**
   * A body named `name` finds the link object of one of `bodies`: the
   * name holds no '/' (a lookup by such a name never finds anything) and
   * one of them has it.
   */
  predicate Refound(bodies: seq<RigidBody>, name: string) {
    '/' !in name && name in Names(bodies)
  }

  /**
   * No body finds the link object of an earlier one: each body whose
   * name holds no '/' is named unlike every body before it.
   */
  ghost predicate LinksApart(bodies: seq<RigidBody>)
    decreases |bodies|
  {
    bodies == [] ||
    (LinksApart(bodies[..|bodies| - 1]) && !Refound(bodies[..|bodies| - 1], bodies[|bodies| - 1].name))
  }

  /** When no body finds an earlier one's link, a later body without '/' is named unlike any earlier one. */
  lemma {:induction false} ApartAt(bodies: seq<RigidBody>, j: nat, i: nat)
    requires LinksApart(bodies) && j < i < |bodies| && '/' !in bodies[i].name
    ensures bodies[j].name != bodies[i].name
    decreases |bodies|
  {
    var init := bodies[..|bodies| - 1];
    if i < |bodies| - 1 {
      ApartAt(init, j, i);
    } else {
      assert init[j] == bodies[j] && init[j] in init;
    }
  }

  /** Bodies whose names all hold '/' never find one another's links, even when their names repeat. */
  lemma {:induction false} PathNamesApart(bodies: seq<RigidBody>)
    requires forall b :: b in bodies ==> '/' in b.name
    ensures LinksApart(bodies)
    decreases |bodies|
  {
    if bodies != [] {
      var init := bodies[..|bodies| - 1];
      forall b | b in init
        ensures '/' in b.name
      {
        var k :| 0 <= k < |init| && init[k] == b;
        assert bodies[k] == b;
      }
      PathNamesApart(init);
      assert bodies[|bodies| - 1] in bodies;
    }
  }

  /** The registry after setting up the control atoms of `bodies`, in order. */
  function SetupAll(atoms: seq<Atom>, ownerUid: string, bodies: seq<RigidBody>): seq<Atom>
    decreases |bodies|
  {
    if bodies == [] then atoms
    else SetupOne(SetupAll(atoms, ownerUid, bodies[..|bodies| - 1]), ControlId(ownerUid, bodies[|bodies| - 1].name), ownerUid)
  }

  /**
   * After a sync pass every handled body has a "Sphere" control atom; every
   * other uid is as before; uids stay unique.
   */
  lemma {:induction false} SetupAllSpec(atoms: seq<Atom>, ownerUid: string, bodies: seq<RigidBody>)
    requires UniqueUids(atoms)
    ensures UniqueUids(SetupAll(atoms, ownerUid, bodies))
    ensures forall b :: b in bodies ==>
      Find(SetupAll(atoms, ownerUid, bodies), ControlId(ownerUid, b.name)).Some? &&
      Find(SetupAll(atoms, ownerUid, bodies), ControlId(ownerUid, b.name)).value.kind == AtomType
    ensures forall u :: u !in ControlIds(ownerUid, bodies) ==>
      Find(SetupAll(atoms, ownerUid, bodies), u) == Find(atoms, u)
    decreases |bodies|
  {
    if bodies != [] {
      var init, last := bodies[..|bodies| - 1], bodies[|bodies| - 1];
      var mid := SetupAll(atoms, ownerUid, init);
      SetupAllSpec(atoms, ownerUid, init);
      SetupOneSpec(mid, ControlId(ownerUid, last.name), ownerUid);
      forall b | b in bodies
        ensures Find(SetupAll(atoms, ownerUid, bodies), ControlId(ownerUid, b.name)).Some?
        ensures Find(SetupAll(atoms, ownerUid, bodies), ControlId(ownerUid, b.name)).value.kind == AtomType
      {
        if b != last {
          assert b in init;
        }
      }
    }
  }

  /** The control ids of some bodies. */
  function ControlIds(ownerUid: string, bodies: seq<RigidBody>): set<string> {
    set b | b in bodies :: ControlId(ownerUid, b.name)
  }

  /** Setting up control atoms that are all in place already changes nothing. */
  lemma {:induction false} SetupAllNoop(atoms: seq<Atom>, ownerUid: string, bodies: seq<RigidBody>)
    requires forall b :: b in bodies ==>
      Find(atoms, ControlId(ownerUid, b.name)).Some? && Find(atoms, ControlId(ownerUid, b.name)).value.kind == AtomType
    ensures SetupAll(atoms, ownerUid, bodies) == atoms
    decreases |bodies|
  {
    if bodies != [] {
      SetupAllNoop(atoms, ownerUid, bodies[..|bodies| - 1]);
    }
  }

  /** Setting up the same control atoms twice is setting them up once. */
  lemma SetupAllIdempotent(atoms: seq<Atom>, ownerUid: string, bodies: seq<RigidBody>)
    requires UniqueUids(atoms)
    ensures SetupAll(SetupAll(atoms, ownerUid, bodies), ownerUid, bodies) == SetupAll(atoms, ownerUid, bodies)
  {
    SetupAllSpec(atoms, ownerUid, bodies);
    SetupAllNoop(SetupAll(atoms, ownerUid, bodies), ownerUid, bodies);
  }

  /**
   * After the owner's scope was emptied (a rebuild), every control atom
   * of the pass is newly created and parented to the owner.
   */
  lemma {:induction false} SetupAllFresh(atoms: seq<Atom>, ownerUid: string, bodies: seq<RigidBody>)
    requires UniqueUids(atoms)
    requires forall k :: 0 <= k < |atoms| ==> !StartsWith(atoms[k].uid, BaseName(ownerUid))
    ensures forall b :: b in bodies ==>
      Find(SetupAll(atoms, ownerUid, bodies), ControlId(ownerUid, b.name)) ==
      Some(Atom(ControlId(ownerUid, b.name), AtomType, Some(ownerUid)))
    decreases |bodies|
  {
    if bodies != [] {
      var init, last := bodies[..|bodies| - 1], bodies[|bodies| - 1];
      var mid := SetupAll(atoms, ownerUid, init);
      var id := ControlId(ownerUid, last.name);
      SetupAllFresh(atoms, ownerUid, init);
      SetupAllSpec(atoms, ownerUid, init);
      SetupOneSpec(mid, id, ownerUid);
      if id !in ControlIds(ownerUid, init) {
        ControlIdInScope(ownerUid, last.name);
        assert Find(mid, id) == Find(atoms, id);
      } else {
        var b :| b in init && ControlId(ownerUid, b.name) == id;
      }
      forall b | b in bodies
        ensures Find(SetupAll(atoms, ownerUid, bodies), ControlId(ownerUid, b.name)) ==
          Some(Atom(ControlId(ownerUid, b.name), AtomType, Some(ownerUid)))
      {
        if b != last {
          assert b in init;
        }
      }
    }
  }

  // ---------------------------------------------------------------------
  // Links and joints

  datatype Vector3 = Vector3(x: real, y: real, z: real)

  /** The body a joint is connected to: a control atom's body, or one of the asset's. */
  datatype JointTarget = ControlAtomBody(atomUid: string) | AssetBody(body: RigidBody)

  datatype FixedJoint = FixedJoint(connectedBody: JointTarget, autoConfigureConnectedAnchor: bool, connectedAnchor: Vector3)

  /** A link object: whether it has its rigid body, its joints, whether it carries the debug drawer. */
  datatype Link = Link(hasRigidbody: bool, joints: seq<FixedJoint>, debugComponent: bool)

  /** A new, empty game object. */
  const EmptyLink: Link := Link(false, [], false)

  /** A child of a "ControlLinks" container: a link object under its name. */
  datatype Child = Child(name: string, link: Link)

  /** The joint `CreateFixedJoint` adds: no automatic anchor, connected at the origin. */
  function JointTo(target: JointTarget): FixedJoint {
    FixedJoint(target, false, Vector3(0.0, 0.0, 0.0))
  }

  /** The link object a sync pass builds for body `rb`. */
  function NewLink(ownerUid: string, rb: RigidBody, debug: bool): Child {
    Child(LinkName(rb.name), Link(true, [JointTo(ControlAtomBody(ControlId(ownerUid, rb.name))), JointTo(AssetBody(rb))], debug))
  }

  /**
   * `Transform.Find(name)` on a container: the position of its first
   * child so named. The engine reads a name holding '/' as a path through
   * the children's own children, and a link object has none, so such a
   * name is never found.
   */
  function FindChild(children: seq<Child>, name: string): (r: Option<nat>)
    ensures r.Some? <==> '/' !in name && exists k :: 0 <= k < |children| && children[k].name == name
    ensures r.Some? ==>
      && r.value < |children| && children[r.value].name == name
      && forall k :: 0 <= k < r.value ==> children[k].name != name
  {
    if '/' in name then None else FirstNamed(children, name)
  }

  /** The position of the first child named `name`, if any. */
  function FirstNamed(children: seq<Child>, name: string): (r: Option<nat>)
    ensures r.Some? <==> exists k :: 0 <= k < |children| && children[k].name == name
    ensures r.Some? ==>
      && r.value < |children| && children[r.value].name == name
      && forall k :: 0 <= k < r.value ==> children[k].name != name
    decreases |children|
  {
    if children == [] then None
    else if children[0].name == name then Some(0)
    else
      match FirstNamed(children[1..], name)
      case None =>
        assert forall k :: 1 <= k < |children| ==> children[k] == children[1..][k - 1];
        None
      case Some(k) => Some(k + 1)
  }

  /** Replaces the link object at position `pos` of the first container. */
  function WithLink(containers: seq<seq<Child>>, pos: nat, l: Link): seq<seq<Child>>
    requires containers != [] && pos < |containers[0]|
  {
    containers[0 := containers[0][pos := containers[0][pos].(link := l)]]
  }

  /** Replacing the link of the last child of a lone container. */
  lemma WithLast(prev: seq<Child>, c: Child, l: Link)
    ensures WithLink([prev + [c]], |prev|, l) == [prev + [c.(link := l)]]
  {
    assert (prev + [c])[|prev| := c.(link := l)] == prev + [c.(link := l)];
  }

  /** The "ControlLinks" container after linking `bodies` in order: one link object per body. */
  function LinksOf(ownerUid: string, bodies: seq<RigidBody>, debug: bool): seq<Child>
    decreases |bodies|
  {
    if bodies == [] then []
    else LinksOf(ownerUid, bodies[..|bodies| - 1], debug) + [NewLink(ownerUid, bodies[|bodies| - 1], debug)]
  }

  lemma NamesSnoc(bodies: seq<RigidBody>, rb: RigidBody)
    ensures Names(bodies + [rb]) == Names(bodies) + {rb.name}
  {
    var l, r := Names(bodies + [rb]), Names(bodies) + {rb.name};
    forall n | n in r
      ensures n in l
    {
      if n != rb.name {
        var b :| b in bodies && b.name == n;
        assert b in bodies + [rb];
      } else {
        assert rb in bodies + [rb];
      }
    }
  }

  /**
   * The container holds, at each position, the link object of the body
   * at that position: named after it, with its rigid body and exactly two
   * joints, to its control atom's body and to the body, neither
   * auto-configured and both anchored at the origin.
   */
  lemma {:induction false} LinksOfAt(ownerUid: string, bodies: seq<RigidBody>, debug: bool, i: nat)
    requires i < |bodies|
    ensures |LinksOf(ownerUid, bodies, debug)| == |bodies|
    ensures LinksOf(ownerUid, bodies, debug)[i] == NewLink(ownerUid, bodies[i], debug)
    decreases |bodies|
  {
    LinksOfLength(ownerUid, bodies, debug);
    if i < |bodies| - 1 {
      LinksOfAt(ownerUid, bodies[..|bodies| - 1], debug, i);
    }
  }

  /** One link object per linked body. */
  lemma {:induction false} LinksOfLength(ownerUid: string, bodies: seq<RigidBody>, debug: bool)
    ensures |LinksOf(ownerUid, bodies, debug)| == |bodies|
    decreases |bodies|
  {
    if bodies != [] {
      LinksOfLength(ownerUid, bodies[..|bodies| - 1], debug);
    }
  }

  /** The container has a link object named for `n` exactly when some linked body is named `n`. */
  lemma LinksOfHas(ownerUid: string, bodies: seq<RigidBody>, debug: bool, n: string)
    ensures (exists k :: 0 <= k < |LinksOf(ownerUid, bodies, debug)| && LinksOf(ownerUid, bodies, debug)[k].name == LinkName(n))
      <==> n in Names(bodies)
  {
    var links := LinksOf(ownerUid, bodies, debug);
    LinksOfLength(ownerUid, bodies, debug);
    if n in Names(bodies) {
      var b :| b in bodies && b.name == n;
      var i :| 0 <= i < |bodies| && bodies[i] == b;
      LinksOfAt(ownerUid, bodies, debug, i);
    }
    if exists k :: 0 <= k < |links| && links[k].name == LinkName(n) {
      var k :| 0 <= k < |links| && links[k].name == LinkName(n);
      LinksOfAt(ownerUid, bodies, debug, k);
      LinkNameInjective(n, bodies[k].name);
      assert bodies[k] in bodies;
    }
  }

  /** A link name holds '/' exactly when the body name does. */
  lemma SlashInLinkName(n: string)
    ensures '/' in LinkName(n) <==> '/' in n
  {
    assert LinkName(n) == "$" + n + "Link";
  }

  /** Looking up a body's link object in the container finds one exactly when the body finds an earlier one's. */
  lemma LinkFound(ownerUid: string, bodies: seq<RigidBody>, debug: bool, n: string)
    ensures FindChild(LinksOf(ownerUid, bodies, debug), LinkName(n)).Some? <==> Refound(bodies, n)
  {
    SlashInLinkName(n);
    LinksOfHas(ownerUid, bodies, debug, n);
  }

  /** The bodies a compiled filter accepts, in traversal order. */
  function Matched(bodies: seq<RigidBody>, matches: string -> bool): seq<RigidBody> {
    Filter(bodies, Accepts(matches))
  }

  /** The filter as a test on bodies: `regex.IsMatch(rb.name)`. */
  function Accepts(matches: string -> bool): RigidBody -> bool {
    (b: RigidBody) => matches(b.name)
  }

  /** A body that finds no earlier body's link object keeps the links apart. */
  lemma ApartSnoc(bodies: seq<RigidBody>, rb: RigidBody)
    requires LinksApart(bodies) && !Refound(bodies, rb.name)
    ensures LinksApart(bodies + [rb])
  {
    assert (bodies + [rb])[..|bodies|] == bodies;
  }

  /**
   * A body whose name the filter rejects gets no link, and its control
   * id is not touched by the pass.
   */
  lemma UnmatchedUntouched(atoms: seq<Atom>, ownerUid: string, bodies: seq<RigidBody>, matches: string -> bool,
                           debug: bool, rb: RigidBody, linked: nat)
    requires UniqueUids(atoms)
    requires !matches(rb.name)
    requires linked <= |Matched(bodies, matches)|
    ensures var links := LinksOf(ownerUid, Matched(bodies, matches)[..linked], debug);
      forall k :: 0 <= k < |links| ==> links[k].name != LinkName(rb.name)
    ensures Find(SetupAll(atoms, ownerUid, Matched(bodies, matches)[..linked]), ControlId(ownerUid, rb.name)) ==
      Find(atoms, ControlId(ownerUid, rb.name))
  {
    var m := Matched(bodies, matches)[..linked];
    LinksOfHas(ownerUid, m, debug, rb.name);
    SetupAllSpec(atoms, ownerUid, m);
    if rb.name in Names(m) {
      var b :| b in m && b.name == rb.name;
    }
    if ControlId(ownerUid, rb.name) in ControlIds(ownerUid, m) {
      var b :| b in m && ControlId(ownerUid, rb.name) == ControlId(ownerUid, b.name);
      ControlIdInjective(ownerUid, rb.name, b.name);
      var k :| 0 <= k < |m| && m[k] == b;
      FilterMembers(bodies, Accepts(matches));
    }
  }

  // ---------------------------------------------------------------------
  // A sync pass

  datatype SyncOutcome =
    | Skipped            // a restore was in progress
    | BadPattern         // the filter pattern did not compile: the pass threw
    | NoRescaleObject    // the asset's "object/rescaleObject" was missing: the pass threw
    | Completed
    | DuplicateBody(name: string)  // a matched body found an earlier one's link, which already had a rigid body: the pass threw

  /**
   * The state a sync pass (`SyncCO`) leaves: the containers were torn
   * down; unless the filter or the asset was missing, the matched bodies
   * were handled in order until the end or until one found the link
   * object of an earlier one (a name without '/' repeated).
   */
  ghost predicate IsPass(ownerUid: string, pattern: string, debug: bool,
                         compile: string -> Option<string -> bool>, rescale: Option<seq<RigidBody>>,
                         before: seq<Atom>, after: seq<Atom>, links: seq<seq<Child>>,
                         outcome: SyncOutcome, linked: nat)
  {
    if compile(pattern).None? then
      outcome == BadPattern && after == before && links == []
    else if rescale.None? then
      outcome == NoRescaleObject && after == before && links == []
    else
      var m := Matched(rescale.value, compile(pattern).value);
      && linked <= |m|
      && LinksApart(m[..linked])
      && (outcome == Completed <==> linked == |m|)
      && (outcome != Completed ==>
            linked < |m| && outcome == DuplicateBody(m[linked].name) && Refound(m[..linked], m[linked].name))
      && after == SetupAll(before, ownerUid, m[..if outcome == Completed then linked else linked + 1])
      && links == if linked == 0 then [] else [LinksOf(ownerUid, m[..linked], debug)]
  }

  /** The state a pass leaves when it stops at a matched body that finds the link object of an earlier one. */
  lemma PassStopsAtDuplicate(ownerUid: string, pattern: string, debug: bool,
                             compile: string -> Option<string -> bool>, bodies: seq<RigidBody>,
                             before: seq<Atom>, after: seq<Atom>, links: seq<seq<Child>>,
                             m: seq<RigidBody>, rb: RigidBody)
    requires compile(pattern).Some?
    requires |m| < |Matched(bodies, compile(pattern).value)|
    requires Matched(bodies, compile(pattern).value)[..|m| + 1] == m + [rb]
    requires LinksApart(m) && Refound(m, rb.name)
    requires after == SetupOne(SetupAll(before, ownerUid, m), ControlId(ownerUid, rb.name), ownerUid)
    requires links == if m == [] then [] else [LinksOf(ownerUid, m, debug)]
    ensures IsPass(ownerUid, pattern, debug, compile, Some(bodies), before, after, links, DuplicateBody(rb.name), |m|)
  {
    var all := Matched(bodies, compile(pattern).value);
    assert all[..|m|] == all[..|m| + 1][..|m|] == m;
    assert all[|m|] == all[..|m| + 1][|m|] == rb;
    assert all[..|m| + 1] == all[..|m|] + [all[|m|]];
    assert (m + [rb])[..|m|] == m;
    assert SetupAll(before, ownerUid, all[..|m| + 1]) == after;
  }

  /** The state a pass leaves when it handles every matched body. */
  lemma PassCompletes(ownerUid: string, pattern: string, debug: bool,
                      compile: string -> Option<string -> bool>, bodies: seq<RigidBody>,
                      before: seq<Atom>, after: seq<Atom>, links: seq<seq<Child>>,
                      m: seq<RigidBody>)
    requires compile(pattern).Some?
    requires m == Matched(bodies, compile(pattern).value) && LinksApart(m)
    requires after == SetupAll(before, ownerUid, m)
    requires links == if m == [] then [] else [LinksOf(ownerUid, m, debug)]
    ensures IsPass(ownerUid, pattern, debug, compile, Some(bodies), before, after, links, Completed, |m|)
  {
    assert m[..|m|] == m;
  }

  /**
   * A pass completes exactly when no matched body finds the link object
   * of an earlier one: no name without '/' is matched twice.
   */
  lemma PassCompletesIffApart(ownerUid: string, pattern: string, debug: bool,
                                 compile: string -> Option<string -> bool>, bodies: seq<RigidBody>,
                                 before: seq<Atom>, after: seq<Atom>, links: seq<seq<Child>>,
                                 outcome: SyncOutcome, linked: nat)
    requires IsPass(ownerUid, pattern, debug, compile, Some(bodies), before, after, links, outcome, linked)
    requires compile(pattern).Some?
    ensures outcome == Completed <==> LinksApart(Matched(bodies, compile(pattern).value))
  {
    var m := Matched(bodies, compile(pattern).value);
    if outcome == Completed {
      assert m[..linked] == m;
    } else {
      var j :| 0 <= j < linked && m[..linked][j].name == m[linked].name;
      if LinksApart(m) {
        ApartAt(m, j, linked);
      }
    }
  }

  /**
   * A pass whose matched bodies all have a '/' in their names completes,
   * however often a name repeats: every lookup misses, so each body gets
   * a link object of its own.
   */
  lemma PathNamesComplete(ownerUid: string, pattern: string, debug: bool,
                          compile: string -> Option<string -> bool>, bodies: seq<RigidBody>,
                          before: seq<Atom>, after: seq<Atom>, links: seq<seq<Child>>,
                          outcome: SyncOutcome, linked: nat)
    requires IsPass(ownerUid, pattern, debug, compile, Some(bodies), before, after, links, outcome, linked)
    requires compile(pattern).Some?
    requires forall b :: b in Matched(bodies, compile(pattern).value) ==> '/' in b.name
    ensures outcome == Completed
  {
    PathNamesApart(Matched(bodies, compile(pattern).value));
    PassCompletesIffApart(ownerUid, pattern, debug, compile, bodies, before, after, links, outcome, linked);
  }

  /**
   * Idempotence: a second pass over the same asset and filter, with no
   * other change in between, leaves the registry and the links as the
   * first completed pass left them.
   */
  lemma SecondPassChangesNothing(ownerUid: string, pattern: string, debug: bool,
                                 compile: string -> Option<string -> bool>, rescale: Option<seq<RigidBody>>,
                                 a0: seq<Atom>, a1: seq<Atom>, a2: seq<Atom>,
                                 links1: seq<seq<Child>>, links2: seq<seq<Child>>,
                                 out1: SyncOutcome, out2: SyncOutcome, linked1: nat, linked2: nat)
    requires UniqueUids(a0)
    requires IsPass(ownerUid, pattern, debug, compile, rescale, a0, a1, links1, out1, linked1)
    requires IsPass(ownerUid, pattern, debug, compile, rescale, a1, a2, links2, out2, linked2)
    requires out1 == Completed
    ensures out2 == Completed && a2 == a1 && links2 == links1
  {
    var m := Matched(rescale.value, compile(pattern).value);
    assert m[..linked1] == m;
    PassCompletesIffApart(ownerUid, pattern, debug, compile, rescale.value, a0, a1, links1, out1, linked1);
    PassCompletesIffApart(ownerUid, pattern, debug, compile, rescale.value, a1, a2, links2, out2, linked2);
    assert m[..linked2] == m;
    SetupAllIdempotent(a0, ownerUid, m);
  }

  /**
   * A rebuild (`DestroyOldAtoms` and then a completed pass) leaves, for
   * every matched body, a newly created "Sphere" control atom parented
   * to the owner, and keeps every atom outside the owner's scope.
   */
  lemma RebuildRecreates(ownerUid: string, pattern: string, debug: bool,
                         compile: string -> Option<string -> bool>, bodies: seq<RigidBody>,
                         a0: seq<Atom>, a1: seq<Atom>, links: seq<seq<Child>>, linked: nat)
    requires UniqueUids(a0)
    requires compile(pattern).Some?
    requires IsPass(ownerUid, pattern, debug, compile, Some(bodies), Survivors(a0, BaseName(ownerUid)), a1, links, Completed, linked)
    ensures forall b :: b in Matched(bodies, compile(pattern).value) ==>
      Find(a1, ControlId(ownerUid, b.name)) == Some(Atom(ControlId(ownerUid, b.name), AtomType, Some(ownerUid)))
    ensures forall u :: !StartsWith(u, BaseName(ownerUid)) ==> Find(a1, u) == Find(a0, u)
  {
    var m := Matched(bodies, compile(pattern).value);
    var s := Survivors(a0, BaseName(ownerUid));
    assert m[..linked] == m;
    FilterUnique(a0, Outside(BaseName(ownerUid)));
    FilterMembers(a0, Outside(BaseName(ownerUid)));
    SetupAllFresh(s, ownerUid, m);
    SetupAllSpec(s, ownerUid, m);
    forall u | !StartsWith(u, BaseName(ownerUid))
      ensures Find(a1, u) == Find(a0, u)
    {
      FindSurvivors(a0, BaseName(ownerUid), u);
      if u in ControlIds(ownerUid, m) {
        var b :| b in m && u == ControlId(ownerUid, b.name);
        ControlIdInScope(ownerUid, b.name);
      }
    }
  }

  // ---------------------------------------------------------------------
  // The plugin

  class Controllers {
    /** `containingAtom.uid`. */
    const ownerUid: string
    /** The host's global atom registry. */
    const registry: AtomRegistry
    /** `jsonNodeRE.val`: the filter pattern's text. */
    var nodePattern: string
    /** `debug.val`. */
    var debug: bool
    /** The children named "ControlLinks" of the containing atom's transform, in order, each with its link objects in order. */
    var controlLinks: seq<seq<Child>>

    ghost predicate Valid()
      reads this, registry
    {
      registry.Valid()
    }

    /** `Init`: the pattern starts as ".*" and debug drawing off. */
    constructor (ownerUid: string, registry: AtomRegistry, controlLinks: seq<seq<Child>>)
      requires registry.Valid()
      ensures Valid()
      ensures this.ownerUid == ownerUid && this.registry == registry && this.controlLinks == controlLinks
      ensures nodePattern == ".*" && !debug
    {
      this.ownerUid := ownerUid;
      this.registry := registry;
      this.controlLinks := controlLinks;
      nodePattern := ".*";
      debug := false;
    }

    /** Removes every atom inside the owner's scope, unless a restore is in progress. */
    method DestroyOldAtoms(insideRestore: bool)
      requires Valid()
      modifies registry
      ensures Valid()
      ensures registry.atoms == if insideRestore then old(registry.atoms) else Survivors(old(registry.atoms), BaseName(ownerUid))
    {
      var all := registry.atoms;
      var prefix := BaseName(ownerUid);
      var i := 0;
      while i < |all|
        invariant 0 <= i <= |all| && UniqueUids(all)
        invariant registry.atoms == Swept(all, i, prefix, insideRestore)
      {
        RemoveIfScoped(all, i, prefix, insideRestore);
        i := i + 1;
      }
      assert all[..i] == all && all[i..] == [];
      FilterUnique(all, Outside(prefix));
    }

    /** One turn of the removal loop: the atom at position `i` of the snapshot goes when it is in the scope. */
    method RemoveIfScoped(all: seq<Atom>, i: nat, prefix: string, insideRestore: bool)
      requires i < |all| && UniqueUids(all)
      requires registry.atoms == Swept(all, i, prefix, insideRestore)
      modifies registry
      ensures registry.atoms == Swept(all, i + 1, prefix, insideRestore)
    {
      var item := all[i];
      if !StartsWith(item.uid, prefix) {
        KeepInSnapshot(all, i, prefix);
      } else if !insideRestore {
        RemoveFromSnapshot(all, i, prefix);
        registry.RemoveAtom(item.uid);
      }
    }

    /** `OnDestroy`. */
    method OnDestroy(insideRestore: bool)
      requires Valid()
      modifies registry
      ensures Valid()
      ensures registry.atoms == if insideRestore then old(registry.atoms) else Survivors(old(registry.atoms), BaseName(ownerUid))
    {
      DestroyOldAtoms(insideRestore);
    }

    /** Finds, repairs or creates the "Sphere" control atom with uid `name`. */
    method SetupControlAtom(name: string)
      requires Valid()
      modifies registry
      ensures Valid()
      ensures registry.atoms == SetupOne(old(registry.atoms), name, ownerUid)
    {
      var controlAtom := registry.GetAtomByUid(name);
      if controlAtom.Some? && controlAtom.value.kind != AtomType {
        FilterUnique(registry.atoms, OtherThan(name));
        registry.RemoveAtom(name);
        FindWithout(old(registry.atoms), name, name);
        controlAtom := None;
      }
      if controlAtom.None? {
        ghost var before := registry.atoms;
        registry.AddAtomByType(AtomType, name);
        registry.SetParentAtom(name, Some(ownerUid));
        ReparentNew(before, name, AtomType, Some(ownerUid));
      }
    }

    /**
     * Finds or creates the link object for body `rbName` under the (first)
     * "ControlLinks" container, creating the container when there is none;
     * returns the link object's position in it.
     */
    method CreateControlLink(rbName: string) returns (pos: nat)
      modifies this`controlLinks
      ensures controlLinks != [] && pos < |controlLinks[0]| && controlLinks[0][pos].name == LinkName(rbName)
      ensures old(controlLinks) == [] ==> controlLinks == [[Child(LinkName(rbName), EmptyLink)]] && pos == 0
      ensures old(controlLinks) != [] ==> controlLinks[1..] == old(controlLinks)[1..]
      ensures old(controlLinks) != [] && FindChild(old(controlLinks)[0], LinkName(rbName)).Some? ==>
        controlLinks == old(controlLinks) && pos == FindChild(old(controlLinks)[0], LinkName(rbName)).value
      ensures old(controlLinks) != [] && FindChild(old(controlLinks)[0], LinkName(rbName)).None? ==>
        controlLinks[0] == old(controlLinks)[0] + [Child(LinkName(rbName), EmptyLink)] && pos == |old(controlLinks)[0]|
    {
      if controlLinks == [] {
        controlLinks := [[]];
      }
      var name := LinkName(rbName);
      var found := FindChild(controlLinks[0], name);
      if found.Some? {
        return found.value;
      }
      pos := |controlLinks[0]|;
      assert [] + [Child(name, EmptyLink)] == [Child(name, EmptyLink)];
      controlLinks := controlLinks[0 := controlLinks[0] + [Child(name, EmptyLink)]];
    }

    /** `AddComponent<Rigidbody>` on the link object at `pos`; the engine refuses a second one. */
    method AddLinkRigidbody(pos: nat) returns (added: bool)
      requires controlLinks != [] && pos < |controlLinks[0]|
      modifies this`controlLinks
      ensures added == !old(controlLinks)[0][pos].link.hasRigidbody
      ensures controlLinks == if added
        then WithLink(old(controlLinks), pos, old(controlLinks)[0][pos].link.(hasRigidbody := true))
        else old(controlLinks)
    {
      added := !controlLinks[0][pos].link.hasRigidbody;
      if added {
        controlLinks := WithLink(controlLinks, pos, controlLinks[0][pos].link.(hasRigidbody := true));
      }
    }

    /** Adds to the link object at `pos` a fixed joint to `target`, with no automatic anchor and a zero connected anchor. */
    method CreateFixedJoint(pos: nat, target: JointTarget)
      requires controlLinks != [] && pos < |controlLinks[0]|
      modifies this`controlLinks
      ensures controlLinks == WithLink(old(controlLinks), pos,
        old(controlLinks)[0][pos].link.(joints := old(controlLinks)[0][pos].link.joints + [JointTo(target)]))
    {
      var l := controlLinks[0][pos].link;
      controlLinks := WithLink(controlLinks, pos, l.(joints := l.joints + [JointTo(target)]));
    }

    /** Adds the debug drawer to the link object at `pos`, or destroys it. */
    method SetLinkDebug(pos: nat, on: bool)
      requires controlLinks != [] && pos < |controlLinks[0]|
      modifies this`controlLinks
      ensures controlLinks == WithLink(old(controlLinks), pos, old(controlLinks)[0][pos].link.(debugComponent := on))
    {
      controlLinks := WithLink(controlLinks, pos, controlLinks[0][pos].link.(debugComponent := on));
    }

    /**
     * One sync pass: tear down every "ControlLinks" container, compile
     * the filter, then for each matched rigid body set up its control
     * atom and build its link with two fixed joints.
     */
    method SyncCO(compile: string -> Option<string -> bool>, rescale: Option<seq<RigidBody>>)
      returns (outcome: SyncOutcome, linked: nat)
      requires Valid()
      modifies this`controlLinks, registry
      ensures Valid()
      ensures IsPass(ownerUid, nodePattern, debug, compile, rescale, old(registry.atoms), registry.atoms, controlLinks, outcome, linked)
    {
      ClearControlLinks();
      var regex := compile(nodePattern);
      if regex.None? {
        return BadPattern, 0;
      }
      if rescale.None? {
        return NoRescaleObject, 0;
      }
      outcome, linked := LinkMatched(compile, rescale.value);
    }

    /** Destroys every "ControlLinks" container under the owner's transform. */
    method ClearControlLinks()
      modifies this`controlLinks
      ensures controlLinks == []
    {
      while controlLinks != []
        decreases |controlLinks|
      {
        controlLinks := controlLinks[1..];
      }
    }

    /** The loop of a pass over the asset's rigid bodies, once the filter compiled and the containers are gone. */
    method LinkMatched(compile: string -> Option<string -> bool>, bodies: seq<RigidBody>)
      returns (outcome: SyncOutcome, linked: nat)
      requires Valid() && controlLinks == [] && compile(nodePattern).Some?
      modifies this`controlLinks, registry
      ensures Valid()
      ensures IsPass(ownerUid, nodePattern, debug, compile, Some(bodies), old(registry.atoms), registry.atoms, controlLinks, outcome, linked)
    {
      var matches := compile(nodePattern).value;
      var stopped, i;
      ghost var m, prior;
      stopped, i, linked, m, prior := LinkAll(matches, bodies);
      if stopped {
        LinkingStops(ownerUid, nodePattern, debug, compile, old(registry.atoms), bodies, i, m, prior, registry.atoms, controlLinks);
        return DuplicateBody(bodies[i].name), linked;
      }
      LinkingDone(ownerUid, nodePattern, debug, compile, old(registry.atoms), bodies, m, registry.atoms, controlLinks);
      return Completed, linked;
    }

    /**
     * The loop of a pass: links the matched bodies in order, and stops at
     * the first one that finds the link object of an earlier one.
     */
    method LinkAll(matches: string -> bool, bodies: seq<RigidBody>)
      returns (stopped: bool, i: nat, linked: nat, ghost m: seq<RigidBody>, ghost prior: seq<Atom>)
      requires Valid() && controlLinks == []
      modifies this`controlLinks, registry
      ensures Valid() && linked == |m|
      ensures stopped ==> Stopping(ownerUid, debug, old(registry.atoms), bodies, matches, i, m, prior, registry.atoms, controlLinks)
      ensures !stopped ==> Linking(ownerUid, debug, old(registry.atoms), bodies, matches, |bodies|, m, registry.atoms, controlLinks)
    {
      m, prior := [], registry.atoms;
      linked := 0;
      i := 0;
      while i < |bodies|
        invariant 0 <= i <= |bodies| && linked == |m|
        invariant registry.Valid()
        invariant Linking(ownerUid, debug, old(registry.atoms), bodies, matches, i, m, registry.atoms, controlLinks)
      {
        var stop;
        stop, prior := LinkNext(matches, bodies, i, m, old(registry.atoms));
        if stop {
          return true, i, linked, m, prior;
        }
        if matches(bodies[i].name) {
          m := m + [bodies[i]];
          linked := linked + 1;
        }
        i := i + 1;
      }
      stopped := false;
    }

    /**
     * One turn of a pass's loop: body `i` is skipped when the filter
     * rejects it, otherwise linked; the pass stops at a body that finds
     * the link object of an earlier linked one.
     */
    method LinkNext(matches: string -> bool, bodies: seq<RigidBody>, i: nat, ghost m: seq<RigidBody>, ghost before: seq<Atom>)
      returns (stop: bool, ghost prior: seq<Atom>)
      requires Valid() && i < |bodies|
      requires Linking(ownerUid, debug, before, bodies, matches, i, m, registry.atoms, controlLinks)
      modifies this`controlLinks, registry
      ensures Valid()
      ensures stop ==> Stopping(ownerUid, debug, before, bodies, matches, i, m, prior, registry.atoms, controlLinks)
      ensures !stop ==> Linking(ownerUid, debug, before, bodies, matches, i + 1,
                                if matches(bodies[i].name) then m + [bodies[i]] else m, registry.atoms, controlLinks)
    {
      var rb := bodies[i];
      prior := registry.atoms;
      if !matches(rb.name) {
        LinkingSkip(ownerUid, debug, before, bodies, matches, i, m, registry.atoms, controlLinks);
        return false, prior;
      }
      LinkingParts(ownerUid, debug, before, bodies, matches, i, m, registry.atoms, controlLinks);
      var added := LinkBody(rb, m);
      if !added {
        return true, prior;
      }
      LinkingAdd(ownerUid, debug, before, bodies, matches, i, m, prior, registry.atoms, controlLinks);
      return false, prior;
    }

    /**
     * Handles one matched body: sets up its control atom, finds or
     * creates its link object and, unless the lookup found one that
     * already had a rigid body (an earlier body of the same name, without
     * '/'), gives it a rigid body, the two fixed joints and the debug
     * drawer setting.
     */
    method LinkBody(rb: RigidBody, ghost m: seq<RigidBody>) returns (added: bool)
      requires Valid() && LinksApart(m)
      requires controlLinks == if m == [] then [] else [LinksOf(ownerUid, m, debug)]
      modifies this`controlLinks, registry
      ensures Valid()
      ensures registry.atoms == SetupOne(old(registry.atoms), ControlId(ownerUid, rb.name), ownerUid)
      ensures added <==> !Refound(m, rb.name)
      ensures controlLinks == if added then [LinksOf(ownerUid, m + [rb], debug)] else old(controlLinks)
    {
      var controlName := ControlId(ownerUid, rb.name);
      SetupControlAtom(controlName);
      ghost var prev := LinksOf(ownerUid, m, debug);
      LinkFound(ownerUid, m, debug, rb.name);
      LinksOfLength(ownerUid, m, debug);
      var pos := CreateControlLink(rb.name);
      if Refound(m, rb.name) {
        LinksOfAt(ownerUid, m, debug, pos);
      } else if m == [] {
        assert [] + [Child(LinkName(rb.name), EmptyLink)] == [Child(LinkName(rb.name), EmptyLink)];
      } else {
        assert |controlLinks| == 1;
      }
      added := AddLinkRigidbody(pos);
      if !added {
        return;
      }
      WithLast(prev, Child(LinkName(rb.name), EmptyLink), Link(true, [], false));
      FillLink(pos, rb, prev);
      assert (m + [rb])[..|m|] == m;
    }

    /** A link object that just got its rigid body gets the two fixed joints and the debug drawer setting. */
    method FillLink(pos: nat, rb: RigidBody, ghost prev: seq<Child>)
      requires pos == |prev| && controlLinks == [prev + [Child(LinkName(rb.name), Link(true, [], false))]]
      modifies this`controlLinks
      ensures controlLinks == [prev + [NewLink(ownerUid, rb, debug)]]
    {
      var controlName := ControlId(ownerUid, rb.name);
      ghost var j1 := JointTo(ControlAtomBody(controlName));
      ghost var name := LinkName(rb.name);
      CreateFixedJoint(pos, ControlAtomBody(controlName));
      assert [] + [j1] == [j1];
      WithLast(prev, Child(name, Link(true, [], false)), Link(true, [j1], false));
      CreateFixedJoint(pos, AssetBody(rb));
      assert [j1] + [JointTo(AssetBody(rb))] == NewLink(ownerUid, rb, false).link.joints;
      WithLast(prev, Child(name, Link(true, [j1], false)), NewLink(ownerUid, rb, false).link);
      SetLinkDebug(pos, debug);
      WithLast(prev, NewLink(ownerUid, rb, false), NewLink(ownerUid, rb, debug).link);
    }

    /** `Sync`: a pass, unless a restore is in progress. */
    method Sync(insideRestore: bool, compile: string -> Option<string -> bool>, rescale: Option<seq<RigidBody>>)
      returns (outcome: SyncOutcome, linked: nat)
      requires Valid()
      modifies this`controlLinks, registry
      ensures Valid()
      ensures insideRestore ==>
        outcome == Skipped && registry.atoms == old(registry.atoms) && controlLinks == old(controlLinks)
      ensures !insideRestore ==>
        IsPass(ownerUid, nodePattern, debug, compile, rescale, old(registry.atoms), registry.atoms, controlLinks, outcome, linked)
    {
      if insideRestore {
        return Skipped, 0;
      }
      outcome, linked := SyncCO(compile, rescale);
    }

    /** Editing the filter pattern: remove the owner's atoms, then sync. */
    method SetNodePattern(pattern: string, insideRestore: bool,
                          compile: string -> Option<string -> bool>, rescale: Option<seq<RigidBody>>)
      returns (outcome: SyncOutcome, linked: nat)
      requires Valid()
      modifies this, registry
      ensures Valid()
      ensures nodePattern == pattern && debug == old(debug)
      ensures insideRestore ==>
        outcome == Skipped && registry.atoms == old(registry.atoms) && controlLinks == old(controlLinks)
      ensures !insideRestore ==>
        IsPass(ownerUid, pattern, debug, compile, rescale,
               Survivors(old(registry.atoms), BaseName(ownerUid)), registry.atoms, controlLinks, outcome, linked)
    {
      nodePattern := pattern;
      DestroyOldAtoms(insideRestore);
      outcome, linked := Sync(insideRestore, compile, rescale);
    }

    /** Toggling debug drawing: sync again. */
    method SetDebug(on: bool, insideRestore: bool,
                    compile: string -> Option<string -> bool>, rescale: Option<seq<RigidBody>>)
      returns (outcome: SyncOutcome, linked: nat)
      requires Valid()
      modifies this, registry
      ensures Valid()
      ensures debug == on && nodePattern == old(nodePattern)
      ensures insideRestore ==>
        outcome == Skipped && registry.atoms == old(registry.atoms) && controlLinks == old(controlLinks)
      ensures !insideRestore ==>
        IsPass(ownerUid, nodePattern, on, compile, rescale, old(registry.atoms), registry.atoms, controlLinks, outcome, linked)
    {
      debug := on;
      outcome, linked := Sync(insideRestore, compile, rescale);
    }
  }

  /**
   * The registry once the removal loop has looked at the first `i` atoms
   * of the snapshot `all`: nothing is removed during a restore.
   */
  function Swept(all: seq<Atom>, i: nat, prefix: string, insideRestore: bool): seq<Atom>
    requires i <= |all|
  {
    if insideRestore then all else Survivors(all[..i], prefix) + all[i..]
  }

  /** An atom outside the scope stays where the removal loop found it. */
  lemma KeepInSnapshot(all: seq<Atom>, i: nat, prefix: string)
    requires i < |all| && !StartsWith(all[i].uid, prefix)
    ensures Survivors(all[..i + 1], prefix) + all[i + 1..] == Survivors(all[..i], prefix) + all[i..]
  {
    FilterSnoc(all, i, Outside(prefix));
    assert all[i..] == [all[i]] + all[i + 1..];
  }

  /**
   * Removing the scoped atom at position `i` of a snapshot from what the
   * removal loop has left so far drops exactly that atom.
   */
  lemma RemoveFromSnapshot(all: seq<Atom>, i: nat, prefix: string)
    requires i < |all| && UniqueUids(all) && StartsWith(all[i].uid, prefix)
    ensures Without(Survivors(all[..i], prefix) + all[i..], all[i].uid) == Survivors(all[..i + 1], prefix) + all[i + 1..]
  {
    var kept, x, rest := Survivors(all[..i], prefix), all[i], all[i + 1..];
    assert all[i..] == [x] + rest;
    assert kept + all[i..] == kept + [x] + rest;
    BeforeAvoids(all, i, prefix);
    AfterAvoids(all, i, rest);
    FilterDropOne(kept, x, rest, OtherThan(x.uid));
    FilterSnoc(all, i, Outside(prefix));
    assert Survivors(all[..i + 1], prefix) == kept;
  }

  lemma BeforeAvoids(all: seq<Atom>, i: nat, prefix: string)
    requires i < |all| && UniqueUids(all)
    ensures forall k :: 0 <= k < |Survivors(all[..i], prefix)| ==> OtherThan(all[i].uid)(Survivors(all[..i], prefix)[k])
  {
    var kept := Survivors(all[..i], prefix);
    FilterMembers(all[..i], Outside(prefix));
    forall k | 0 <= k < |kept|
      ensures kept[k].uid != all[i].uid
    {
      var j :| 0 <= j < i && all[..i][j] == kept[k];
    }
  }

  lemma AfterAvoids(all: seq<Atom>, i: nat, rest: seq<Atom>)
    requires i < |all| && UniqueUids(all) && rest == all[i + 1..]
    ensures forall k :: 0 <= k < |rest| ==> OtherThan(all[i].uid)(rest[k])
  {
    forall k | 0 <= k < |rest|
      ensures rest[k].uid != all[i].uid
    {
    }
  }

  /** One more body of the traversal: the matched ones grow by it exactly when it matches. */
  lemma MatchedStep(bodies: seq<RigidBody>, i: nat, matches: string -> bool)
    requires i < |bodies|
    ensures !matches(bodies[i].name) ==> Matched(bodies[..i + 1], matches) == Matched(bodies[..i], matches)
    ensures matches(bodies[i].name) ==> Matched(bodies[..i + 1], matches) == Matched(bodies[..i], matches) + [bodies[i]]
    ensures matches(bodies[i].name) ==> |Matched(bodies[..i], matches)| < |Matched(bodies, matches)|
    ensures matches(bodies[i].name) ==>
      Matched(bodies, matches)[..|Matched(bodies[..i], matches)| + 1] == Matched(bodies[..i], matches) + [bodies[i]]
    ensures matches(bodies[i].name) ==> Matched(bodies, matches)[|Matched(bodies[..i], matches)|] == bodies[i]
  {
    FilterSnoc(bodies, i, Accepts(matches));
    FilterPrefix(bodies, i + 1, Accepts(matches));
    FilterPrefix(bodies, i, Accepts(matches));
  }

  /**
   * What a pass has done after looking at the first `i` bodies: `m`
   * holds the matched ones so far, each has its control atom and its
   * link, and none found an earlier one's link object.
   */
  ghost predicate Linking(ownerUid: string, debug: bool, before: seq<Atom>, bodies: seq<RigidBody>,
                          matches: string -> bool, i: nat, m: seq<RigidBody>, after: seq<Atom>,
                          links: seq<seq<Child>>)
  {
    && i <= |bodies|
    && m == Matched(bodies[..i], matches)
    && |m| <= |Matched(bodies, matches)| && Matched(bodies, matches)[..|m|] == m
    && LinksApart(m)
    && after == SetupAll(before, ownerUid, m)
    && links == if m == [] then [] else [LinksOf(ownerUid, m, debug)]
  }

  /**
   * A pass stopping at body `i`: it matches but finds the link object of
   * an earlier linked body; its control atom was set up, the link left alone.
   */
  ghost predicate Stopping(ownerUid: string, debug: bool, before: seq<Atom>, bodies: seq<RigidBody>,
                           matches: string -> bool, i: nat, m: seq<RigidBody>, prior: seq<Atom>,
                           after: seq<Atom>, links: seq<seq<Child>>)
  {
    && Linking(ownerUid, debug, before, bodies, matches, i, m, prior, links)
    && i < |bodies| && matches(bodies[i].name) && Refound(m, bodies[i].name)
    && after == SetupOne(prior, ControlId(ownerUid, bodies[i].name), ownerUid)
  }

  /** The parts of the pass state that handling the next body relies on. */
  lemma LinkingParts(ownerUid: string, debug: bool, before: seq<Atom>, bodies: seq<RigidBody>,
                     matches: string -> bool, i: nat, m: seq<RigidBody>, after: seq<Atom>,
                     links: seq<seq<Child>>)
    requires Linking(ownerUid, debug, before, bodies, matches, i, m, after, links)
    ensures LinksApart(m)
    ensures links == if m == [] then [] else [LinksOf(ownerUid, m, debug)]
  {
  }

  /** A body the filter rejects leaves the pass state as it was. */
  lemma LinkingSkip(ownerUid: string, debug: bool, before: seq<Atom>, bodies: seq<RigidBody>,
                    matches: string -> bool, i: nat, m: seq<RigidBody>, after: seq<Atom>,
                    links: seq<seq<Child>>)
    requires Linking(ownerUid, debug, before, bodies, matches, i, m, after, links)
    requires i < |bodies| && !matches(bodies[i].name)
    ensures Linking(ownerUid, debug, before, bodies, matches, i + 1, m, after, links)
  {
    MatchedStep(bodies, i, matches);
  }

  /** A matched body with a new name joins the linked ones. */
  lemma LinkingAdd(ownerUid: string, debug: bool, before: seq<Atom>, bodies: seq<RigidBody>,
                   matches: string -> bool, i: nat, m: seq<RigidBody>, after: seq<Atom>,
                   after': seq<Atom>, links': seq<seq<Child>>)
    requires Linking(ownerUid, debug, before, bodies, matches, i, m, after,
                     if m == [] then [] else [LinksOf(ownerUid, m, debug)])
    requires i < |bodies| && matches(bodies[i].name) && !Refound(m, bodies[i].name)
    requires after' == SetupOne(after, ControlId(ownerUid, bodies[i].name), ownerUid)
    requires links' == [LinksOf(ownerUid, m + [bodies[i]], debug)]
    ensures Linking(ownerUid, debug, before, bodies, matches, i + 1, m + [bodies[i]], after', links')
  {
    MatchedStep(bodies, i, matches);
    ApartSnoc(m, bodies[i]);
    assert (m + [bodies[i]])[..|m|] == m;
  }

  /** The state a pass leaves when it stops at a matched body that finds an earlier one's link object. */
  lemma LinkingStops(ownerUid: string, pattern: string, debug: bool, compile: string -> Option<string -> bool>,
                     before: seq<Atom>, bodies: seq<RigidBody>, i: nat, m: seq<RigidBody>, prior: seq<Atom>,
                     after: seq<Atom>, links: seq<seq<Child>>)
    requires compile(pattern).Some?
    requires Stopping(ownerUid, debug, before, bodies, compile(pattern).value, i, m, prior, after, links)
    ensures IsPass(ownerUid, pattern, debug, compile, Some(bodies), before, after, links, DuplicateBody(bodies[i].name), |m|)
  {
    MatchedStep(bodies, i, compile(pattern).value);
    PassStopsAtDuplicate(ownerUid, pattern, debug, compile, bodies, before, after, links, m, bodies[i]);
  }

  /** The state a pass leaves when it has looked at every body. */
  lemma LinkingDone(ownerUid: string, pattern: string, debug: bool, compile: string -> Option<string -> bool>,
                    before: seq<Atom>, bodies: seq<RigidBody>, m: seq<RigidBody>, after: seq<Atom>,
                    links: seq<seq<Child>>)
    requires compile(pattern).Some?
    requires Linking(ownerUid, debug, before, bodies, compile(pattern).value, |bodies|, m, after, links)
    ensures IsPass(ownerUid, pattern, debug, compile, Some(bodies), before, after, links, Completed, |m|)
  {
    assert bodies[..|bodies|] == bodies;
    PassCompletes(ownerUid, pattern, debug, compile, bodies, before, after, links, m);
  }
}

=== FILE: emissive_clothing.dfy ===
/**
 * The EmissiveClothing plugin.
 *
 * For every clothing skin wrap of the atom that has a material option
 * whose override id carries the "(em)" tag, the plugin moves the decal
 * texture of the tagged material slots onto new glow materials on its own
 * shader, hides the originals' decals, and puts an emissive wrap beside
 * the original one that draws the clothing (with the original or with
 * hidden copies of its materials) and then each glow material over its
 * sub-mesh.  Two lists kept in lockstep remember the wraps it took over
 * and their glow materials; tearing down puts the decals back.
 */
module EmissiveClothing {
  import opened Wrappers
  import opened Strings
  import opened Unity
  import opened Seqs

  // ---------------------------------------------------------------------
  // Locating the plugin

  /** The characters that end a folder name in a script path. */
  const PathSeparators: set<char> := {'/', '\\'}

  /**
   * The script file the scene's "plugins" table lists for the plugin
   * whose store id is `storeId`: the table is keyed by the part of the
   * store id before the first '_'; a missing key reads as "".
   */
  function ScriptPath(storeId: string, plugins: map<string, string>): string {
    var pluginId := FirstField(storeId, '_');
    if pluginId in plugins then plugins[pluginId] else ""
  }

  /**
   * `GetPluginPath`: the folder of the plugin's script, i.e. the script
   * path up to (not including) its last separator; `None` where
   * `Substring(0, -1)` would throw because the path has no separator.
   */
  function GetPluginPath(storeId: string, plugins: map<string, string>): (r: Option<string>)
    ensures var path := ScriptPath(storeId, plugins);
      r.None? <==> forall k :: 0 <= k < |path| ==> path[k] !in PathSeparators
    ensures var path := ScriptPath(storeId, plugins);
      r.Some? ==>
        && StartsWith(path, r.value) && |r.value| < |path| && path[|r.value|] in PathSeparators
        && forall k :: |r.value| < k < |path| ==> path[k] !in PathSeparators
  {
    var path := ScriptPath(storeId, plugins);
    var cut := LastIndexOfAny(path, PathSeparators);
    if cut < 0 then None else Some(path[..cut])
  }

  // ---------------------------------------------------------------------
  // Skin wraps and their material options

  /** A `DAZSkinWrapMaterialOptions` component: its override id and the material slots it edits. */
  datatype MaterialOption = MaterialOption(overrideId: string, slots: seq<int>)

  /** The tag that marks a material option as emissive. */
  const EmissiveTag: string := "(em)"

  /** An option the plugin acts on: its override id carries the tag. */
  predicate IsTagged(o: MaterialOption) {
    Contains(o.overrideId, EmissiveTag)
  }

  /** The material slots named by the tagged options of a wrap. */
  function TaggedSlots(options: seq<MaterialOption>): (r: set<int>)
    ensures forall i :: i in r <==> exists o :: o in options && IsTagged(o) && i in o.slots
  {
    set o, i | o in options && IsTagged(o) && i in o.slots :: i
  }

  /**
   * The slots the conversion loop of `Build` visits, in order and with
   * repeats: the slot list of each tagged option in turn.
   */
  function TaggedList(options: seq<MaterialOption>): seq<int>
    decreases |options|
  {
    if options == [] then []
    else
      var o := options[|options| - 1];
      TaggedList(options[..|options| - 1]) + if IsTagged(o) then o.slots else []
  }

  /** Some tagged option names at least one slot. */
  predicate HasTaggedSlots(options: seq<MaterialOption>) {
    exists o :: o in options && IsTagged(o) && |o.slots| > 0
  }

  /** What a wrap draws with: nothing, the original wrap, an emissive wrap, or some other wrap. */
  datatype WrapRef = NoWrap | Plain(w: SkinWrap) | Emissive(e: EmissiveSkinWrap) | Elsewhere

  /**
   * A `DAZSkinWrap` of a clothing item: its name as `ToString` gives it,
   * whether its skin delays display by a frame, its material options and
   * its GPU materials, whether its game object has a `DAZSkinWrapControl`
   * and which wrap that control drives, and whether it draws itself.
   */
  class SkinWrap {
    const title: string
    const delayed: bool
    const options: seq<MaterialOption>
    const gpuMaterials: seq<MatId>
    const hasControl: bool
    var controlTarget: WrapRef
    var draw: bool

    constructor (title: string, delayed: bool, options: seq<MaterialOption>, gpuMaterials: seq<MatId>,
                 hasControl: bool, controlTarget: WrapRef)
      ensures this.title == title && this.delayed == delayed && this.options == options
      ensures this.gpuMaterials == gpuMaterials && this.hasControl == hasControl
      ensures this.controlTarget == controlTarget && draw
    {
      this.title, this.delayed, this.options := title, delayed, options;
      this.gpuMaterials, this.hasControl, this.controlTarget := gpuMaterials, hasControl, controlTarget;
      draw := true;
    }
  }

  /**
   * The wraps `Build` takes over: not an emissive wrap left from an
   * earlier build (its name carries "Emissive"), not delayed, and with a
   * tagged option that names a slot.
   */
  function Tracked(w: SkinWrap): bool {
    !Contains(w.title, "Emissive") && !w.delayed && HasTaggedSlots(w.options)
  }

  // ---------------------------------------------------------------------
  // Handing the wrap control over and back

  /** `CopyFrom`: a control that drives nothing or the original wrap is handed to the emissive wrap. */
  function HandOver(target: WrapRef, w: SkinWrap, e: EmissiveSkinWrap): (r: WrapRef)
    ensures r != Plain(w)
    ensures target == NoWrap || target == Plain(w) ==> r == Emissive(e)
    ensures target != NoWrap && target != Plain(w) ==> r == target
  {
    if target == NoWrap || target == Plain(w) then Emissive(e) else target
  }

  /** `OnDestroy`, corrected: a control that drives nothing or the emissive wrap goes back to the original wrap. */
  function HandBack(target: WrapRef, w: SkinWrap, e: EmissiveSkinWrap): (r: WrapRef)
    ensures r != Emissive(e)
    ensures target == NoWrap || target == Emissive(e) ==> r == Plain(w)
    ensures target != NoWrap && target != Emissive(e) ==> r == target
  {
    if target == NoWrap || target == Emissive(e) then Plain(w) else target
  }

  /**
   * `OnDestroy` as written: the second test compares the control's wrap
   * with the plugin itself, which is never a wrap, so only a control that
   * drives nothing is handed back.
   */
  function HandBackAsWritten(target: WrapRef, w: SkinWrap): (r: WrapRef)
    ensures target == NoWrap ==> r == Plain(w)
    ensures target != NoWrap ==> r == target
  {
    if target == NoWrap then Plain(w) else target
  }

  /**
   * Handing back undoes handing over: a control ends on the original wrap
   * if it drove it or nothing, and is left alone otherwise.
   */
  lemma HandBackUndoesHandOver(target: WrapRef, w: SkinWrap, e: EmissiveSkinWrap)
    requires target != Emissive(e)
    ensures HandBack(HandOver(target, w, e), w, e) == (if target == NoWrap then Plain(w) else target)
  {
  }

  /** As written, a control handed to the emissive wrap stays on it after teardown. */
  lemma AsWrittenStrandsControl(w: SkinWrap, e: EmissiveSkinWrap)
    ensures HandOver(Plain(w), w, e) == Emissive(e)
    ensures HandBackAsWritten(HandOver(Plain(w), w, e), w) == Emissive(e) != Plain(w)
  {
  }

  // ---------------------------------------------------------------------
  // Moving the decal

  /** The texture property the tagged slots' decal lives in. */
  const DecalKey: string := "_DecalTex"

  /** `mat.SetTexture("_DecalTex", null)`: the original without its decal. */
  function Cleared(m: Material): (r: Material)
    ensures GetTexture(r, DecalKey) == None
    ensures r.name == m.name && r.shader == m.shader && r.keywords == m.keywords && r.renderQueue == m.renderQueue
    ensures forall k :: k != DecalKey ==> (k in r.props <==> k in m.props) && (k in m.props ==> r.props[k] == m.props[k])
  {
    WithProp(m, DecalKey, TextureVal(None))
  }

  /** The glow material made for a slot whose material is `m`: `m`'s name, the plugin's shader, `m`'s decal as main texture. */
  function Glow(shader: string, m: Material): (r: Material)
    ensures GetTexture(r, "_MainTex") == GetTexture(m, DecalKey)
    ensures r.name == m.name && r.shader == shader
  {
    WithProp(Material(m.name, shader, {}, map[], DefaultRenderQueue), "_MainTex", TextureVal(GetTexture(m, DecalKey)))
  }

  /** The hidden copy of a slot's (already cleared) material: `_AlphaAdjust` at -1 makes it invisible. */
  function Hidden(m: Material): (r: Material)
    ensures "_AlphaAdjust" in r.props && r.props["_AlphaAdjust"] == FloatVal(-1.0)
    ensures forall k :: k != "_AlphaAdjust" ==> (k in r.props <==> k in m.props) && (k in m.props ==> r.props[k] == m.props[k])
  {
    WithProp(m, "_AlphaAdjust", FloatVal(-1.0))
  }

  /** `OnDestroy`'s step on one slot: the glow material's main texture goes back into the decal. */
  function ReturnDecal(m: Material, glow: Material): (r: Material)
    ensures GetTexture(r, DecalKey) == GetTexture(glow, "_MainTex")
  {
    WithProp(m, DecalKey, TextureVal(GetTexture(glow, "_MainTex")))
  }

  /**
   * Moving the decal to a glow material and back restores the original
   * material, whatever was done to the glow material in between as long
   * as its main texture was left alone.
   */
  lemma DecalRoundTrip(shader: string, m: Material, glow: Material)
    requires DecalKey in m.props && m.props[DecalKey].TextureVal?
    requires GetTexture(glow, "_MainTex") == GetTexture(Glow(shader, m), "_MainTex")
    ensures ReturnDecal(Cleared(m), glow) == m
  {
    assert m.props[DecalKey := TextureVal(None)][DecalKey := m.props[DecalKey]] == m.props;
  }

  /** A slot converted a second time in one build: its glow material gets no texture, the decal being gone already. */
  lemma SecondConversionLosesDecal(shader: string, m: Material)
    ensures GetTexture(Glow(shader, Cleared(m)), "_MainTex") == None
  {
  }

  // ---------------------------------------------------------------------
  // The emissive wrap

  /** `JSONStorableBool`: a toggle of the UI, shared by the plugin and every emissive wrap it made. */
  class Toggle {
    var val: bool

    constructor (val: bool)
      ensures this.val == val
    {
      this.val := val;
    }
  }

  /** What a frame drew: the skinned mesh with a list of materials, or one sub-mesh with one material. */
  datatype Draw = DrawSkinned(mats: seq<MatId>) | DrawSubmesh(mat: MatId, submesh: int)

  /** The sub-mesh draws of the glow materials among the first `n` slots, in slot order. */
  function GlowDraws(emissive: seq<Option<MatId>>, n: nat): (r: seq<Draw>)
    requires n <= |emissive|
    ensures |r| <= n
    ensures forall d :: d in r ==> d.DrawSubmesh? && 0 <= d.submesh < n && emissive[d.submesh] == Some(d.mat)
  {
    if n == 0 then []
    else GlowDraws(emissive, n - 1) + (if emissive[n - 1].Some? then [DrawSubmesh(emissive[n - 1].value, n - 1)] else [])
  }

  /** Every glow slot gets its sub-mesh draw. */
  lemma {:induction false} GlowDrawsAll(emissive: seq<Option<MatId>>, n: nat, i: int)
    requires n <= |emissive| && 0 <= i < n && emissive[i].Some?
    ensures DrawSubmesh(emissive[i].value, i) in GlowDraws(emissive, n)
  {
    if i < n - 1 {
      GlowDrawsAll(emissive, n - 1, i);
    }
  }

  /** `dict.TryGetValue(i, out b)`: the buffer cached under `i`, or null. */
  function Cached(cache: map<int, Option<BufId>>, i: int): Option<BufId> {
    if i in cache then cache[i] else None
  }

  /** The same lookup in one of the base wrap's caches, which hold buffers only. */
  function Found(cache: map<int, BufId>, i: int): Option<BufId> {
    if i in cache then Some(cache[i]) else None
  }

  /** Glow materials are the emissive wrap's own: no two slots share one, and none is a GPU material. */
  ghost predicate OwnGlow(gpu: seq<MatId>, emissive: seq<Option<MatId>>) {
    && (forall i, j :: 0 <= i < j < |emissive| && emissive[i].Some? && emissive[j].Some? ==>
          emissive[i].value != emissive[j].value)
    && (forall i, j :: 0 <= i < |emissive| && 0 <= j < |gpu| && emissive[i].Some? ==> emissive[i].value != gpu[j])
  }

  /**
   * `EmissiveDAZSkinWrap`: the wrap the plugin adds beside a clothing
   * item's own.  It draws the item with the original materials or with
   * their hidden copies, as the toggle says, then each glow material over
   * its sub-mesh, feeding it the vertex buffer the base wrap computed.
   */
  class EmissiveSkinWrap {
    const scene: Scene
    var gpuMaterials: seq<MatId>
    var draw: bool
    var alive: bool
    var renderOriginal: Toggle?
    var oldOriginal: bool
    var hiddenMats: seq<MatId>
    var emissiveMats: seq<Option<MatId>>
    /** `emissiveMaterialVertsBuffers`: the vertex buffer each glow material was last given. */
    var ourVerts: map<int, Option<BufId>>
    /** The base wrap's `materialVertsBuffers`, `materialNormalsBuffers` and `materialTangentsBuffers`. */
    var vertsBuffers: map<int, BufId>
    var normalsBuffers: map<int, BufId>
    var tangentsBuffers: map<int, BufId>
    /** The draw calls issued so far. */
    var draws: seq<Draw>

    ghost predicate Valid()
      reads this, scene
    {
      && scene.Valid() && renderOriginal != null
      && |gpuMaterials| == |hiddenMats| == |emissiveMats|
      && (forall i :: 0 <= i < |gpuMaterials| ==> gpuMaterials[i] in scene.mats)
      && (forall i :: 0 <= i < |emissiveMats| && emissiveMats[i].Some? ==> emissiveMats[i].value in scene.mats)
      && OwnGlow(gpuMaterials, emissiveMats)
    }

    /** `AddComponent<EmissiveDAZSkinWrap>()`: a fresh component with empty caches. */
    constructor Attach(scene: Scene)
      ensures this.scene == scene && gpuMaterials == [] && hiddenMats == [] && emissiveMats == []
      ensures renderOriginal == null && !oldOriginal && draw && alive
      ensures ourVerts == map[] && vertsBuffers == map[] && normalsBuffers == map[] && tangentsBuffers == map[]
      ensures draws == []
    {
      this.scene := scene;
      gpuMaterials, hiddenMats, emissiveMats := [], [], [];
      renderOriginal, oldOriginal, draw, alive := null, false, true, true;
      ourVerts, vertsBuffers, normalsBuffers, tangentsBuffers := map[], map[], map[], map[];
      draws := [];
    }

    /**
     * `CopyFrom`: take over the original wrap's GPU materials, keep the
     * hidden copies, the glow materials and the shared toggle, stop the
     * original drawing, draw instead, and take the control over when it
     * drives nothing or the original.
     */
    method CopyFrom(wrap: SkinWrap, hiddenMats: seq<MatId>, emissiveMats: seq<Option<MatId>>, renderOriginal: Toggle)
      requires scene.Valid()
      requires |wrap.gpuMaterials| == |hiddenMats| == |emissiveMats|
      requires forall i :: 0 <= i < |wrap.gpuMaterials| ==> wrap.gpuMaterials[i] in scene.mats
      requires forall i :: 0 <= i < |emissiveMats| && emissiveMats[i].Some? ==> emissiveMats[i].value in scene.mats
      requires OwnGlow(wrap.gpuMaterials, emissiveMats)
      modifies this`gpuMaterials, this`renderOriginal, this`hiddenMats, this`emissiveMats, this`draw
      modifies wrap`draw, wrap`controlTarget
      ensures Valid()
      ensures gpuMaterials == wrap.gpuMaterials && this.hiddenMats == hiddenMats && this.emissiveMats == emissiveMats
      ensures this.renderOriginal == renderOriginal && draw && !wrap.draw
      ensures wrap.controlTarget == if wrap.hasControl then HandOver(old(wrap.controlTarget), wrap, this) else old(wrap.controlTarget)
    {
      gpuMaterials := wrap.gpuMaterials;
      this.renderOriginal := renderOriginal;
      this.hiddenMats := hiddenMats;
      this.emissiveMats := emissiveMats;
      wrap.draw := false;
      draw := true;
      if wrap.hasControl && (wrap.controlTarget == NoWrap || wrap.controlTarget == Plain(wrap)) {
        wrap.controlTarget := Emissive(this);
      }
    }

    /**
     * `UpdateBuffer(emissiveMaterialVertsBuffers, theirs, buf, i)`: when
     * the buffer cached for slot `i` differs from the base wrap's, give
     * the glow material the base wrap's buffer and remember it.
     */
    method UpdateBuffer(theirs: map<int, BufId>, buf: string, i: int)
      requires scene.Valid() && 0 <= i < |emissiveMats| && emissiveMats[i].Some?
      requires emissiveMats[i].value in scene.mats
      modifies this`ourVerts, scene
      ensures scene.Valid() && scene.rendererMats == old(scene.rendererMats)
      ensures Cached(ourVerts, i) == Found(theirs, i)
      ensures forall k :: k != i ==> (k in ourVerts <==> k in old(ourVerts)) && (k in ourVerts ==> ourVerts[k] == old(ourVerts)[k])
      ensures ourVerts == if Cached(old(ourVerts), i) != Found(theirs, i) then old(ourVerts)[i := Found(theirs, i)] else old(ourVerts)
      ensures scene.mats ==
        if Cached(old(ourVerts), i) != Found(theirs, i)
        then old(scene.mats)[emissiveMats[i].value := WithProp(old(scene.mats)[emissiveMats[i].value], buf, BufferVal(Found(theirs, i)))]
        else old(scene.mats)
    {
      var ourB := Cached(ourVerts, i);
      var theirB := Found(theirs, i);
      if ourB != theirB {
        scene.SetProperty(emissiveMats[i].value, buf, BufferVal(theirB));
        ourVerts := ourVerts[i := theirB];
      }
    }

    /**
     * `DrawMeshGPU`: the skinned mesh drawn with the current GPU materials.
     * The draw binds a buffer to every slot the base caches lack and keeps
     * the cached ones; `verts`, `normals` and `tangents` are the buffers it
     * would bind, as the engine gives them.
     */
    method DrawMeshGPU(verts: map<int, BufId>, normals: map<int, BufId>, tangents: map<int, BufId>)
      modifies this`draws, this`vertsBuffers, this`normalsBuffers, this`tangentsBuffers
      ensures draws == old(draws) + [DrawSkinned(gpuMaterials)]
      ensures vertsBuffers == verts + old(vertsBuffers)
      ensures normalsBuffers == normals + old(normalsBuffers)
      ensures tangentsBuffers == tangents + old(tangentsBuffers)
    {
      draws := draws + [DrawSkinned(gpuMaterials)];
      vertsBuffers := verts + vertsBuffers;
      normalsBuffers := normals + normalsBuffers;
      tangentsBuffers := tangents + tangentsBuffers;
    }

    /**
     * `LateUpdate`: when the toggle moved since the last frame the base
     * wrap's buffer caches are dropped; the mesh is drawn with the
     * original materials, or with the hidden copies swapped in for the
     * one draw, which fills the caches (from `verts`, `normals` and
     * `tangents`); then every glow material takes its slot's render queue
     * and cached vertex buffer and is drawn over its sub-mesh.
     */
    method LateUpdate(verts: map<int, BufId>, normals: map<int, BufId>, tangents: map<int, BufId>)
      requires Valid()
      modifies this, scene
      ensures Valid()
      ensures unchanged(this`gpuMaterials, this`hiddenMats, this`emissiveMats, this`renderOriginal, this`alive, this`draw)
      ensures oldOriginal == renderOriginal.val
      ensures renderOriginal.val != old(oldOriginal) ==>
        vertsBuffers == verts && normalsBuffers == normals && tangentsBuffers == tangents
      ensures renderOriginal.val == old(oldOriginal) ==>
        && vertsBuffers == verts + old(vertsBuffers)
        && normalsBuffers == normals + old(normalsBuffers)
        && tangentsBuffers == tangents + old(tangentsBuffers)
      ensures draws == old(draws) + [DrawSkinned(if renderOriginal.val then gpuMaterials else hiddenMats)]
                                  + GlowDraws(emissiveMats, |emissiveMats|)
      ensures FeedState(gpuMaterials, emissiveMats, vertsBuffers, old(scene.mats), old(ourVerts), scene.mats, ourVerts, |emissiveMats|)
      ensures scene.rendererMats == old(scene.rendererMats)
    {
      DrawFrame(verts, normals, tangents);
      FeedGlows();
    }

    /** The first half of `LateUpdate`: the caches are dropped if the toggle moved, then the mesh is drawn. */
    method DrawFrame(verts: map<int, BufId>, normals: map<int, BufId>, tangents: map<int, BufId>)
      requires renderOriginal != null
      modifies this`gpuMaterials, this`draws, this`vertsBuffers, this`normalsBuffers, this`tangentsBuffers, this`oldOriginal
      ensures gpuMaterials == old(gpuMaterials)
      ensures oldOriginal == renderOriginal.val
      ensures renderOriginal.val != old(oldOriginal) ==>
        vertsBuffers == verts && normalsBuffers == normals && tangentsBuffers == tangents
      ensures renderOriginal.val == old(oldOriginal) ==>
        && vertsBuffers == verts + old(vertsBuffers)
        && normalsBuffers == normals + old(normalsBuffers)
        && tangentsBuffers == tangents + old(tangentsBuffers)
      ensures draws == old(draws) + [DrawSkinned(if renderOriginal.val then gpuMaterials else hiddenMats)]
    {
      SwitchCaches();
      DrawBase(verts, normals, tangents);
      assert verts + map[] == verts && normals + map[] == normals && tangents + map[] == tangents;
    }

    /** When the toggle moved since the last frame, the base wrap's buffer caches are dropped. */
    method SwitchCaches()
      requires renderOriginal != null
      modifies this`vertsBuffers, this`normalsBuffers, this`tangentsBuffers, this`oldOriginal
      ensures oldOriginal == renderOriginal.val
      ensures renderOriginal.val != old(oldOriginal) ==>
        vertsBuffers == map[] && normalsBuffers == map[] && tangentsBuffers == map[]
      ensures renderOriginal.val == old(oldOriginal) ==>
        unchanged(this`vertsBuffers, this`normalsBuffers, this`tangentsBuffers)
    {
      if renderOriginal.val != oldOriginal {
        vertsBuffers, normalsBuffers, tangentsBuffers := map[], map[], map[];
        oldOriginal := renderOriginal.val;
      }
    }

    /** The skinned mesh is drawn with the original materials, or with the hidden copies swapped in for this one draw. */
    method DrawBase(verts: map<int, BufId>, normals: map<int, BufId>, tangents: map<int, BufId>)
      requires renderOriginal != null
      modifies this`gpuMaterials, this`draws, this`vertsBuffers, this`normalsBuffers, this`tangentsBuffers
      ensures gpuMaterials == old(gpuMaterials)
      ensures draws == old(draws) + [DrawSkinned(if renderOriginal.val then gpuMaterials else hiddenMats)]
      ensures vertsBuffers == verts + old(vertsBuffers)
      ensures normalsBuffers == normals + old(normalsBuffers)
      ensures tangentsBuffers == tangents + old(tangentsBuffers)
    {
      if !renderOriginal.val {
        var temp := gpuMaterials;
        gpuMaterials := hiddenMats;
        DrawMeshGPU(verts, normals, tangents);
        gpuMaterials := temp;
      } else {
        DrawMeshGPU(verts, normals, tangents);
      }
    }

    /** The glow loop of `LateUpdate`: every glow material is fed and drawn over its sub-mesh, in slot order. */
    method FeedGlows()
      requires Valid()
      modifies this`ourVerts, this`draws, scene
      ensures Valid()
      ensures unchanged(this`gpuMaterials, this`hiddenMats, this`emissiveMats, this`renderOriginal, this`oldOriginal)
      ensures scene.rendererMats == old(scene.rendererMats)
      ensures draws == old(draws) + GlowDraws(emissiveMats, |emissiveMats|)
      ensures FeedState(gpuMaterials, emissiveMats, vertsBuffers, old(scene.mats), old(ourVerts), scene.mats, ourVerts, |emissiveMats|)
    {
      ghost var mats0, verts0, draws0 := scene.mats, ourVerts, draws;
      var i := 0;
      while i < |emissiveMats|
        invariant Feeding(mats0, verts0, draws0, i)
        invariant unchanged(this`gpuMaterials, this`hiddenMats, this`emissiveMats, this`renderOriginal, this`oldOriginal)
        invariant scene.rendererMats == old(scene.rendererMats)
      {
        ghost var pre, preVerts := scene.mats, ourVerts;
        FeedSlot(i);
        FeedStep(gpuMaterials, emissiveMats, vertsBuffers, mats0, verts0, pre, preVerts, i);
        AppendAssoc(draws0, GlowDraws(emissiveMats, i),
                    if emissiveMats[i].Some? then [DrawSubmesh(emissiveMats[i].value, i)] else []);
        i := i + 1;
      }
    }

    /** The first `n` slots of the glow loop done, from store `mats0`, cache `verts0` and draw log `draws0`. */
    ghost predicate Feeding(mats0: map<MatId, Material>, verts0: map<int, Option<BufId>>, draws0: seq<Draw>, n: int)
      reads this, scene
    {
      && Valid() && 0 <= n <= |emissiveMats|
      && draws == draws0 + GlowDraws(emissiveMats, n)
      && FeedState(gpuMaterials, emissiveMats, vertsBuffers, mats0, verts0, scene.mats, ourVerts, n)
    }

    /** One pass of the glow loop: slot `n`'s glow material, if any, is fed and drawn. */
    method FeedSlot(n: int)
      requires Valid() && 0 <= n < |emissiveMats|
      modifies this`ourVerts, this`draws, scene
      ensures Valid()
      ensures unchanged(this`gpuMaterials, this`hiddenMats, this`emissiveMats, this`renderOriginal, this`oldOriginal)
      ensures scene.rendererMats == old(scene.rendererMats)
      ensures scene.mats == FeedMats(gpuMaterials, emissiveMats, vertsBuffers, old(scene.mats), old(ourVerts), n)
      ensures ourVerts == FeedVerts(emissiveMats, vertsBuffers, old(ourVerts), n)
      ensures draws == old(draws) + (if emissiveMats[n].Some? then [DrawSubmesh(emissiveMats[n].value, n)] else [])
    {
      if emissiveMats[n].Some? {
        var e := emissiveMats[n].value;
        ghost var pre := scene.mats;
        scene.SetRenderQueue(e, scene.mats[gpuMaterials[n]].renderQueue);
        UpdateBuffer(vertsBuffers, "verts", n);
        draws := draws + [DrawSubmesh(e, n)];
        assert scene.mats == pre[e := scene.mats[e]];
      }
    }
  }

  /** The store after slot `n`'s pass of the glow loop. */
  function FeedMats(gpu: seq<MatId>, emissive: seq<Option<MatId>>, theirs: map<int, BufId>,
                    mats: map<MatId, Material>, verts: map<int, Option<BufId>>, n: int): (r: map<MatId, Material>)
    requires 0 <= n < |emissive| <= |gpu| && gpu[n] in mats
    requires emissive[n].Some? ==> emissive[n].value in mats
    ensures r.Keys == mats.Keys
  {
    if emissive[n].None? then mats
    else
      var e := emissive[n].value;
      mats[e := Fed(mats[e], mats[gpu[n]].renderQueue, Cached(verts, n), Found(theirs, n))]
  }

  /** The glow materials' buffer cache after slot `n`'s pass of the glow loop. */
  function FeedVerts(emissive: seq<Option<MatId>>, theirs: map<int, BufId>, verts: map<int, Option<BufId>>, n: int)
    : (r: map<int, Option<BufId>>)
    requires 0 <= n < |emissive|
    ensures emissive[n].Some? ==> Cached(r, n) == Found(theirs, n)
    ensures forall k :: k != n || emissive[n].None? ==> (k in r <==> k in verts) && (k in r ==> r[k] == verts[k])
  {
    if emissive[n].Some? && Cached(verts, n) != Found(theirs, n) then verts[n := Found(theirs, n)] else verts
  }

  /** The materials the glow loop starts from are all in the store. */
  ghost predicate FeedFrame(gpu: seq<MatId>, emissive: seq<Option<MatId>>, mats0: map<MatId, Material>, mats: map<MatId, Material>, n: int) {
    && 0 <= n <= |emissive| <= |gpu| && mats.Keys == mats0.Keys
    && (forall i :: 0 <= i < |gpu| ==> gpu[i] in mats0)
    && (forall i :: 0 <= i < |emissive| && emissive[i].Some? ==> emissive[i].value in mats0)
  }

  /** Every glow slot before `n` is fed and its cache entry matches the base wrap's. */
  ghost predicate FedBefore(gpu: seq<MatId>, emissive: seq<Option<MatId>>, theirs: map<int, BufId>,
                            mats0: map<MatId, Material>, verts0: map<int, Option<BufId>>,
                            mats: map<MatId, Material>, verts: map<int, Option<BufId>>, n: int)
    requires FeedFrame(gpu, emissive, mats0, mats, n)
  {
    forall i :: 0 <= i < n && emissive[i].Some? ==>
      && Cached(verts, i) == Found(theirs, i)
      && mats[emissive[i].value] == Fed(mats0[emissive[i].value], mats0[gpu[i]].renderQueue, Cached(verts0, i), Found(theirs, i))
  }

  /** Cache entries of slots not yet fed, and of slots without glow, are as they were. */
  ghost predicate VertsKept(emissive: seq<Option<MatId>>, verts0: map<int, Option<BufId>>, verts: map<int, Option<BufId>>, n: int)
    requires 0 <= n <= |emissive|
  {
    forall k :: (k < 0 || k >= n || emissive[k].None?) ==> (k in verts <==> k in verts0) && (k in verts ==> verts[k] == verts0[k])
  }

  /** Materials that are not the glow material of a slot before `n` are as they were. */
  ghost predicate OthersKept(emissive: seq<Option<MatId>>, mats0: map<MatId, Material>, mats: map<MatId, Material>, n: int)
    requires 0 <= n <= |emissive| && mats.Keys == mats0.Keys
  {
    forall id :: id in mats0 && Some(id) !in emissive[..n] ==> mats[id] == mats0[id]
  }

  /**
   * The glow loop's state after `n` slots, from store `mats0` and cache
   * `verts0`: every glow slot so far is fed and its cache entry matches
   * the base wrap's, and nothing else has changed.
   */
  ghost predicate FeedState(gpu: seq<MatId>, emissive: seq<Option<MatId>>, theirs: map<int, BufId>,
                            mats0: map<MatId, Material>, verts0: map<int, Option<BufId>>,
                            mats: map<MatId, Material>, verts: map<int, Option<BufId>>, n: int)
  {
    && FeedFrame(gpu, emissive, mats0, mats, n)
    && FedBefore(gpu, emissive, theirs, mats0, verts0, mats, verts, n)
    && VertsKept(emissive, verts0, verts, n)
    && OthersKept(emissive, mats0, mats, n)
  }

  /** At the end of the glow loop every glow slot is fed and synced, and nothing else has changed. */
  lemma FedAll(gpu: seq<MatId>, emissive: seq<Option<MatId>>, theirs: map<int, BufId>,
               mats0: map<MatId, Material>, verts0: map<int, Option<BufId>>,
               mats: map<MatId, Material>, verts: map<int, Option<BufId>>)
    requires FeedState(gpu, emissive, theirs, mats0, verts0, mats, verts, |emissive|)
    ensures forall i :: 0 <= i < |emissive| && emissive[i].Some? ==>
      && Cached(verts, i) == Found(theirs, i)
      && mats[emissive[i].value] == Fed(mats0[emissive[i].value], mats0[gpu[i]].renderQueue, Cached(verts0, i), Found(theirs, i))
    ensures forall k :: (k < 0 || k >= |emissive| || emissive[k].None?) ==>
      (k in verts <==> k in verts0) && (k in verts ==> verts[k] == verts0[k])
    ensures forall id :: id in mats0 && Some(id) !in emissive ==> id in mats && mats[id] == mats0[id]
  {
    assert emissive[..|emissive|] == emissive;
  }

  /** Feeding slot `n` extends the glow loop's state by one slot. */
  lemma FeedStep(gpu: seq<MatId>, emissive: seq<Option<MatId>>, theirs: map<int, BufId>,
                 mats0: map<MatId, Material>, verts0: map<int, Option<BufId>>,
                 mats: map<MatId, Material>, verts: map<int, Option<BufId>>, n: int)
    requires FeedState(gpu, emissive, theirs, mats0, verts0, mats, verts, n) && n < |emissive|
    requires OwnGlow(gpu, emissive)
    ensures FeedState(gpu, emissive, theirs, mats0, verts0,
                      FeedMats(gpu, emissive, theirs, mats, verts, n), FeedVerts(emissive, theirs, verts, n), n + 1)
  {
    assert gpu[n] in mats;
    FeedStepFed(gpu, emissive, theirs, mats0, verts0, mats, verts, n);
    FeedStepOthers(gpu, emissive, theirs, mats0, verts0, mats, verts, n);
  }

  /** The fed slots after slot `n`'s pass: the earlier ones and `n`. */
  lemma FeedStepFed(gpu: seq<MatId>, emissive: seq<Option<MatId>>, theirs: map<int, BufId>,
                    mats0: map<MatId, Material>, verts0: map<int, Option<BufId>>,
                    mats: map<MatId, Material>, verts: map<int, Option<BufId>>, n: int)
    requires FeedState(gpu, emissive, theirs, mats0, verts0, mats, verts, n) && n < |emissive|
    requires OwnGlow(gpu, emissive)
    ensures FeedFrame(gpu, emissive, mats0, FeedMats(gpu, emissive, theirs, mats, verts, n), n + 1)
    ensures FedBefore(gpu, emissive, theirs, mats0, verts0,
                      FeedMats(gpu, emissive, theirs, mats, verts, n), FeedVerts(emissive, theirs, verts, n), n + 1)
  {
    var mats', verts' := FeedMats(gpu, emissive, theirs, mats, verts, n), FeedVerts(emissive, theirs, verts, n);
    forall i | 0 <= i < n + 1 && emissive[i].Some?
      ensures Cached(verts', i) == Found(theirs, i)
      ensures mats'[emissive[i].value] == Fed(mats0[emissive[i].value], mats0[gpu[i]].renderQueue, Cached(verts0, i), Found(theirs, i))
    {
      var e := emissive[i].value;
      if i < n {
        assert emissive[n].Some? ==> emissive[n].value != e;
      } else {
        assert mats[e] == mats0[e] by {
          assert Some(e) !in emissive[..n];
        }
        assert mats[gpu[n]] == mats0[gpu[n]] by {
          assert Some(gpu[n]) !in emissive[..n];
        }
      }
    }
  }

  /** After slot `n`'s pass only its glow material and cache entry have changed. */
  lemma FeedStepOthers(gpu: seq<MatId>, emissive: seq<Option<MatId>>, theirs: map<int, BufId>,
                       mats0: map<MatId, Material>, verts0: map<int, Option<BufId>>,
                       mats: map<MatId, Material>, verts: map<int, Option<BufId>>, n: int)
    requires FeedState(gpu, emissive, theirs, mats0, verts0, mats, verts, n) && n < |emissive|
    ensures VertsKept(emissive, verts0, FeedVerts(emissive, theirs, verts, n), n + 1)
    ensures FeedMats(gpu, emissive, theirs, mats, verts, n).Keys == mats0.Keys
    ensures OthersKept(emissive, mats0, FeedMats(gpu, emissive, theirs, mats, verts, n), n + 1)
  {
    var mats' := FeedMats(gpu, emissive, theirs, mats, verts, n);
    forall id | id in mats0 && Some(id) !in emissive[..n + 1]
      ensures mats'[id] == mats0[id]
    {
      assert emissive[..n + 1][n] == emissive[n];
      assert Some(id) !in emissive[..n] by {
        forall j | 0 <= j < n
          ensures emissive[j] != Some(id)
        {
          assert emissive[..n + 1][j] == emissive[j];
        }
      }
    }
  }

  /** A glow material after its slot's pass: the slot's render queue, and the base wrap's buffer when the cached one differed. */
  function Fed(m: Material, queue: int, ours: Option<BufId>, theirs: Option<BufId>): (r: Material)
    ensures r.renderQueue == queue && r.name == m.name && r.shader == m.shader
    ensures ours != theirs ==> "verts" in r.props && r.props["verts"] == BufferVal(theirs)
    ensures ours == theirs ==> r.props == m.props
    ensures forall k :: k != "verts" ==> (k in r.props <==> k in m.props) && (k in m.props ==> r.props[k] == m.props[k])
  {
    var queued := m.(renderQueue := queue);
    if ours != theirs then WithProp(queued, "verts", BufferVal(theirs)) else queued
  }

  // ---------------------------------------------------------------------
  // The plugin

  /** The glow colour: the picked colour with the alpha slider's value as alpha. */
  function Tint(color: Color, alpha: real): (r: Color)
    ensures r.r == color.r && r.g == color.g && r.b == color.b && r.a == alpha
  {
    color.(a := alpha)
  }

  /** A glow material tinted with the picked colour at the slider's alpha. */
  ghost predicate Tinted(m: Material, color: Color, alpha: real) {
    "_Color" in m.props && m.props["_Color"] == ColorVal(Tint(color, alpha))
  }

  /** The hidden copy of a converted slot: no decal, and `_AlphaAdjust` at -1. */
  ghost predicate Hides(m: Material) {
    GetTexture(m, DecalKey) == None && "_AlphaAdjust" in m.props && m.props["_AlphaAdjust"] == FloatVal(-1.0)
  }

  /** Every slot a tagged option of the wrap names is one of its GPU materials' slots. */
  predicate SlotsInRange(w: SkinWrap) {
    forall o, i :: o in w.options && IsTagged(o) && i in o.slots ==> 0 <= i < |w.gpuMaterials|
  }

  /** The GPU materials at the slots `slots`. */
  function SlotMaterials(gpu: seq<MatId>, slots: set<int>): set<MatId> {
    set j | j in slots && 0 <= j < |gpu| :: gpu[j]
  }

  /** The materials `Build` converts for the wraps it took over. */
  function Touched(ws: seq<SkinWrap>): set<MatId>
    decreases |ws|
  {
    if ws == [] then {}
    else Touched(ws[..|ws| - 1]) + SlotMaterials(ws[|ws| - 1].gpuMaterials, TaggedSlots(ws[|ws| - 1].options))
  }

  /** No material of store `mats0` has been renamed. */
  ghost predicate NamesKept(mats0: map<MatId, Material>, mats: map<MatId, Material>) {
    forall id :: id in mats0 ==> id in mats && mats[id].name == mats0[id].name
  }

  /**
   * One wrap's rows as `Build` leaves them, from store `mats0`: a glow
   * material exactly at the converted slots, new, on the plugin's shader
   * and named after the slot's material, whose decal is gone; a hidden
   * copy at the converted slots and the original material elsewhere.
   */
  ghost predicate RowBuilt(gpu: seq<MatId>, slots: set<int>, mats0: map<MatId, Material>, mats: map<MatId, Material>,
                           row: seq<Option<MatId>>, hidden: seq<MatId>, shader: string)
  {
    && RowShape(gpu, slots, mats0, row, hidden) && mats0.Keys <= mats.Keys
    && GlowBuilt(gpu, mats0, mats, row, shader)
    && HiddenBuilt(gpu, slots, mats0, mats, hidden)
  }

  /** The store-independent part of `RowBuilt`. */
  ghost predicate RowShape(gpu: seq<MatId>, slots: set<int>, mats0: map<MatId, Material>, row: seq<Option<MatId>>, hidden: seq<MatId>) {
    && |row| == |gpu| && |hidden| == |gpu|
    && (forall j :: 0 <= j < |gpu| ==> gpu[j] in mats0)
    && (forall j :: 0 <= j < |row| ==> (row[j].Some? <==> j in slots))
    && (forall j :: 0 <= j < |hidden| && j !in slots ==> hidden[j] == gpu[j])
    && OwnGlow(gpu, row)
  }

  /**
   * The glow materials of a row: new, on the plugin's shader, named after
   * their slot's material, visible (they do not hide), and their slot's
   * decal is gone.
   */
  ghost predicate GlowBuilt(gpu: seq<MatId>, mats0: map<MatId, Material>, mats: map<MatId, Material>, row: seq<Option<MatId>>, shader: string)
    requires |row| == |gpu| && mats0.Keys <= mats.Keys && forall j :: 0 <= j < |gpu| ==> gpu[j] in mats0
  {
    forall j :: 0 <= j < |row| && row[j].Some? ==>
      && row[j].value in mats && row[j].value !in mats0
      && mats[row[j].value].shader == shader && mats[row[j].value].name == mats0[gpu[j]].name
      && !Hides(mats[row[j].value])
      && GetTexture(mats[gpu[j]], DecalKey) == None
  }

  /** The hidden copies of a row: at the converted slots, new copies of the cleared original that hide. */
  ghost predicate HiddenBuilt(gpu: seq<MatId>, slots: set<int>, mats0: map<MatId, Material>, mats: map<MatId, Material>, hidden: seq<MatId>)
    requires |hidden| == |gpu| && forall j :: 0 <= j < |gpu| ==> gpu[j] in mats0
  {
    && (forall j :: 0 <= j < |hidden| ==> hidden[j] in mats)
    && (forall j :: 0 <= j < |hidden| && j in slots ==>
          hidden[j] !in mats0 && mats[hidden[j]] == Hidden(Cleared(mats0[gpu[j]])))
  }

  /** A hidden copy hides. */
  lemma HiddenHides(m: Material)
    ensures Hides(Hidden(Cleared(m)))
  {
  }

  /** Clearing twice is clearing once: a slot converted again keeps the same cleared material. */
  lemma ClearedTwice(m: Material)
    ensures Cleared(Cleared(m)) == Cleared(m)
  {
    assert m.props[DecalKey := TextureVal(None)][DecalKey := TextureVal(None)] == m.props[DecalKey := TextureVal(None)];
  }

  /** Every material of store `mats0` is in `mats`, as it was or cleared. */
  ghost predicate ClearedAlike(mats0: map<MatId, Material>, mats: map<MatId, Material>) {
    forall id :: id in mats0 ==> id in mats && Cleared(mats[id]) == Cleared(mats0[id])
  }

  /** Slot `j` occurs once in the conversion list `done`, and no other slot of it holds the same material. */
  ghost predicate OnceIn(gpu: seq<MatId>, done: seq<int>, j: int)
    requires 0 <= j < |gpu|
  {
    multiset(done)[j] == 1 && forall k :: k in done && 0 <= k < |gpu| && k != j ==> gpu[k] != gpu[j]
  }

  /** Each glow material of a slot converted once carries, as main texture, the decal its material had in store `base`. */
  ghost predicate GlowsFrom(gpu: seq<MatId>, done: seq<int>, base: map<MatId, Material>, mats: map<MatId, Material>, row: seq<Option<MatId>>) {
    forall j :: 0 <= j < |row| && j < |gpu| && row[j].Some? && OnceIn(gpu, done, j) && gpu[j] in base && row[j].value in mats ==>
      GetTexture(mats[row[j].value], "_MainTex") == GetTexture(base[gpu[j]], DecalKey)
  }

  /** The store after converting the slot whose material is `mat` into glow material `e` and hidden copy `c`. */
  function ConvertMats(mats: map<MatId, Material>, mat: MatId, e: MatId, c: MatId, shader: string): map<MatId, Material>
    requires mat in mats
  {
    mats[mat := Cleared(mats[mat])][e := Glow(shader, mats[mat])][c := Hidden(Cleared(mats[mat]))]
  }

  /** Converting one more slot extends a wrap's rows by that slot. */
  lemma ConvertStep(gpu: seq<MatId>, slots: set<int>, mats0: map<MatId, Material>, mats: map<MatId, Material>,
                    row: seq<Option<MatId>>, hidden: seq<MatId>, shader: string, i: int, e: MatId, c: MatId)
    requires RowBuilt(gpu, slots, mats0, mats, row, hidden, shader) && NamesKept(mats0, mats)
    requires 0 <= i < |gpu| && e !in mats && c !in mats && e != c
    requires Cleared(mats[gpu[i]]) == Cleared(mats0[gpu[i]])
    ensures RowBuilt(gpu, slots + {i}, mats0, ConvertMats(mats, gpu[i], e, c, shader), row[i := Some(e)], hidden[i := c], shader)
  {
    ConvertShape(gpu, slots, mats0, mats, row, hidden, shader, i, e, c);
    ConvertGlow(gpu, slots, mats0, mats, row, hidden, shader, i, e, c);
    ConvertHidden(gpu, slots, mats0, mats, row, hidden, shader, i, e, c);
  }

  /** The shape part of `ConvertStep`. */
  lemma ConvertShape(gpu: seq<MatId>, slots: set<int>, mats0: map<MatId, Material>, mats: map<MatId, Material>,
                     row: seq<Option<MatId>>, hidden: seq<MatId>, shader: string, i: int, e: MatId, c: MatId)
    requires RowBuilt(gpu, slots, mats0, mats, row, hidden, shader)
    requires 0 <= i < |gpu| && e !in mats && c !in mats && e != c
    ensures RowShape(gpu, slots + {i}, mats0, row[i := Some(e)], hidden[i := c])
  {
    var row' := row[i := Some(e)];
    forall a, b | 0 <= a < b < |row'| && row'[a].Some? && row'[b].Some?
      ensures row'[a].value != row'[b].value
    {
    }
  }

  /** The glow part of `ConvertStep`. */
  lemma ConvertGlow(gpu: seq<MatId>, slots: set<int>, mats0: map<MatId, Material>, mats: map<MatId, Material>,
                    row: seq<Option<MatId>>, hidden: seq<MatId>, shader: string, i: int, e: MatId, c: MatId)
    requires RowBuilt(gpu, slots, mats0, mats, row, hidden, shader) && NamesKept(mats0, mats)
    requires 0 <= i < |gpu| && e !in mats && c !in mats && e != c
    ensures GlowBuilt(gpu, mats0, ConvertMats(mats, gpu[i], e, c, shader), row[i := Some(e)], shader)
  {
    var mats' := ConvertMats(mats, gpu[i], e, c, shader);
    var row' := row[i := Some(e)];
    forall j | 0 <= j < |row'| && row'[j].Some?
      ensures row'[j].value in mats' && row'[j].value !in mats0
      ensures mats'[row'[j].value].shader == shader && mats'[row'[j].value].name == mats0[gpu[j]].name
      ensures !Hides(mats'[row'[j].value])
      ensures GetTexture(mats'[gpu[j]], DecalKey) == None
    {
      if j == i {
        GlowShows(shader, mats[gpu[i]]);
      } else {
        assert row'[j] == row[j];
        assert row[j].value != e && row[j].value != c && row[j].value != gpu[i];
      }
    }
  }

  /** The hidden-copy part of `ConvertStep`. */
  lemma ConvertHidden(gpu: seq<MatId>, slots: set<int>, mats0: map<MatId, Material>, mats: map<MatId, Material>,
                      row: seq<Option<MatId>>, hidden: seq<MatId>, shader: string, i: int, e: MatId, c: MatId)
    requires RowBuilt(gpu, slots, mats0, mats, row, hidden, shader)
    requires 0 <= i < |gpu| && e !in mats && c !in mats && e != c
    requires Cleared(mats[gpu[i]]) == Cleared(mats0[gpu[i]])
    ensures HiddenBuilt(gpu, slots + {i}, mats0, ConvertMats(mats, gpu[i], e, c, shader), hidden[i := c])
  {
    var mats' := ConvertMats(mats, gpu[i], e, c, shader);
    var hidden' := hidden[i := c];
    forall j | 0 <= j < |hidden'| && j in slots + {i}
      ensures hidden'[j] !in mats0 && mats'[hidden'[j]] == Hidden(Cleared(mats0[gpu[j]]))
    {
      if j != i {
        assert hidden[j] != e && hidden[j] != c && hidden[j] != gpu[i];
      }
    }
  }

  /** A glow material does not hide: it has no `_AlphaAdjust`. */
  lemma GlowShows(shader: string, m: Material)
    ensures !Hides(Glow(shader, m))
  {
    assert "_AlphaAdjust" !in Glow(shader, m).props;
  }

  /** What converting leaves alone: ids of the store other than the slot's material. */
  lemma ConvertFrame(mats: map<MatId, Material>, mat: MatId, e: MatId, c: MatId, shader: string)
    requires mat in mats && e !in mats && c !in mats
    ensures mats.Keys <= ConvertMats(mats, mat, e, c, shader).Keys
    ensures forall id :: id in mats && id != mat ==> ConvertMats(mats, mat, e, c, shader)[id] == mats[id]
    ensures ConvertMats(mats, mat, e, c, shader)[mat].name == mats[mat].name
  {
  }

  /** The tagged slots of the first `m + 1` options: those of the first `m`, and option `m`'s when it is tagged. */
  lemma TaggedSnoc(options: seq<MaterialOption>, m: int)
    requires 0 <= m < |options|
    ensures TaggedSlots(options[..m + 1]) ==
      TaggedSlots(options[..m]) + (if IsTagged(options[m]) then SlotSet(options[m].slots) else {})
    ensures HasTaggedSlots(options[..m + 1]) <==>
      HasTaggedSlots(options[..m]) || (IsTagged(options[m]) && |options[m].slots| > 0)
  {
    assert options[..m + 1] == options[..m] + [options[m]];
    if HasTaggedSlots(options[..m + 1]) {
      var o :| o in options[..m + 1] && IsTagged(o) && |o.slots| > 0;
      assert o in options[..m] || o == options[m];
    }
  }

  /** Changes that only clear decals of the store's own materials and add new ones keep a built row built. */
  ghost predicate Evolves(mats0: map<MatId, Material>, a: map<MatId, Material>, b: map<MatId, Material>) {
    && a.Keys <= b.Keys
    && (forall id :: id in a && id !in mats0 ==> b[id] == a[id])
    && (forall id :: id in mats0 && id in a ==> GetTexture(a[id], DecalKey) == None ==> GetTexture(b[id], DecalKey) == None)
  }

  /** A built row stays built while the store evolves so. */
  lemma RowBuiltEvolves(gpu: seq<MatId>, slots: set<int>, mats0: map<MatId, Material>, a: map<MatId, Material>,
                        b: map<MatId, Material>, row: seq<Option<MatId>>, hidden: seq<MatId>, shader: string)
    requires RowBuilt(gpu, slots, mats0, a, row, hidden, shader) && Evolves(mats0, a, b)
    ensures RowBuilt(gpu, slots, mats0, b, row, hidden, shader)
  {
  }

  /** Tinting glow materials keeps a built row built: it only sets their `_Color`. */
  lemma RowBuiltTinted(gpu: seq<MatId>, slots: set<int>, mats0: map<MatId, Material>, mats: map<MatId, Material>,
                       ids: set<MatId>, v: PropValue, row: seq<Option<MatId>>, hidden: seq<MatId>, shader: string)
    requires RowBuilt(gpu, slots, mats0, mats, row, hidden, shader)
    requires forall id :: id in ids && id in mats ==> !Hides(mats[id])
    ensures RowBuilt(gpu, slots, mats0, SetAll(mats, ids, "_Color", v), row, hidden, shader)
  {
    var mats' := SetAll(mats, ids, "_Color", v);
    forall id | id in mats
      ensures GetTexture(mats'[id], DecalKey) == GetTexture(mats[id], DecalKey)
      ensures Hides(mats'[id]) <==> Hides(mats[id])
    {
    }
    forall j | 0 <= j < |hidden| && j in slots
      ensures mats'[hidden[j]] == mats[hidden[j]]
    {
      HiddenHides(mats0[gpu[j]]);
    }
    assert GlowBuilt(gpu, mats0, mats', row, shader);
    assert HiddenBuilt(gpu, slots, mats0, mats', hidden);
  }

  /** The slots a list of slot indices names. */
  function SlotSet(xs: seq<int>): set<int> {
    set x | x in xs
  }

  /** One more slot index. */
  lemma SlotSetAppend(xs: seq<int>, s: int)
    ensures SlotSet(xs + [s]) == SlotSet(xs) + {s}
  {
  }

  /** One more slot of an option's list. */
  lemma ListSnoc(done0: seq<int>, xs: seq<int>, s: int)
    requires 0 <= s < |xs|
    ensures done0 + xs[..s] + [xs[s]] == done0 + xs[..s + 1]
  {
    assert xs[..s + 1] == xs[..s] + [xs[s]];
  }

  /** The slots of the conversion list are the tagged slots. */
  lemma {:induction false} TaggedListSlots(options: seq<MaterialOption>)
    ensures SlotSet(TaggedList(options)) == TaggedSlots(options)
    decreases |options|
  {
    if options != [] {
      var m := |options| - 1;
      TaggedListSlots(options[..m]);
      TaggedSnoc(options, m);
      assert options[..m + 1] == options;
      var tail := if IsTagged(options[m]) then options[m].slots else [];
      assert SlotSet(TaggedList(options[..m]) + tail) == SlotSet(TaggedList(options[..m])) + SlotSet(tail);
    }
  }

  /**
   * The conversion of one wrap under way, from store `mats0` at the start
   * of `Build` and store `mw` at the start of this wrap, the slots of
   * `done` converted so far in that order: its rows are built for those
   * slots; of the store as the wrap found it only those slots' materials
   * have changed, and they are cleared; and the glow material of a slot
   * converted once took the decal its material had in `mw`.
   */
  ghost predicate Converting(gpu: seq<MatId>, done: seq<int>, mats0: map<MatId, Material>, mw: map<MatId, Material>,
                             mats: map<MatId, Material>, row: seq<Option<MatId>>, hidden: seq<MatId>, shader: string)
  {
    && RowBuilt(gpu, SlotSet(done), mats0, mats, row, hidden, shader) && NamesKept(mats0, mats)
    && ClearedAlike(mats0, mw) && mw.Keys <= mats.Keys
    && (forall id :: id in mw && id !in SlotMaterials(gpu, SlotSet(done)) ==> mats[id] == mw[id])
    && (forall id :: id in mw && id in SlotMaterials(gpu, SlotSet(done)) ==> mats[id] == Cleared(mw[id]))
    && GlowsFrom(gpu, done, mw, mats, row)
  }

  /** Before any slot is converted: no glow materials, and the wrap's own materials as hidden ones. */
  lemma ConvertingNone(gpu: seq<MatId>, mats0: map<MatId, Material>, mats: map<MatId, Material>, shader: string)
    requires mats0.Keys <= mats.Keys && NamesKept(mats0, mats) && ClearedAlike(mats0, mats)
    requires forall j :: 0 <= j < |gpu| ==> gpu[j] in mats0
    ensures Converting(gpu, [], mats0, mats, mats, seq(|gpu|, _ => None), gpu, shader)
  {
    var row: seq<Option<MatId>> := seq(|gpu|, _ => None);
    assert forall j :: 0 <= j < |row| ==> row[j] == None;
    assert SlotSet([]) == {};
    assert SlotMaterials(gpu, {}) == {};
  }

  /** Converting slot `i` carries the conversion forward. */
  lemma ConvertingStep(gpu: seq<MatId>, done: seq<int>, mats0: map<MatId, Material>, mw: map<MatId, Material>,
                       mats: map<MatId, Material>, row: seq<Option<MatId>>, hidden: seq<MatId>, shader: string,
                       i: int, e: MatId, c: MatId)
    requires Converting(gpu, done, mats0, mw, mats, row, hidden, shader)
    requires 0 <= i < |gpu| && e !in mats && c !in mats && e != c
    ensures Converting(gpu, done + [i], mats0, mw, ConvertMats(mats, gpu[i], e, c, shader), row[i := Some(e)], hidden[i := c], shader)
  {
    var slots := SlotSet(done);
    SlotSetAppend(done, i);
    ConvertingCleared(gpu, done, mats0, mw, mats, row, hidden, shader, i);
    ConvertStep(gpu, slots, mats0, mats, row, hidden, shader, i, e, c);
    ConvertFrame(mats, gpu[i], e, c, shader);
    ConvertTexture(gpu, done, mats0, mw, mats, row, hidden, shader, i, e, c);
    var mats' := ConvertMats(mats, gpu[i], e, c, shader);
    forall id | id in mw && id !in SlotMaterials(gpu, slots + {i})
      ensures mats'[id] == mw[id]
    {
      assert id != gpu[i];
      assert id !in SlotMaterials(gpu, slots);
    }
    forall id | id in mw && id in SlotMaterials(gpu, slots + {i})
      ensures mats'[id] == Cleared(mw[id])
    {
      if id != gpu[i] {
        assert id in SlotMaterials(gpu, slots);
      }
    }
  }

  /** Whether or not slot `i`'s material was converted before, clearing it gives its cleared original. */
  lemma ConvertingCleared(gpu: seq<MatId>, done: seq<int>, mats0: map<MatId, Material>, mw: map<MatId, Material>,
                          mats: map<MatId, Material>, row: seq<Option<MatId>>, hidden: seq<MatId>, shader: string, i: int)
    requires Converting(gpu, done, mats0, mw, mats, row, hidden, shader) && 0 <= i < |gpu|
    ensures Cleared(mats[gpu[i]]) == Cleared(mw[gpu[i]]) == Cleared(mats0[gpu[i]])
  {
    ClearedTwice(mw[gpu[i]]);
  }

  /**
   * The glow material of a slot converted for the first time takes the
   * decal its material had when the wrap's conversion began; the glow
   * materials of other slots are untouched.
   */
  lemma ConvertTexture(gpu: seq<MatId>, done: seq<int>, mats0: map<MatId, Material>, mw: map<MatId, Material>,
                       mats: map<MatId, Material>, row: seq<Option<MatId>>, hidden: seq<MatId>, shader: string,
                       i: int, e: MatId, c: MatId)
    requires Converting(gpu, done, mats0, mw, mats, row, hidden, shader)
    requires 0 <= i < |gpu| && e !in mats && c !in mats && e != c
    ensures GlowsFrom(gpu, done + [i], mw, ConvertMats(mats, gpu[i], e, c, shader), row[i := Some(e)])
  {
    var mats', row', done' := ConvertMats(mats, gpu[i], e, c, shader), row[i := Some(e)], done + [i];
    forall j | 0 <= j < |row'| && j < |gpu| && row'[j].Some? && OnceIn(gpu, done', j) && gpu[j] in mw && row'[j].value in mats'
      ensures GetTexture(mats'[row'[j].value], "_MainTex") == GetTexture(mw[gpu[j]], DecalKey)
    {
      if j == i {
        ConvertTextureNew(gpu, done, mats0, mw, mats, row, hidden, shader, i, e, c);
      } else {
        ConvertTextureOld(gpu, done, mats0, mw, mats, row, hidden, shader, i, e, c, j);
      }
    }
  }

  /** The slot converted now, if it is converted once, gets its material's decal as the glow's main texture. */
  lemma ConvertTextureNew(gpu: seq<MatId>, done: seq<int>, mats0: map<MatId, Material>, mw: map<MatId, Material>,
                          mats: map<MatId, Material>, row: seq<Option<MatId>>, hidden: seq<MatId>, shader: string,
                          i: int, e: MatId, c: MatId)
    requires Converting(gpu, done, mats0, mw, mats, row, hidden, shader)
    requires 0 <= i < |gpu| && e !in mats && c !in mats && e != c
    requires OnceIn(gpu, done + [i], i) && gpu[i] in mw
    ensures GetTexture(ConvertMats(mats, gpu[i], e, c, shader)[e], "_MainTex") == GetTexture(mw[gpu[i]], DecalKey)
  {
    assert multiset(done + [i])[i] == multiset(done)[i] + 1;
    assert gpu[i] !in SlotMaterials(gpu, SlotSet(done));
  }

  /** A slot converted earlier keeps its glow material's main texture when another slot is converted. */
  lemma ConvertTextureOld(gpu: seq<MatId>, done: seq<int>, mats0: map<MatId, Material>, mw: map<MatId, Material>,
                          mats: map<MatId, Material>, row: seq<Option<MatId>>, hidden: seq<MatId>, shader: string,
                          i: int, e: MatId, c: MatId, j: int)
    requires Converting(gpu, done, mats0, mw, mats, row, hidden, shader)
    requires 0 <= i < |gpu| && e !in mats && c !in mats && e != c
    requires 0 <= j < |gpu| && j != i && row[j].Some? && OnceIn(gpu, done + [i], j) && gpu[j] in mw
    requires row[j].value in ConvertMats(mats, gpu[i], e, c, shader)
    ensures GetTexture(ConvertMats(mats, gpu[i], e, c, shader)[row[j].value], "_MainTex") == GetTexture(mw[gpu[j]], DecalKey)
  {
    assert multiset(done + [i])[j] == multiset(done)[j];
    assert i in done + [i];
    assert OnceIn(gpu, done, j);
    assert row[j].value != gpu[i];
  }

  /** A wrap's conversion, once done, only cleared decals of the store's own materials and added new ones. */
  lemma ConvertingEvolves(gpu: seq<MatId>, done: seq<int>, mats0: map<MatId, Material>, mw: map<MatId, Material>,
                          mats: map<MatId, Material>, row: seq<Option<MatId>>, hidden: seq<MatId>, shader: string)
    requires Converting(gpu, done, mats0, mw, mats, row, hidden, shader)
    ensures Evolves(mats0, mw, mats)
  {
    forall id | id in mw && id !in mats0
      ensures mats[id] == mw[id]
    {
      assert id !in SlotMaterials(gpu, SlotSet(done));
    }
    forall id | id in mats0 && id in mw && GetTexture(mw[id], DecalKey) == None
      ensures GetTexture(mats[id], DecalKey) == None
    {
    }
  }

  /**
   * The store `Build` leaves from store `mats0` after taking over the
   * wraps `ws`: their rows are built; every converted material is its
   * original cleared of its decal, every other one is as it was; and the
   * glow material of a slot converted once holds that slot's decal.
   */
  ghost predicate StoreScanned(ws: seq<SkinWrap>, mats0: map<MatId, Material>, mats: map<MatId, Material>,
                               rows: seq<seq<Option<MatId>>>, hiddens: seq<seq<MatId>>, shader: string)
  {
    && mats0.Keys <= mats.Keys && NamesKept(mats0, mats)
    && RowsBuilt(ws, mats0, mats, rows, hiddens, shader)
    && (forall id :: id in mats0 && id !in Touched(ws) ==> mats[id] == mats0[id])
    && (forall id :: id in mats0 && id in Touched(ws) ==> mats[id] == Cleared(mats0[id]))
    && GlowsTextured(ws, mats0, mats, rows)
  }

  /**
   * Glow slot `i` of row `a` is the only conversion of its material: the
   * slot occurs once in its wrap's conversion list and no other glow slot
   * of any row holds the same material.
   */
  ghost predicate ConvertedOnce(ws: seq<SkinWrap>, rows: seq<seq<Option<MatId>>>, a: int, i: int)
    requires |rows| == |ws| && GlowSlot(ws, rows, a, i)
  {
    && multiset(TaggedList(ws[a].options))[i] == 1
    && forall a', i' :: GlowSlot(ws, rows, a', i') && (a', i') != (a, i) ==> ws[a'].gpuMaterials[i'] != ws[a].gpuMaterials[i]
  }

  /** The glow material of every slot converted once holds, as main texture, the decal its material had in `mats0`. */
  ghost predicate GlowsTextured(ws: seq<SkinWrap>, mats0: map<MatId, Material>, mats: map<MatId, Material>, rows: seq<seq<Option<MatId>>>)
    requires |rows| == |ws|
  {
    forall a, i :: GlowSlot(ws, rows, a, i) && ConvertedOnce(ws, rows, a, i) && ws[a].gpuMaterials[i] in mats0 && rows[a][i].value in mats ==>
      GetTexture(mats[rows[a][i].value], "_MainTex") == GetTexture(mats0[ws[a].gpuMaterials[i]], DecalKey)
  }

  /** A material converted for some wrap sits at a tagged slot of that wrap. */
  lemma {:induction false} TouchedWhere(ws: seq<SkinWrap>, id: MatId)
    requires id in Touched(ws)
    ensures exists a, j :: 0 <= a < |ws| && j in TaggedSlots(ws[a].options) && 0 <= j < |ws[a].gpuMaterials| && ws[a].gpuMaterials[j] == id
    decreases |ws|
  {
    var n := |ws| - 1;
    if id in Touched(ws[..n]) {
      TouchedWhere(ws[..n], id);
      var a, j :| 0 <= a < n && j in TaggedSlots(ws[..n][a].options) && 0 <= j < |ws[..n][a].gpuMaterials| && ws[..n][a].gpuMaterials[j] == id;
      assert ws[..n][a] == ws[a];
    } else {
      var j :| j in TaggedSlots(ws[n].options) && 0 <= j < |ws[n].gpuMaterials| && ws[n].gpuMaterials[j] == id;
    }
  }

  /** The material at a tagged slot of one of the wraps is converted. */
  lemma {:induction false} TouchedHas(ws: seq<SkinWrap>, a: int, j: int)
    requires 0 <= a < |ws| && j in TaggedSlots(ws[a].options) && 0 <= j < |ws[a].gpuMaterials|
    ensures ws[a].gpuMaterials[j] in Touched(ws)
    decreases |ws|
  {
    var n := |ws| - 1;
    if a < n {
      assert ws[..n][a] == ws[a];
      TouchedHas(ws[..n], a, j);
    }
  }

  /** What `Build` left is cleared alike: every original is as it was or cleared. */
  lemma ScannedAlike(ws: seq<SkinWrap>, mats0: map<MatId, Material>, mats: map<MatId, Material>,
                     rows: seq<seq<Option<MatId>>>, hiddens: seq<seq<MatId>>, shader: string)
    requires StoreScanned(ws, mats0, mats, rows, hiddens, shader)
    ensures ClearedAlike(mats0, mats)
  {
    forall id | id in mats0
      ensures Cleared(mats[id]) == Cleared(mats0[id])
    {
      ClearedTwice(mats0[id]);
    }
  }

  /** Taking over one more wrap, converted from store `mw`. */
  lemma StoreScannedSnoc(ws: seq<SkinWrap>, w: SkinWrap, mats0: map<MatId, Material>, mw: map<MatId, Material>,
                         mats: map<MatId, Material>, rows: seq<seq<Option<MatId>>>, row: seq<Option<MatId>>,
                         hiddens: seq<seq<MatId>>, hidden: seq<MatId>, shader: string)
    requires StoreScanned(ws, mats0, mw, rows, hiddens, shader)
    requires Converting(w.gpuMaterials, TaggedList(w.options), mats0, mw, mats, row, hidden, shader)
    ensures StoreScanned(ws + [w], mats0, mats, rows + [row], hiddens + [hidden], shader)
  {
    TaggedListSlots(w.options);
    ConvertingEvolves(w.gpuMaterials, TaggedList(w.options), mats0, mw, mats, row, hidden, shader);
    RowsEvolve(ws, mats0, mw, mats, rows, hiddens, shader);
    RowsSnoc(ws, w, mats0, mats, rows, row, hiddens, hidden, shader);
    TouchedSnoc(ws, w);
    SnocCleared(ws, w, mats0, mw, mats, rows, row, hiddens, hidden, shader);
    SnocTextured(ws, w, mats0, mw, mats, rows, row, hiddens, hidden, shader);
  }

  /** The originals after one more wrap: cleared once converted by any wrap so far, otherwise as they were. */
  lemma SnocCleared(ws: seq<SkinWrap>, w: SkinWrap, mats0: map<MatId, Material>, mw: map<MatId, Material>,
                    mats: map<MatId, Material>, rows: seq<seq<Option<MatId>>>, row: seq<Option<MatId>>,
                    hiddens: seq<seq<MatId>>, hidden: seq<MatId>, shader: string)
    requires StoreScanned(ws, mats0, mw, rows, hiddens, shader)
    requires Converting(w.gpuMaterials, TaggedList(w.options), mats0, mw, mats, row, hidden, shader)
    requires SlotSet(TaggedList(w.options)) == TaggedSlots(w.options)
    requires Touched(ws + [w]) == Touched(ws) + SlotMaterials(w.gpuMaterials, TaggedSlots(w.options))
    ensures forall id :: id in mats0 && id !in Touched(ws + [w]) ==> mats[id] == mats0[id]
    ensures forall id :: id in mats0 && id in Touched(ws + [w]) ==> mats[id] == Cleared(mats0[id])
  {
    forall id | id in mats0 && id in Touched(ws + [w])
      ensures mats[id] == Cleared(mats0[id])
    {
      ClearedTwice(mats0[id]);
    }
  }

  /** The glow textures after one more wrap: the new wrap's come from the originals, the earlier ones are untouched. */
  lemma SnocTextured(ws: seq<SkinWrap>, w: SkinWrap, mats0: map<MatId, Material>, mw: map<MatId, Material>,
                     mats: map<MatId, Material>, rows: seq<seq<Option<MatId>>>, row: seq<Option<MatId>>,
                     hiddens: seq<seq<MatId>>, hidden: seq<MatId>, shader: string)
    requires StoreScanned(ws, mats0, mw, rows, hiddens, shader)
    requires Converting(w.gpuMaterials, TaggedList(w.options), mats0, mw, mats, row, hidden, shader)
    requires SlotSet(TaggedList(w.options)) == TaggedSlots(w.options) && Evolves(mats0, mw, mats)
    ensures GlowsTextured(ws + [w], mats0, mats, rows + [row])
  {
    var ws', rows' := ws + [w], rows + [row];
    forall a, i | GlowSlot(ws', rows', a, i) && ConvertedOnce(ws', rows', a, i) && ws'[a].gpuMaterials[i] in mats0 && rows'[a][i].value in mats
      ensures GetTexture(mats[rows'[a][i].value], "_MainTex") == GetTexture(mats0[ws'[a].gpuMaterials[i]], DecalKey)
    {
      if a < |ws| {
        SnocTexturedOld(ws, w, mats0, mw, mats, rows, row, hiddens, shader, a, i);
      } else {
        SnocTexturedNew(ws, w, mats0, mw, mats, rows, row, hiddens, hidden, shader, i);
      }
    }
  }

  /** A glow slot of an earlier wrap converted once keeps its texture. */
  lemma SnocTexturedOld(ws: seq<SkinWrap>, w: SkinWrap, mats0: map<MatId, Material>, mw: map<MatId, Material>,
                        mats: map<MatId, Material>, rows: seq<seq<Option<MatId>>>, row: seq<Option<MatId>>,
                        hiddens: seq<seq<MatId>>, shader: string, a: int, i: int)
    requires StoreScanned(ws, mats0, mw, rows, hiddens, shader) && Evolves(mats0, mw, mats)
    requires 0 <= a < |ws| && GlowSlot(ws + [w], rows + [row], a, i) && ConvertedOnce(ws + [w], rows + [row], a, i)
    ensures GetTexture(mats[rows[a][i].value], "_MainTex") == GetTexture(mats0[ws[a].gpuMaterials[i]], DecalKey)
  {
    var ws', rows' := ws + [w], rows + [row];
    assert ws'[a] == ws[a] && rows'[a] == rows[a];
    assert GlowSlot(ws, rows, a, i);
    forall a', i' | GlowSlot(ws, rows, a', i') && (a', i') != (a, i)
      ensures ws[a'].gpuMaterials[i'] != ws[a].gpuMaterials[i]
    {
      assert ws'[a'] == ws[a'] && rows'[a'] == rows[a'];
      assert GlowSlot(ws', rows', a', i');
    }
    assert ConvertedOnce(ws, rows, a, i);
    assert RowBuilt(ws[a].gpuMaterials, TaggedSlots(ws[a].options), mats0, mw, rows[a], hiddens[a], shader);
  }

  /** A glow slot of the new wrap converted once took its original's decal. */
  lemma SnocTexturedNew(ws: seq<SkinWrap>, w: SkinWrap, mats0: map<MatId, Material>, mw: map<MatId, Material>,
                        mats: map<MatId, Material>, rows: seq<seq<Option<MatId>>>, row: seq<Option<MatId>>,
                        hiddens: seq<seq<MatId>>, hidden: seq<MatId>, shader: string, i: int)
    requires StoreScanned(ws, mats0, mw, rows, hiddens, shader)
    requires Converting(w.gpuMaterials, TaggedList(w.options), mats0, mw, mats, row, hidden, shader)
    requires SlotSet(TaggedList(w.options)) == TaggedSlots(w.options)
    requires GlowSlot(ws + [w], rows + [row], |ws|, i) && ConvertedOnce(ws + [w], rows + [row], |ws|, i)
    ensures GetTexture(mats[row[i].value], "_MainTex") == GetTexture(mats0[w.gpuMaterials[i]], DecalKey)
  {
    var ws', rows', n, gpu := ws + [w], rows + [row], |ws|, w.gpuMaterials;
    assert ws'[n] == w && rows'[n] == row;
    forall k | k in TaggedList(w.options) && 0 <= k < |gpu| && k != i
      ensures gpu[k] != gpu[i]
    {
      assert k in SlotSet(TaggedList(w.options));
      assert GlowSlot(ws', rows', n, k);
    }
    assert OnceIn(gpu, TaggedList(w.options), i);
    assert gpu[i] !in Touched(ws) by {
      if gpu[i] in Touched(ws) {
        TouchedWhere(ws, gpu[i]);
        var b, k :| 0 <= b < |ws| && k in TaggedSlots(ws[b].options) && 0 <= k < |ws[b].gpuMaterials| && ws[b].gpuMaterials[k] == gpu[i];
        assert RowBuilt(ws[b].gpuMaterials, TaggedSlots(ws[b].options), mats0, mw, rows[b], hiddens[b], shader);
        assert ws'[b] == ws[b] && rows'[b] == rows[b];
        assert GlowSlot(ws', rows', b, k);
      }
    }
  }

  /** The wraps `ws` are, in order, the tracked ones among the first `n` of `all`. */
  ghost predicate ListedIn(all: seq<SkinWrap>, n: int, ws: seq<SkinWrap>) {
    && 0 <= n <= |all| && ws == Filter(all[..n], Tracked)
    && (forall k :: 0 <= k < |ws| ==> ws[k] in all[..n])
    && (forall a, b :: 0 <= a < b < |ws| ==> ws[a] != ws[b])
  }

  /** One more wrap of a list without repeats: it is new, and listed when tracked. */
  lemma ListedStep(all: seq<SkinWrap>, n: int, ws: seq<SkinWrap>)
    requires ListedIn(all, n, ws) && n < |all| && forall a, b :: 0 <= a < b < |all| ==> all[a] != all[b]
    ensures all[n] !in ws
    ensures ListedIn(all, n + 1, ws + if Tracked(all[n]) then [all[n]] else [])
  {
    forall k | 0 <= k < |ws|
      ensures ws[k] != all[n]
    {
      var a :| 0 <= a < n && all[a] == ws[k];
    }
    FilterSnoc(all, n, Tracked);
    assert all[..n + 1] == all[..n] + [all[n]];
  }

  /** Tinting the glow materials keeps what `Build` left. */
  lemma StoreTinted(ws: seq<SkinWrap>, mats0: map<MatId, Material>, mats: map<MatId, Material>,
                    rows: seq<seq<Option<MatId>>>, hiddens: seq<seq<MatId>>, shader: string, v: PropValue)
    requires StoreScanned(ws, mats0, mats, rows, hiddens, shader)
    ensures StoreScanned(ws, mats0, SetAll(mats, Elems(Present(rows)), "_Color", v), rows, hiddens, shader)
  {
    var ids := Elems(Present(rows));
    forall id | id in ids
      ensures id !in mats0 && (id in mats ==> !Hides(mats[id]))
    {
      GlowIdNew(ws, mats0, mats, rows, hiddens, shader, id);
    }
    RowsTinted(ws, mats0, mats, ids, v, rows, hiddens, shader);
    TexturedTinted(ws, mats0, mats, rows, ids, v);
  }

  /** A glow material of the rows is new and does not hide. */
  lemma GlowIdNew(ws: seq<SkinWrap>, mats0: map<MatId, Material>, mats: map<MatId, Material>,
                  rows: seq<seq<Option<MatId>>>, hiddens: seq<seq<MatId>>, shader: string, id: MatId)
    requires RowsBuilt(ws, mats0, mats, rows, hiddens, shader) && id in Elems(Present(rows))
    ensures id !in mats0 && (id in mats ==> !Hides(mats[id]))
  {
    PresentIff(rows, id);
    var i :| 0 <= i < |rows| && Some(id) in rows[i];
    var j :| 0 <= j < |rows[i]| && rows[i][j] == Some(id);
    assert RowBuilt(ws[i].gpuMaterials, TaggedSlots(ws[i].options), mats0, mats, rows[i], hiddens[i], shader);
  }

  /** Tinting keeps the glow materials' main textures. */
  lemma TexturedTinted(ws: seq<SkinWrap>, mats0: map<MatId, Material>, mats: map<MatId, Material>,
                       rows: seq<seq<Option<MatId>>>, ids: set<MatId>, v: PropValue)
    requires |rows| == |ws| && GlowsTextured(ws, mats0, mats, rows)
    ensures GlowsTextured(ws, mats0, SetAll(mats, ids, "_Color", v), rows)
  {
    var mats' := SetAll(mats, ids, "_Color", v);
    forall id | id in mats
      ensures GetTexture(mats'[id], "_MainTex") == GetTexture(mats[id], "_MainTex")
    {
    }
  }

  /** After `SyncMats`, every glow material of the rows is tinted. */
  lemma GlowTinted(rows: seq<seq<Option<MatId>>>, mats: map<MatId, Material>, color: Color, alpha: real)
    requires forall k, j :: 0 <= k < |rows| && 0 <= j < |rows[k]| && rows[k][j].Some? ==> rows[k][j].value in mats
    ensures var r := SetAll(mats, Elems(Present(rows)), "_Color", ColorVal(Tint(color, alpha)));
      forall k, j :: 0 <= k < |rows| && 0 <= j < |rows[k]| && rows[k][j].Some? ==> Tinted(r[rows[k][j].value], color, alpha)
  {
    forall k, j | 0 <= k < |rows| && 0 <= j < |rows[k]| && rows[k][j].Some?
      ensures rows[k][j].value in Elems(Present(rows))
    {
      PresentIff(rows, rows[k][j].value);
    }
  }

  // ---------------------------------------------------------------------
  // Returning the decals on teardown

  /** The GPU materials and glow materials of one row are in the store. */
  ghost predicate RowIn(mats: map<MatId, Material>, gpu: seq<MatId>, row: seq<Option<MatId>>) {
    && |row| == |gpu|
    && (forall j :: 0 <= j < |gpu| ==> gpu[j] in mats)
    && (forall j :: 0 <= j < |row| && row[j].Some? ==> row[j].value in mats)
  }

  /** Every row is in the store. */
  ghost predicate RowsIn(mats: map<MatId, Material>, ws: seq<SkinWrap>, rows: seq<seq<Option<MatId>>>) {
    |rows| == |ws| && forall k :: 0 <= k < |ws| ==> RowIn(mats, ws[k].gpuMaterials, rows[k])
  }

  /** The store after `OnDestroy` gave back the decals of the first `j` slots of one row. */
  ghost function ReturnRow(mats: map<MatId, Material>, gpu: seq<MatId>, row: seq<Option<MatId>>, j: nat): (r: map<MatId, Material>)
    requires RowIn(mats, gpu, row) && j <= |row|
    ensures r.Keys == mats.Keys
    decreases j
  {
    if j == 0 then mats
    else
      var m := ReturnRow(mats, gpu, row, j - 1);
      if row[j - 1].None? then m else m[gpu[j - 1] := ReturnDecal(m[gpu[j - 1]], m[row[j - 1].value])]
  }

  /** Store `mats` is store `m0` after the first `j` slots of `row` gave their decals back. */
  ghost predicate RowReturned(mats: map<MatId, Material>, gpu: seq<MatId>, row: seq<Option<MatId>>, j: int, m0: map<MatId, Material>) {
    0 <= j <= |row| && RowIn(m0, gpu, row) && mats == ReturnRow(m0, gpu, row, j)
  }

  /** The store after `OnDestroy` gave back the decals of the first `k` rows. */
  ghost function ReturnRows(mats: map<MatId, Material>, ws: seq<SkinWrap>, rows: seq<seq<Option<MatId>>>, k: nat): (r: map<MatId, Material>)
    requires RowsIn(mats, ws, rows) && k <= |ws|
    ensures r.Keys == mats.Keys
    decreases k
  {
    if k == 0 then mats
    else
      var m := ReturnRows(mats, ws, rows, k - 1);
      assert RowIn(m, ws[k - 1].gpuMaterials, rows[k - 1]);
      ReturnRow(m, ws[k - 1].gpuMaterials, rows[k - 1], |rows[k - 1]|)
  }

  /** A material at none of the first `j` glow slots of a row keeps its state. */
  lemma {:induction false} ReturnRowFrame(mats: map<MatId, Material>, gpu: seq<MatId>, row: seq<Option<MatId>>, j: nat, id: MatId)
    requires RowIn(mats, gpu, row) && j <= |row| && id in mats
    requires forall i :: 0 <= i < j && row[i].Some? ==> gpu[i] != id
    ensures ReturnRow(mats, gpu, row, j)[id] == mats[id]
    decreases j
  {
    if j > 0 {
      ReturnRowFrame(mats, gpu, row, j - 1, id);
    }
  }

  /** A material at none of the glow slots of the first `k` rows keeps its state. */
  lemma {:induction false} ReturnRowsFrame(mats: map<MatId, Material>, ws: seq<SkinWrap>, rows: seq<seq<Option<MatId>>>, k: nat, id: MatId)
    requires RowsIn(mats, ws, rows) && k <= |ws| && id in mats
    requires forall a, i :: 0 <= a < k && 0 <= i < |rows[a]| && rows[a][i].Some? ==> ws[a].gpuMaterials[i] != id
    ensures ReturnRows(mats, ws, rows, k)[id] == mats[id]
    decreases k
  {
    if k > 0 {
      ReturnRowsFrame(mats, ws, rows, k - 1, id);
      var m := ReturnRows(mats, ws, rows, k - 1);
      assert RowIn(m, ws[k - 1].gpuMaterials, rows[k - 1]);
      ReturnRowFrame(m, ws[k - 1].gpuMaterials, rows[k - 1], |rows[k - 1]|, id);
    }
  }

  /**
   * A glow slot `i` whose material is at no other glow slot of the row
   * gets its decal back from its glow material, as both stood before,
   * when no glow material is itself at a glow slot.
   */
  lemma {:induction false} ReturnRowAt(mats: map<MatId, Material>, gpu: seq<MatId>, row: seq<Option<MatId>>, j: nat, i: nat)
    requires RowIn(mats, gpu, row) && i < j <= |row| && row[i].Some?
    requires forall i' :: 0 <= i' < j && i' != i && row[i'].Some? ==> gpu[i'] != gpu[i]
    requires forall i' :: 0 <= i' < j && row[i'].Some? ==> gpu[i'] != row[i].value
    ensures ReturnRow(mats, gpu, row, j)[gpu[i]] == ReturnDecal(mats[gpu[i]], mats[row[i].value])
    decreases j
  {
    if j - 1 == i {
      ReturnRowFrame(mats, gpu, row, j - 1, gpu[i]);
      ReturnRowFrame(mats, gpu, row, j - 1, row[i].value);
    } else {
      ReturnRowAt(mats, gpu, row, j - 1, i);
    }
  }

  /** The glow slots of the rows: a row and a slot of it with a glow material. */
  ghost predicate GlowSlot(ws: seq<SkinWrap>, rows: seq<seq<Option<MatId>>>, a: int, i: int)
    requires RowsIn(map[], ws, rows) || |rows| == |ws|
  {
    0 <= a < |ws| && 0 <= i < |rows[a]| && i < |ws[a].gpuMaterials| && rows[a][i].Some?
  }

  /**
   * A glow slot whose material is at no other glow slot of the rows gets
   * its decal back from its glow material, as both stood before, when no
   * glow material is itself at a glow slot.
   */
  lemma {:induction false} ReturnRowsAt(mats: map<MatId, Material>, ws: seq<SkinWrap>, rows: seq<seq<Option<MatId>>>, k: nat, a: nat, i: nat)
    requires RowsIn(mats, ws, rows) && a < k <= |ws| && GlowSlot(ws, rows, a, i)
    requires forall a', i' :: a' < k && GlowSlot(ws, rows, a', i') && (a', i') != (a, i) ==>
      ws[a'].gpuMaterials[i'] != ws[a].gpuMaterials[i]
    requires forall a', i' :: a' < k && GlowSlot(ws, rows, a', i') ==> ws[a'].gpuMaterials[i'] != rows[a][i].value
    ensures ReturnRows(mats, ws, rows, k)[ws[a].gpuMaterials[i]] == ReturnDecal(mats[ws[a].gpuMaterials[i]], mats[rows[a][i].value])
    decreases k
  {
    var m := ReturnRows(mats, ws, rows, k - 1);
    var gpu, row := ws[k - 1].gpuMaterials, rows[k - 1];
    assert RowIn(m, gpu, row);
    if k - 1 == a {
      forall a', i' | 0 <= a' < k - 1 && 0 <= i' < |rows[a']| && rows[a'][i'].Some?
        ensures ws[a'].gpuMaterials[i'] != gpu[i] && ws[a'].gpuMaterials[i'] != row[i].value
      {
        assert GlowSlot(ws, rows, a', i');
      }
      ReturnRowsFrame(mats, ws, rows, k - 1, gpu[i]);
      ReturnRowsFrame(mats, ws, rows, k - 1, row[i].value);
      forall i' | 0 <= i' < |row| && i' != i && row[i'].Some?
        ensures gpu[i'] != gpu[i]
      {
        assert GlowSlot(ws, rows, a, i');
      }
      forall i' | 0 <= i' < |row| && row[i'].Some?
        ensures gpu[i'] != row[i].value
      {
        assert GlowSlot(ws, rows, a, i');
      }
      ReturnRowAt(m, gpu, row, |row|, i);
    } else {
      ReturnRowsAt(mats, ws, rows, k - 1, a, i);
      forall i' | 0 <= i' < |row| && row[i'].Some?
        ensures gpu[i'] != ws[a].gpuMaterials[i]
      {
        assert GlowSlot(ws, rows, k - 1, i');
      }
      ReturnRowFrame(m, gpu, row, |row|, ws[a].gpuMaterials[i]);
    }
  }

  /** What `Build` leaves meets the second condition of `ReturnRowsAt`: glow materials are new, GPU materials are not. */
  lemma BuiltGlowsApart(ws: seq<SkinWrap>, mats0: map<MatId, Material>, mats: map<MatId, Material>,
                        rows: seq<seq<Option<MatId>>>, hiddens: seq<seq<MatId>>, shader: string, a: int, i: int)
    requires StoreScanned(ws, mats0, mats, rows, hiddens, shader) && GlowSlot(ws, rows, a, i)
    ensures forall a', i' :: GlowSlot(ws, rows, a', i') ==> ws[a'].gpuMaterials[i'] != rows[a][i].value
  {
    assert RowBuilt(ws[a].gpuMaterials, TaggedSlots(ws[a].options), mats0, mats, rows[a], hiddens[a], shader);
    forall a', i' | GlowSlot(ws, rows, a', i')
      ensures ws[a'].gpuMaterials[i'] != rows[a][i].value
    {
      assert RowBuilt(ws[a'].gpuMaterials, TaggedSlots(ws[a'].options), mats0, mats, rows[a'], hiddens[a'], shader);
    }
  }

  /** Material `id` of store `mats` has a decal property holding a texture or null. */
  ghost predicate HasDecal(mats: map<MatId, Material>, id: MatId) {
    id in mats && DecalKey in mats[id].props && mats[id].props[DecalKey].TextureVal?
  }

  /**
   * `Build` and then `OnDestroy` give back every material converted
   * exactly once just as it was before `Build`. `mats` is the store `Build`
   * left and `mt` the store at teardown: the frames drawn in between may
   * change the glow materials (tint, render queue, buffers), but neither
   * the originals nor the glow materials' main textures.
   */
  lemma DecalRestored(ws: seq<SkinWrap>, mats0: map<MatId, Material>, mats: map<MatId, Material>,
                      rows: seq<seq<Option<MatId>>>, hiddens: seq<seq<MatId>>, shader: string,
                      mt: map<MatId, Material>, a: int, i: int)
    requires StoreScanned(ws, mats0, mats, rows, hiddens, shader)
    requires GlowSlot(ws, rows, a, i) && ConvertedOnce(ws, rows, a, i) && HasDecal(mats0, ws[a].gpuMaterials[i])
    requires mt.Keys == mats.Keys && forall id :: id in mats0 ==> mt[id] == mats[id]
    requires forall a', i' :: GlowSlot(ws, rows, a', i') && rows[a'][i'].value in mats ==>
      GetTexture(mt[rows[a'][i'].value], "_MainTex") == GetTexture(mats[rows[a'][i'].value], "_MainTex")
    ensures RowsIn(mt, ws, rows)
    ensures ReturnRows(mt, ws, rows, |ws|)[ws[a].gpuMaterials[i]] == mats0[ws[a].gpuMaterials[i]]
  {
    var gpu, glow := ws[a].gpuMaterials, rows[a][i].value;
    forall k | 0 <= k < |ws|
      ensures RowIn(mt, ws[k].gpuMaterials, rows[k])
    {
      assert RowBuilt(ws[k].gpuMaterials, TaggedSlots(ws[k].options), mats0, mats, rows[k], hiddens[k], shader);
    }
    assert RowBuilt(gpu, TaggedSlots(ws[a].options), mats0, mats, rows[a], hiddens[a], shader);
    BuiltGlowsApart(ws, mats0, mats, rows, hiddens, shader, a, i);
    ReturnRowsAt(mt, ws, rows, |ws|, a, i);
    TouchedHas(ws, a, i);
    assert mt[gpu[i]] == Cleared(mats0[gpu[i]]);
    assert GetTexture(mt[glow], "_MainTex") == GetTexture(mats0[gpu[i]], DecalKey);
    DecalRoundTrip(shader, mats0[gpu[i]], mt[glow]);
  }

  /** Every wrap of `ws` has its rows built. */
  ghost predicate RowsBuilt(ws: seq<SkinWrap>, mats0: map<MatId, Material>, mats: map<MatId, Material>,
                            rows: seq<seq<Option<MatId>>>, hiddens: seq<seq<MatId>>, shader: string)
  {
    && |rows| == |ws| && |hiddens| == |ws|
    && forall k :: 0 <= k < |ws| ==>
         RowBuilt(ws[k].gpuMaterials, TaggedSlots(ws[k].options), mats0, mats, rows[k], hiddens[k], shader)
  }

  /** Built rows stay built while the store evolves. */
  lemma RowsEvolve(ws: seq<SkinWrap>, mats0: map<MatId, Material>, a: map<MatId, Material>, b: map<MatId, Material>,
                   rows: seq<seq<Option<MatId>>>, hiddens: seq<seq<MatId>>, shader: string)
    requires RowsBuilt(ws, mats0, a, rows, hiddens, shader) && Evolves(mats0, a, b)
    ensures RowsBuilt(ws, mats0, b, rows, hiddens, shader)
  {
    forall k | 0 <= k < |ws|
      ensures RowBuilt(ws[k].gpuMaterials, TaggedSlots(ws[k].options), mats0, b, rows[k], hiddens[k], shader)
    {
      RowBuiltEvolves(ws[k].gpuMaterials, TaggedSlots(ws[k].options), mats0, a, b, rows[k], hiddens[k], shader);
    }
  }

  /** Built rows stay built when glow materials are tinted. */
  lemma RowsTinted(ws: seq<SkinWrap>, mats0: map<MatId, Material>, mats: map<MatId, Material>, ids: set<MatId>, v: PropValue,
                   rows: seq<seq<Option<MatId>>>, hiddens: seq<seq<MatId>>, shader: string)
    requires RowsBuilt(ws, mats0, mats, rows, hiddens, shader)
    requires forall id :: id in ids && id in mats ==> !Hides(mats[id])
    ensures RowsBuilt(ws, mats0, SetAll(mats, ids, "_Color", v), rows, hiddens, shader)
  {
    forall k | 0 <= k < |ws|
      ensures RowBuilt(ws[k].gpuMaterials, TaggedSlots(ws[k].options), mats0, SetAll(mats, ids, "_Color", v), rows[k], hiddens[k], shader)
    {
      RowBuiltTinted(ws[k].gpuMaterials, TaggedSlots(ws[k].options), mats0, mats, ids, v, rows[k], hiddens[k], shader);
    }
  }

  /** One more built wrap. */
  lemma RowsSnoc(ws: seq<SkinWrap>, w: SkinWrap, mats0: map<MatId, Material>, mats: map<MatId, Material>,
                 rows: seq<seq<Option<MatId>>>, row: seq<Option<MatId>>, hiddens: seq<seq<MatId>>, hidden: seq<MatId>, shader: string)
    requires RowsBuilt(ws, mats0, mats, rows, hiddens, shader)
    requires RowBuilt(w.gpuMaterials, TaggedSlots(w.options), mats0, mats, row, hidden, shader)
    ensures RowsBuilt(ws + [w], mats0, mats, rows + [row], hiddens + [hidden], shader)
  {
    var ws', rows', hiddens' := ws + [w], rows + [row], hiddens + [hidden];
    forall k | 0 <= k < |ws'|
      ensures RowBuilt(ws'[k].gpuMaterials, TaggedSlots(ws'[k].options), mats0, mats, rows'[k], hiddens'[k], shader)
    {
      if k < |ws| {
        assert ws'[k] == ws[k] && rows'[k] == rows[k] && hiddens'[k] == hiddens[k];
      }
    }
  }

  /** The materials converted for one more wrap. */
  lemma TouchedSnoc(ws: seq<SkinWrap>, w: SkinWrap)
    ensures Touched(ws + [w]) == Touched(ws) + SlotMaterials(w.gpuMaterials, TaggedSlots(w.options))
  {
    assert (ws + [w])[..|ws|] == ws;
  }

  /** The non-null entries of one more slot of a row. */
  lemma SomesSnoc(row: seq<Option<MatId>>, j: int)
    requires 0 <= j < |row|
    ensures Elems(Somes(row[..j + 1])) == Elems(Somes(row[..j])) + (if row[j].Some? then {row[j].value} else {})
  {
    assert row[..j + 1][..j] == row[..j];
  }

  /** The non-null entries of one more row. */
  lemma PresentSnoc(rows: seq<seq<Option<MatId>>>, r: int)
    requires 0 <= r < |rows|
    ensures Elems(Present(rows[..r + 1])) == Elems(Present(rows[..r])) + Elems(Somes(rows[r]))
  {
    assert rows[..r + 1][..r] == rows[..r];
  }

  /** The plugin: the wraps it took over, their glow materials, the shared toggle and the glow colour. */
  class EmissiveClothing {
    const scene: Scene
    /** The emissive shader the plugin loaded. */
    const shader: string
    const renderOriginal: Toggle
    var color: Color
    var alpha: real
    var ourMaterials: seq<seq<Option<MatId>>>
    var wraps: seq<SkinWrap>
    /**
     * The emissive wrap `Build` added beside each wrap of `wraps`: what
     * `GetComponent<EmissiveDAZSkinWrap>()` finds on the wrap's object.
     */
    var added: seq<EmissiveSkinWrap>
    /** The hidden copies `Build` made for each wrap of `wraps`. */
    ghost var hiddenRows: seq<seq<MatId>>

    /**
     * The two lists run in lockstep, each row as long as its wrap's GPU
     * materials, every material in the store, and no wrap taken twice.
     */
    ghost predicate Valid()
      reads this, scene
    {
      && scene.Valid()
      && |ourMaterials| == |wraps| == |added|
      && (forall a, b :: 0 <= a < b < |wraps| ==> wraps[a] != wraps[b])
      && (forall k :: 0 <= k < |wraps| ==> |ourMaterials[k]| == |wraps[k].gpuMaterials|)
      && (forall k, j :: 0 <= k < |wraps| && 0 <= j < |wraps[k].gpuMaterials| ==> wraps[k].gpuMaterials[j] in scene.mats)
      && (forall k, j :: 0 <= k < |ourMaterials| && 0 <= j < |ourMaterials[k]| && ourMaterials[k][j].Some? ==>
            ourMaterials[k][j].value in scene.mats)
    }

    /** `Init`: white at full alpha, originals rendered, nothing taken over yet. */
    constructor Init(scene: Scene, shader: string)
      requires scene.Valid()
      ensures Valid() && this.scene == scene && this.shader == shader
      ensures color == Color(1.0, 1.0, 1.0, 1.0) && alpha == 1.0 && renderOriginal.val
      ensures ourMaterials == [] && wraps == [] && added == [] && hiddenRows == []
    {
      this.scene, this.shader := scene, shader;
      renderOriginal := new Toggle(true);
      color, alpha := Color(1.0, 1.0, 1.0, 1.0), 1.0;
      ourMaterials, wraps, added, hiddenRows := [], [], [], [];
    }

    /** `SyncMats`: every glow material takes the picked colour with the slider's alpha. */
    method SyncMats()
      requires Valid()
      modifies scene
      ensures Valid()
      ensures scene.rendererMats == old(scene.rendererMats)
      ensures scene.mats == SetAll(old(scene.mats), Elems(Present(ourMaterials)), "_Color", ColorVal(Tint(color, alpha)))
    {
      var r := 0;
      while r < |ourMaterials|
        invariant 0 <= r <= |ourMaterials| && scene.Valid() && scene.mats.Keys == old(scene.mats).Keys
        invariant scene.rendererMats == old(scene.rendererMats)
        invariant scene.mats == SetAll(old(scene.mats), Elems(Present(ourMaterials[..r])), "_Color", ColorVal(Tint(color, alpha)))
      {
        TintRow(r, old(scene.mats));
        r := r + 1;
      }
      assert ourMaterials[..r] == ourMaterials;
    }

    /** One row of `SyncMats`. */
    method TintRow(r: int, ghost mats0: map<MatId, Material>)
      requires scene.Valid() && 0 <= r < |ourMaterials| && mats0.Keys == scene.mats.Keys
      requires forall j :: 0 <= j < |ourMaterials[r]| && ourMaterials[r][j].Some? ==> ourMaterials[r][j].value in mats0
      requires scene.mats == SetAll(mats0, Elems(Present(ourMaterials[..r])), "_Color", ColorVal(Tint(color, alpha)))
      modifies scene
      ensures scene.Valid() && scene.rendererMats == old(scene.rendererMats) && scene.mats.Keys == old(scene.mats).Keys
      ensures scene.mats == SetAll(mats0, Elems(Present(ourMaterials[..r + 1])), "_Color", ColorVal(Tint(color, alpha)))
    {
      var row := ourMaterials[r];
      ghost var done := Elems(Present(ourMaterials[..r]));
      assert done + Elems(Somes(row[..0])) == done;
      var j := 0;
      while j < |row|
        invariant 0 <= j <= |row| && scene.Valid() && scene.mats.Keys == old(scene.mats).Keys
        invariant scene.rendererMats == old(scene.rendererMats)
        invariant scene.mats == SetAll(mats0, done + Elems(Somes(row[..j])), "_Color", ColorVal(Tint(color, alpha)))
      {
        TintNext(row, j, mats0, done);
        j := j + 1;
      }
      assert row[..j] == row;
      PresentSnoc(ourMaterials, r);
    }

    /** One pass of `TintRow`'s loop: slot `j` of `row`, when it holds a glow material, takes the colour. */
    method TintNext(row: seq<Option<MatId>>, j: int, ghost mats0: map<MatId, Material>, ghost done: set<MatId>)
      requires scene.Valid() && 0 <= j < |row| && (row[j].Some? ==> row[j].value in mats0)
      requires scene.mats == SetAll(mats0, done + Elems(Somes(row[..j])), "_Color", ColorVal(Tint(color, alpha)))
      modifies scene
      ensures scene.Valid() && scene.rendererMats == old(scene.rendererMats) && scene.mats.Keys == old(scene.mats).Keys
      ensures scene.mats == SetAll(mats0, done + Elems(Somes(row[..j + 1])), "_Color", ColorVal(Tint(color, alpha)))
    {
      ghost var ids := done + Elems(Somes(row[..j]));
      SomesSnoc(row, j);
      if row[j].Some? {
        TintSlot(row[j].value, mats0, ids);
        assert ids + {row[j].value} == done + Elems(Somes(row[..j + 1]));
      } else {
        assert ids == done + Elems(Somes(row[..j + 1]));
      }
    }

    /** One slot of `SyncMats`: the glow material `m` takes the colour. */
    method TintSlot(m: MatId, ghost mats0: map<MatId, Material>, ghost ids: set<MatId>)
      requires scene.Valid() && m in mats0
      requires scene.mats == SetAll(mats0, ids, "_Color", ColorVal(Tint(color, alpha)))
      modifies scene
      ensures scene.Valid() && scene.rendererMats == old(scene.rendererMats) && scene.mats.Keys == old(scene.mats).Keys
      ensures scene.mats == SetAll(mats0, ids + {m}, "_Color", ColorVal(Tint(color, alpha)))
    {
      SetAllInsert(mats0, ids, m, "_Color", ColorVal(Tint(color, alpha)));
      scene.SetProperty(m, "_Color", ColorVal(Tint(color, alpha)));
    }

    /** The colour picker's callback. */
    method SetColor(c: Color)
      requires Valid()
      modifies this`color, scene
      ensures Valid() && color == c
      ensures scene.mats == SetAll(old(scene.mats), Elems(Present(ourMaterials)), "_Color", ColorVal(Tint(c, alpha)))
    {
      color := c;
      SyncMats();
    }

    /** The alpha slider's callback. */
    method SetAlpha(a: real)
      requires Valid()
      modifies this`alpha, scene
      ensures Valid() && alpha == a
      ensures scene.mats == SetAll(old(scene.mats), Elems(Present(ourMaterials)), "_Color", ColorVal(Tint(color, a)))
    {
      alpha := a;
      SyncMats();
    }

    /**
     * One slot of `Build`: a new glow material on the plugin's shader,
     * named after the slot's material and taking its decal as main
     * texture; the slot's material loses its decal; a copy of it that
     * hides (`_AlphaAdjust` at -1) becomes the slot's hidden material.
     */
    method ConvertSlot(w: SkinWrap, i: int, ourMats: seq<Option<MatId>>, theirNew: seq<MatId>)
      returns (ourMats': seq<Option<MatId>>, theirNew': seq<MatId>)
      requires scene.Valid() && 0 <= i < |w.gpuMaterials| && w.gpuMaterials[i] in scene.mats
      requires |ourMats| == |w.gpuMaterials| && |theirNew| == |w.gpuMaterials|
      modifies scene
      ensures scene.Valid() && scene.rendererMats == old(scene.rendererMats)
      ensures |ourMats'| == |ourMats| && |theirNew'| == |theirNew| && ourMats'[i].Some?
      ensures ourMats' == ourMats[i := ourMats'[i]] && theirNew' == theirNew[i := theirNew'[i]]
      ensures ourMats'[i].value !in old(scene.mats) && theirNew'[i] !in old(scene.mats) && ourMats'[i].value != theirNew'[i]
      ensures scene.mats == ConvertMats(old(scene.mats), w.gpuMaterials[i], ourMats'[i].value, theirNew'[i], shader)
    {
      var mat := w.gpuMaterials[i];
      ghost var m0 := scene.mats;
      var ourMat := scene.NewMaterial(shader);
      ourMats' := ourMats[i := Some(ourMat)];
      scene.SetName(ourMat, scene.mats[mat].name);
      scene.SetProperty(ourMat, "_MainTex", TextureVal(GetTexture(scene.mats[mat], DecalKey)));
      scene.SetProperty(mat, DecalKey, TextureVal(None));
      var copy := scene.CopyMaterial(mat);
      theirNew' := theirNew[i := copy];
      scene.SetProperty(copy, "_AlphaAdjust", FloatVal(-1.0));
      assert scene.mats == ConvertMats(m0, mat, ourMat, copy, shader);
    }

    /** One pass of the slot loop of `Build`: slot `o.slots[s]` is converted. */
    method ConvertNext(w: SkinWrap, o: MaterialOption, s: int, ourMats: seq<Option<MatId>>, theirNew: seq<MatId>,
                       ghost mats0: map<MatId, Material>, ghost mw: map<MatId, Material>, ghost done0: seq<int>)
      returns (ourMats': seq<Option<MatId>>, theirNew': seq<MatId>)
      requires scene.Valid() && o in w.options && IsTagged(o) && SlotsInRange(w) && 0 <= s < |o.slots|
      requires Converting(w.gpuMaterials, done0 + o.slots[..s], mats0, mw, scene.mats, ourMats, theirNew, shader)
      modifies scene
      ensures scene.Valid() && scene.rendererMats == old(scene.rendererMats)
      ensures Converting(w.gpuMaterials, done0 + o.slots[..s + 1], mats0, mw, scene.mats, ourMats', theirNew', shader)
    {
      var i := o.slots[s];
      ghost var done := done0 + o.slots[..s];
      ghost var mats := scene.mats;
      assert i in o.slots;
      assert w.gpuMaterials[i] in mats0;
      ourMats', theirNew' := ConvertSlot(w, i, ourMats, theirNew);
      ConvertingStep(w.gpuMaterials, done, mats0, mw, mats, ourMats, theirNew, shader, i, ourMats'[i].value, theirNew'[i]);
      ListSnoc(done0, o.slots, s);
    }

    /** The slot loop of `Build` for one tagged option. */
    method ConvertOption(w: SkinWrap, o: MaterialOption, ourMats: seq<Option<MatId>>, theirNew: seq<MatId>,
                         ghost mats0: map<MatId, Material>, ghost mw: map<MatId, Material>, ghost done0: seq<int>)
      returns (ourMats': seq<Option<MatId>>, theirNew': seq<MatId>)
      requires scene.Valid() && o in w.options && IsTagged(o) && SlotsInRange(w)
      requires Converting(w.gpuMaterials, done0, mats0, mw, scene.mats, ourMats, theirNew, shader)
      modifies scene
      ensures scene.Valid() && scene.rendererMats == old(scene.rendererMats)
      ensures Converting(w.gpuMaterials, done0 + o.slots, mats0, mw, scene.mats, ourMats', theirNew', shader)
    {
      ourMats', theirNew' := ourMats, theirNew;
      assert done0 + o.slots[..0] == done0;
      var s := 0;
      while s < |o.slots|
        invariant 0 <= s <= |o.slots| && scene.Valid() && scene.rendererMats == old(scene.rendererMats)
        invariant Converting(w.gpuMaterials, done0 + o.slots[..s], mats0, mw, scene.mats, ourMats', theirNew', shader)
      {
        ourMats', theirNew' := ConvertNext(w, o, s, ourMats', theirNew', mats0, mw, done0);
        s := s + 1;
      }
      assert o.slots[..s] == o.slots;
    }

    /** One pass of the option loop of `Build`: option `w.options[m]` is converted when it is tagged and names slots. */
    method ScanNext(w: SkinWrap, m: int, ourMats: seq<Option<MatId>>, theirNew: seq<MatId>, foundAny: bool,
                    ghost mats0: map<MatId, Material>, ghost mw: map<MatId, Material>)
      returns (ourMats': seq<Option<MatId>>, theirNew': seq<MatId>, foundAny': bool)
      requires scene.Valid() && SlotsInRange(w) && 0 <= m < |w.options|
      requires Converting(w.gpuMaterials, TaggedList(w.options[..m]), mats0, mw, scene.mats, ourMats, theirNew, shader)
      requires foundAny == HasTaggedSlots(w.options[..m])
      modifies scene
      ensures scene.Valid() && scene.rendererMats == old(scene.rendererMats)
      ensures Converting(w.gpuMaterials, TaggedList(w.options[..m + 1]), mats0, mw, scene.mats, ourMats', theirNew', shader)
      ensures foundAny' == HasTaggedSlots(w.options[..m + 1])
      ensures !foundAny' ==> scene.mats == old(scene.mats) && ourMats' == ourMats && theirNew' == theirNew
    {
      var mo := w.options[m];
      TaggedSnoc(w.options, m);
      assert w.options[..m + 1][..m] == w.options[..m];
      ghost var before := TaggedList(w.options[..m]);
      if IsTagged(mo) && |mo.slots| > 0 {
        foundAny' := true;
        ourMats', theirNew' := ConvertOption(w, mo, ourMats, theirNew, mats0, mw, before);
      } else {
        ourMats', theirNew', foundAny' := ourMats, theirNew, foundAny;
        assert TaggedList(w.options[..m + 1]) == before;
      }
    }

    /** The option loop of `Build` for one wrap: every tagged option's slots are converted. */
    method ScanOptions(w: SkinWrap, ghost mats0: map<MatId, Material>)
      returns (ourMats: seq<Option<MatId>>, theirNew: seq<MatId>, foundAny: bool)
      requires scene.Valid() && SlotsInRange(w) && mats0.Keys <= scene.mats.Keys && NamesKept(mats0, scene.mats)
      requires ClearedAlike(mats0, scene.mats)
      requires forall j :: 0 <= j < |w.gpuMaterials| ==> w.gpuMaterials[j] in mats0
      modifies scene
      ensures scene.Valid() && scene.rendererMats == old(scene.rendererMats)
      ensures foundAny == HasTaggedSlots(w.options)
      ensures Converting(w.gpuMaterials, TaggedList(w.options), mats0, old(scene.mats), scene.mats, ourMats, theirNew, shader)
      ensures !foundAny ==> scene.mats == old(scene.mats)
    {
      ourMats := seq(|w.gpuMaterials|, _ => None);
      theirNew := w.gpuMaterials;
      foundAny := false;
      assert w.options[..0] == [];
      ConvertingNone(w.gpuMaterials, mats0, scene.mats, shader);
      var m := 0;
      while m < |w.options|
        invariant 0 <= m <= |w.options| && scene.Valid() && scene.rendererMats == old(scene.rendererMats)
        invariant foundAny == HasTaggedSlots(w.options[..m])
        invariant Converting(w.gpuMaterials, TaggedList(w.options[..m]), mats0, old(scene.mats), scene.mats, ourMats, theirNew, shader)
        invariant !foundAny ==> scene.mats == old(scene.mats)
      {
        ourMats, theirNew, foundAny := ScanNext(w, m, ourMats, theirNew, foundAny, mats0, old(scene.mats));
        m := m + 1;
      }
      assert w.options[..m] == w.options;
    }

    /**
     * Emissive wrap `e` draws in place of wrap `w`: it is alive and draws
     * the wrap's GPU materials with glow row `row`, hidden row `hidden`
     * and this plugin's toggle, and the original stopped drawing.
     */
    ghost predicate Hooked(w: SkinWrap, e: EmissiveSkinWrap, row: seq<Option<MatId>>, hidden: seq<MatId>)
      reads w, e
    {
      && e.scene == scene && e.gpuMaterials == w.gpuMaterials && e.emissiveMats == row
      && e.hiddenMats == hidden && e.renderOriginal == renderOriginal && e.draw && e.alive && !w.draw
    }

    /**
     * Emissive wrap `e` took over wrap `w` (`Hooked`), and the control was
     * handed over from `target`, the one it had before.
     */
    ghost predicate HookedTo(w: SkinWrap, e: EmissiveSkinWrap, row: seq<Option<MatId>>, hidden: seq<MatId>, target: WrapRef)
      reads w, e
    {
      && Hooked(w, e, row, hidden)
      && w.controlTarget == (if w.hasControl then HandOver(target, w, e) else target)
    }

    /** One row of each kind for every wrap taken over. */
    ghost predicate Rows()
      reads this
    {
      |ourMaterials| == |wraps| && |added| == |wraps| && |hiddenRows| == |wraps|
    }

    /** The store as `Build` leaves it so far, from store `mats0`. */
    ghost predicate Stored(mats0: map<MatId, Material>)
      reads this, scene
    {
      scene.Valid() && StoreScanned(wraps, mats0, scene.mats, ourMaterials, hiddenRows, shader)
    }

    /** Every wrap taken over is hooked. */
    ghost predicate Hooks(t0: map<SkinWrap, WrapRef>)
      requires Rows()
      reads this, wraps, added
    {
      forall k :: 0 <= k < |wraps| ==> wraps[k] in t0 && HookedTo(wraps[k], added[k], ourMaterials[k], hiddenRows[k], t0[wraps[k]])
    }

    /**
     * The tail of one pass of the wrap loop of `Build` for a wrap with
     * converted slots: an emissive wrap is attached and takes over from
     * `w`, and the rows are recorded.
     */
    method Adopt(w: SkinWrap, ourMats: seq<Option<MatId>>, theirNew: seq<MatId>, ghost t0: map<SkinWrap, WrapRef>)
      requires Rows() && Hooks(t0) && w !in wraps && w in t0 && w.controlTarget == t0[w]
      requires scene.Valid() && |ourMats| == |w.gpuMaterials| && |theirNew| == |w.gpuMaterials|
      requires forall j :: 0 <= j < |w.gpuMaterials| ==> w.gpuMaterials[j] in scene.mats
      requires forall j :: 0 <= j < |ourMats| && ourMats[j].Some? ==> ourMats[j].value in scene.mats
      requires OwnGlow(w.gpuMaterials, ourMats)
      modifies this`ourMaterials, this`wraps, this`added, this`hiddenRows, w
      ensures ourMaterials == old(ourMaterials) + [ourMats] && wraps == old(wraps) + [w]
      ensures hiddenRows == old(hiddenRows) + [theirNew]
      ensures Rows() && Hooks(t0)
    {
      var e := new EmissiveSkinWrap.Attach(scene);
      e.CopyFrom(w, theirNew, ourMats, renderOriginal);
      Record(w, e, ourMats, theirNew, t0);
    }

    /** The lists of `Build` take one more wrap, hooked to emissive wrap `e`. */
    method Record(w: SkinWrap, e: EmissiveSkinWrap, ourMats: seq<Option<MatId>>, theirNew: seq<MatId>, ghost t0: map<SkinWrap, WrapRef>)
      requires Rows() && Hooks(t0) && w in t0 && HookedTo(w, e, ourMats, theirNew, t0[w])
      modifies this`ourMaterials, this`wraps, this`added, this`hiddenRows
      ensures ourMaterials == old(ourMaterials) + [ourMats] && wraps == old(wraps) + [w]
      ensures added == old(added) + [e] && hiddenRows == old(hiddenRows) + [theirNew]
      ensures Rows() && Hooks(t0)
    {
      ghost var ws, es, rs, hs := wraps, added, ourMaterials, hiddenRows;
      ourMaterials, wraps, added, hiddenRows := ourMaterials + [ourMats], wraps + [w], added + [e], hiddenRows + [theirNew];
      forall k | 0 <= k < |wraps|
        ensures wraps[k] in t0 && HookedTo(wraps[k], added[k], ourMaterials[k], hiddenRows[k], t0[wraps[k]])
      {
        if k < |ws| {
          assert wraps[k] == ws[k] && added[k] == es[k] && ourMaterials[k] == rs[k] && hiddenRows[k] == hs[k];
        }
      }
    }

    /** One pass of the wrap loop of `Build`: wrap `w` is skipped or taken over. */
    method ScanWrap(w: SkinWrap, ghost mats0: map<MatId, Material>, ghost t0: map<SkinWrap, WrapRef>)
      requires Rows() && Stored(mats0) && Hooks(t0) && w !in wraps && w in t0 && w.controlTarget == t0[w]
      requires SlotsInRange(w) && forall j :: 0 <= j < |w.gpuMaterials| ==> w.gpuMaterials[j] in mats0
      modifies this`ourMaterials, this`wraps, this`added, this`hiddenRows, scene, w
      ensures wraps == old(wraps) + (if Tracked(w) then [w] else [])
      ensures Rows() && Stored(mats0) && Hooks(t0) && scene.rendererMats == old(scene.rendererMats)
      ensures !Tracked(w) ==> w.draw == old(w.draw) && w.controlTarget == old(w.controlTarget)
    {
      if Contains(w.title, "Emissive") || w.delayed {
        return;
      }
      ghost var mw := scene.mats;
      ScannedAlike(wraps, mats0, mw, ourMaterials, hiddenRows, shader);
      var ourMats, theirNew, foundAny := ScanOptions(w, mats0);
      if !foundAny {
        return;
      }
      StoreScannedSnoc(wraps, w, mats0, mw, scene.mats, ourMaterials, ourMats, hiddenRows, theirNew, shader);
      Adopt(w, ourMats, theirNew, t0);
    }

    /** What `Build` leaves is a valid plugin state. */
    lemma StoredValid(mats0: map<MatId, Material>)
      requires Rows() && Stored(mats0) && forall a, b :: 0 <= a < b < |wraps| ==> wraps[a] != wraps[b]
      ensures Valid()
    {
      forall k | 0 <= k < |wraps|
        ensures |ourMaterials[k]| == |wraps[k].gpuMaterials|
        ensures forall j :: 0 <= j < |wraps[k].gpuMaterials| ==> wraps[k].gpuMaterials[j] in scene.mats
        ensures forall j :: 0 <= j < |ourMaterials[k]| && ourMaterials[k][j].Some? ==> ourMaterials[k][j].value in scene.mats
      {
        assert RowBuilt(wraps[k].gpuMaterials, TaggedSlots(wraps[k].options), mats0, scene.mats, ourMaterials[k], hiddenRows[k], shader);
      }
    }

    /** The wraps of `all` not taken over keep the control target `t0` and draw flag `d0` they had. */
    ghost predicate Others(all: seq<SkinWrap>, t0: map<SkinWrap, WrapRef>, d0: map<SkinWrap, bool>)
      reads this, set w | w in all
    {
      forall w :: w in all && w !in wraps ==> w in t0 && w in d0 && w.controlTarget == t0[w] && w.draw == d0[w]
    }

    /** One pass of the wrap loop of `Build`, over wrap `all[n]`. */
    method BuildStep(all: seq<SkinWrap>, n: int, ghost mats0: map<MatId, Material>, ghost t0: map<SkinWrap, WrapRef>, ghost d0: map<SkinWrap, bool>)
      requires 0 <= n < |all| && forall a, b :: 0 <= a < b < |all| ==> all[a] != all[b]
      requires Rows() && Stored(mats0) && Hooks(t0) && ListedIn(all, n, wraps) && Others(all, t0, d0)
      requires SlotsInRange(all[n]) && forall j :: 0 <= j < |all[n].gpuMaterials| ==> all[n].gpuMaterials[j] in mats0
      modifies this`ourMaterials, this`wraps, this`added, this`hiddenRows, scene, all[n]
      ensures Rows() && Stored(mats0) && Hooks(t0) && ListedIn(all, n + 1, wraps) && Others(all, t0, d0)
      ensures scene.rendererMats == old(scene.rendererMats)
    {
      var w := all[n];
      ListedStep(all, n, wraps);
      ScanWrap(w, mats0, t0);
      forall v | v in all && v !in wraps
        ensures v in t0 && v in d0 && v.controlTarget == t0[v] && v.draw == d0[v]
      {
        assert v !in old(wraps);
      }
    }

    /** The wrap loop of `Build`. */
    method ScanAll(all: seq<SkinWrap>, ghost mats0: map<MatId, Material>, ghost t0: map<SkinWrap, WrapRef>, ghost d0: map<SkinWrap, bool>)
      requires forall a, b :: 0 <= a < b < |all| ==> all[a] != all[b]
      requires forall w :: w in all ==> SlotsInRange(w) && forall j :: 0 <= j < |w.gpuMaterials| ==> w.gpuMaterials[j] in mats0
      requires Rows() && Stored(mats0) && Hooks(t0) && wraps == [] && Others(all, t0, d0)
      modifies this`ourMaterials, this`wraps, this`added, this`hiddenRows, scene, set w | w in all
      ensures Rows() && Stored(mats0) && Hooks(t0) && ListedIn(all, |all|, wraps) && Others(all, t0, d0)
      ensures scene.rendererMats == old(scene.rendererMats)
    {
      assert all[..0] == [];
      var n := 0;
      while n < |all|
        invariant 0 <= n <= |all| && Rows() && Stored(mats0) && Hooks(t0) && ListedIn(all, n, wraps) && Others(all, t0, d0)
        invariant scene.rendererMats == old(scene.rendererMats)
      {
        BuildStep(all, n, mats0, t0, d0);
        n := n + 1;
      }
    }

    /**
     * `Build` up to its final `SyncMats`: the lists start empty, and with
     * no wraps at all nothing more happens.
     */
    method TakeOver(all: seq<SkinWrap>)
      requires scene.Valid()
      requires forall a, b :: 0 <= a < b < |all| ==> all[a] != all[b]
      requires forall w :: w in all ==> SlotsInRange(w)
      requires forall w, j :: w in all && 0 <= j < |w.gpuMaterials| ==> w.gpuMaterials[j] in scene.mats
      modifies this`ourMaterials, this`wraps, this`added, this`hiddenRows, scene, set w | w in all
      ensures Valid() && Rows() && scene.rendererMats == old(scene.rendererMats)
      ensures wraps == Filter(all, Tracked)
      ensures forall k :: 0 <= k < |wraps| ==>
        wraps[k] in all && var w := wraps[k]; HookedTo(w, added[k], ourMaterials[k], hiddenRows[k], old(w.controlTarget))
      ensures forall w :: w in all && w !in wraps ==> w.draw == old(w.draw) && w.controlTarget == old(w.controlTarget)
      ensures StoreScanned(wraps, old(scene.mats), scene.mats, ourMaterials, hiddenRows, shader)
      ensures |all| == 0 ==> ourMaterials == [] && scene.mats == old(scene.mats)
    {
      ourMaterials, wraps, added, hiddenRows := [], [], [], [];
      if |all| == 0 {
        return;
      }
      ghost var mats0 := scene.mats;
      ghost var t0: map<SkinWrap, WrapRef> := map w | w in all :: w.controlTarget;
      ghost var d0: map<SkinWrap, bool> := map w | w in all :: w.draw;
      assert forall w :: w in all ==> t0[w] == old(w.controlTarget) && d0[w] == old(w.draw);
      ScanAll(all, mats0, t0, d0);
      assert all[..|all|] == all;
      StoredValid(mats0);
    }

    /**
     * `Build`: every wrap of the atom that is not an emissive wrap, not
     * delayed and has a tagged option naming slots is taken over by a
     * new emissive wrap, in order; at each converted slot a glow
     * material takes the decal and a hidden copy replaces the material
     * in the wrap's own drawing; the glow materials are then tinted.
     */
    method Build(all: seq<SkinWrap>)
      requires scene.Valid()
      requires forall a, b :: 0 <= a < b < |all| ==> all[a] != all[b]
      requires forall w :: w in all ==> SlotsInRange(w)
      requires forall w, j :: w in all && 0 <= j < |w.gpuMaterials| ==> w.gpuMaterials[j] in scene.mats
      modifies this`ourMaterials, this`wraps, this`added, this`hiddenRows, scene, set w | w in all
      ensures Valid() && Rows() && scene.rendererMats == old(scene.rendererMats)
      ensures wraps == Filter(all, Tracked)
      ensures forall k :: 0 <= k < |wraps| ==>
        wraps[k] in all && var w := wraps[k]; HookedTo(w, added[k], ourMaterials[k], hiddenRows[k], old(w.controlTarget))
      ensures forall w :: w in all && w !in wraps ==> w.draw == old(w.draw) && w.controlTarget == old(w.controlTarget)
      ensures StoreScanned(wraps, old(scene.mats), scene.mats, ourMaterials, hiddenRows, shader)
      ensures forall k, j :: 0 <= k < |ourMaterials| && 0 <= j < |ourMaterials[k]| && ourMaterials[k][j].Some? ==>
        Tinted(scene.mats[ourMaterials[k][j].value], color, alpha)
    {
      TakeOver(all);
      if |all| > 0 {
        TintAll(old(scene.mats));
      }
    }

    /** The final `SyncMats` of `Build`: the glow materials are tinted, and the store keeps what the take-over left. */
    method TintAll(ghost mats0: map<MatId, Material>)
      requires Valid() && StoreScanned(wraps, mats0, scene.mats, ourMaterials, hiddenRows, shader)
      modifies scene
      ensures Valid() && scene.rendererMats == old(scene.rendererMats)
      ensures StoreScanned(wraps, mats0, scene.mats, ourMaterials, hiddenRows, shader)
      ensures forall k, j :: 0 <= k < |ourMaterials| && 0 <= j < |ourMaterials[k]| && ourMaterials[k][j].Some? ==>
        Tinted(scene.mats[ourMaterials[k][j].value], color, alpha)
    {
      ghost var mats1 := scene.mats;
      SyncMats();
      StoreTinted(wraps, mats0, mats1, ourMaterials, hiddenRows, shader, ColorVal(Tint(color, alpha)));
      GlowTinted(ourMaterials, mats1, color, alpha);
    }

    /** The inner loop of `OnDestroy`: GPU materials `gpu` get their decals back from the glow materials of `row`. */
    method ReturnDecals(gpu: seq<MatId>, row: seq<Option<MatId>>)
      requires scene.Valid() && RowIn(scene.mats, gpu, row)
      modifies scene
      ensures scene.Valid() && scene.rendererMats == old(scene.rendererMats)
      ensures scene.mats == ReturnRow(old(scene.mats), gpu, row, |row|)
    {
      var j := 0;
      while j < |row|
        invariant ReturnedRowUpTo(gpu, row, j, old(scene.mats), old(scene.rendererMats))
      {
        ReturnNext(gpu, row, j, old(scene.mats), old(scene.rendererMats));
        j := j + 1;
      }
    }

    /** The store after the first `j` slots of the inner loop of `OnDestroy`, from store `m0`. */
    ghost predicate ReturnedRowUpTo(gpu: seq<MatId>, row: seq<Option<MatId>>, j: int, m0: map<MatId, Material>, r0: map<RendererId, seq<MatId>>)
      reads scene
    {
      RowReturned(scene.mats, gpu, row, j, m0) && scene.Valid() && scene.rendererMats == r0
    }

    /** One pass of the inner loop of `OnDestroy`, over slot `j`. */
    method ReturnNext(gpu: seq<MatId>, row: seq<Option<MatId>>, j: int, ghost m0: map<MatId, Material>, ghost r0: map<RendererId, seq<MatId>>)
      requires ReturnedRowUpTo(gpu, row, j, m0, r0) && j < |row|
      modifies scene
      ensures ReturnedRowUpTo(gpu, row, j + 1, m0, r0)
    {
      if row[j].Some? {
        var tex := GetTexture(scene.mats[row[j].value], "_MainTex");
        scene.SetProperty(gpu[j], DecalKey, TextureVal(tex));
      }
    }

    /** `OnDestroy` for one wrap, decals aside: its emissive wrap is destroyed, it draws again and gets the control back. */
    method Release(w: SkinWrap, e: EmissiveSkinWrap)
      modifies w, e`alive
      ensures !e.alive && w.draw
      ensures w.controlTarget == if w.hasControl then HandBack(old(w.controlTarget), w, e) else old(w.controlTarget)
    {
      e.alive := false;
      w.draw := true;
      if w.hasControl && (w.controlTarget == NoWrap || w.controlTarget == Emissive(e)) {
        w.controlTarget := Plain(w);
      }
    }

    /** Wrap `w` was released from emissive wrap `e`, its control target having been `target`. */
    ghost predicate ReleasedFrom(w: SkinWrap, e: EmissiveSkinWrap, target: WrapRef)
      reads w, e
    {
      w.draw && !e.alive && w.controlTarget == if w.hasControl then HandBack(target, w, e) else target
    }

    /** The store after `OnDestroy`'s first `i` wraps, from store `m0`. */
    ghost predicate ReturnedUpTo(i: int, m0: map<MatId, Material>)
      reads this, scene
    {
      && 0 <= i <= |wraps| && scene.Valid()
      && RowsIn(m0, wraps, ourMaterials) && scene.mats == ReturnRows(m0, wraps, ourMaterials, i)
    }

    /** The wraps after `OnDestroy`'s first `i` wraps, from control targets `t0`. */
    ghost predicate ReleasedUpTo(i: int, t0: map<SkinWrap, WrapRef>)
      reads this, wraps, added
    {
      && 0 <= i <= |wraps| && |added| == |wraps|
      && (forall a, b :: 0 <= a < b < |wraps| ==> wraps[a] != wraps[b])
      && (forall k :: 0 <= k < |wraps| ==> wraps[k] in t0)
      && (forall k :: 0 <= k < i ==> ReleasedFrom(wraps[k], added[k], t0[wraps[k]]))
      && (forall k :: i <= k < |wraps| ==> wraps[k].controlTarget == t0[wraps[k]])
    }

    /** The decal part of one pass of the loop of `OnDestroy`, over wrap `i`. */
    method ReturnStep(i: int, ghost m0: map<MatId, Material>, ghost t0: map<SkinWrap, WrapRef>)
      requires ReturnedUpTo(i, m0) && ReleasedUpTo(i, t0) && i < |wraps|
      modifies scene
      ensures ReturnedUpTo(i + 1, m0) && ReleasedUpTo(i, t0) && scene.rendererMats == old(scene.rendererMats)
    {
      assert RowIn(scene.mats, wraps[i].gpuMaterials, ourMaterials[i]);
      ReturnDecals(wraps[i].gpuMaterials, ourMaterials[i]);
    }

    /** The rest of one pass of the loop of `OnDestroy`, over wrap `i`. */
    method ReleaseStep(i: int, ghost m0: map<MatId, Material>, ghost t0: map<SkinWrap, WrapRef>)
      requires ReleasedUpTo(i, t0) && ReturnedUpTo(i + 1, m0) && i < |wraps|
      modifies wraps[i], added[i]
      ensures ReleasedUpTo(i + 1, t0) && ReturnedUpTo(i + 1, m0) && scene.rendererMats == old(scene.rendererMats)
    {
      Release(wraps[i], added[i]);
      forall k | 0 <= k < i
        ensures ReleasedFrom(wraps[k], added[k], t0[wraps[k]])
      {
        assert wraps[k] != wraps[i];
      }
    }

    /** The state after `OnDestroy`'s first `i` wraps. */
    ghost predicate DestroyedUpTo(i: int, m0: map<MatId, Material>, t0: map<SkinWrap, WrapRef>, r0: map<RendererId, seq<MatId>>)
      reads this, scene, wraps, added
    {
      ReturnedUpTo(i, m0) && ReleasedUpTo(i, t0) && scene.rendererMats == r0
    }

    /** One pass of the loop of `OnDestroy`, over wrap `i`. */
    method DestroyStep(i: int, ghost m0: map<MatId, Material>, ghost t0: map<SkinWrap, WrapRef>, ghost r0: map<RendererId, seq<MatId>>)
      requires DestroyedUpTo(i, m0, t0, r0) && i < |wraps|
      modifies scene, wraps[i], added[i]
      ensures DestroyedUpTo(i + 1, m0, t0, r0)
    {
      ReturnStep(i, m0, t0);
      ReleaseStep(i, m0, t0);
    }

    /**
     * `OnDestroy`: every wrap taken over gets the decals of its glow
     * slots back, its emissive wrap is destroyed, it draws again and a
     * control left on nothing or on the emissive wrap goes back to it.
     */
    method OnDestroy()
      requires Valid()
      modifies scene, wraps, added
      ensures scene.Valid() && scene.rendererMats == old(scene.rendererMats)
      ensures RowsIn(old(scene.mats), wraps, ourMaterials)
      ensures scene.mats == ReturnRows(old(scene.mats), wraps, ourMaterials, |wraps|)
      ensures forall k :: 0 <= k < |wraps| ==> var w := wraps[k]; ReleasedFrom(w, added[k], old(w.controlTarget))
      ensures forall w :: w in wraps ==> w.draw
    {
      ghost var t0: map<SkinWrap, WrapRef> := map w | w in wraps :: w.controlTarget;
      ghost var m0 := scene.mats;
      DestroyAll(m0, t0);
    }

    /**
     * `Rebuild`: everything taken over is given back, then `Build` runs
     * again over `all`, the wraps found once the old emissive wraps are
     * gone; the new rows are built from the store as the hand-back left it.
     */
    method Rebuild(all: seq<SkinWrap>)
      requires Valid()
      requires forall a, b :: 0 <= a < b < |all| ==> all[a] != all[b]
      requires forall w :: w in all ==> SlotsInRange(w)
      requires forall w, j :: w in all && 0 <= j < |w.gpuMaterials| ==> w.gpuMaterials[j] in scene.mats
      modifies this`ourMaterials, this`wraps, this`added, this`hiddenRows, scene, wraps, added, set w | w in all
      ensures Valid() && Rows() && scene.rendererMats == old(scene.rendererMats)
      ensures forall k :: 0 <= k < |old(added)| ==> !old(added)[k].alive
      ensures wraps == Filter(all, Tracked)
      ensures forall k :: 0 <= k < |wraps| ==>
        wraps[k] in all && Hooked(wraps[k], added[k], ourMaterials[k], hiddenRows[k])
      ensures forall w :: w in all && w !in wraps ==> w.draw == (w in old(wraps) || old(w.draw))
      ensures forall w :: w in all && w !in wraps && w !in old(wraps) ==> w.controlTarget == old(w.controlTarget)
      ensures StoreScanned(wraps, ReturnRows(old(scene.mats), old(wraps), old(ourMaterials), |old(wraps)|),
                           scene.mats, ourMaterials, hiddenRows, shader)
      ensures forall k, j :: 0 <= k < |ourMaterials| && 0 <= j < |ourMaterials[k]| && ourMaterials[k][j].Some? ==>
        Tinted(scene.mats[ourMaterials[k][j].value], color, alpha)
    {
      OnDestroy();
      Build(all);
    }

    /** The loop of `OnDestroy`. */
    method DestroyAll(ghost m0: map<MatId, Material>, ghost t0: map<SkinWrap, WrapRef>)
      requires ReturnedUpTo(0, m0) && ReleasedUpTo(0, t0)
      modifies scene, wraps, added
      ensures ReturnedUpTo(|wraps|, m0) && ReleasedUpTo(|wraps|, t0) && scene.rendererMats == old(scene.rendererMats)
    {
      var i := 0;
      while i < |wraps|
        invariant DestroyedUpTo(i, m0, t0, old(scene.rendererMats))
      {
        DestroyStep(i, m0, t0, old(scene.rendererMats));
        i := i + 1;
      }
    }
  }
}

=== FILE: seqs.dfy ===
/** Order-preserving filtering of sequences (the `foreach … if (…) continue;` and `Where` patterns of the plugins). */
module Seqs {

  /** The elements of `s` that `keep` accepts, in their original order. */
  function Filter<T>(s: seq<T>, keep: T -> bool): (r: seq<T>)
    ensures |r| <= |s|
    decreases |s|
  {
    if s == [] then [] else
      Filter(s[..|s| - 1], keep) + (if keep(s[|s| - 1]) then [s[|s| - 1]] else [])
  }

  /** The filter keeps exactly the accepted elements. */
  lemma {:induction false} FilterMembers<T>(s: seq<T>, keep: T -> bool)
    ensures forall k :: 0 <= k < |Filter(s, keep)| ==> Filter(s, keep)[k] in s && keep(Filter(s, keep)[k])
    ensures forall k :: 0 <= k < |s| && keep(s[k]) ==> s[k] in Filter(s, keep)
    decreases |s|
  {
    if s != [] {
      var init := s[..|s| - 1];
      FilterMembers(init, keep);
      forall k | 0 <= k < |s| && keep(s[k])
        ensures s[k] in Filter(s, keep)
      {
        if k < |s| - 1 {
          assert s[k] == init[k];
        }
      }
      forall k | 0 <= k < |Filter(s, keep)|
        ensures Filter(s, keep)[k] in s
      {
        if k < |Filter(init, keep)| {
          assert Filter(init, keep)[k] in init;
        }
      }
    }
  }

  /** Filtering one more element appends it when it is kept. */
  lemma FilterSnoc<T>(s: seq<T>, i: nat, keep: T -> bool)
    requires i < |s|
    ensures Filter(s[..i + 1], keep) == Filter(s[..i], keep) + (if keep(s[i]) then [s[i]] else [])
  {
    assert s[..i + 1][..i] == s[..i];
  }

  /** Filtering distributes over concatenation. */
  lemma {:induction false} FilterConcat<T>(a: seq<T>, b: seq<T>, keep: T -> bool)
    ensures Filter(a + b, keep) == Filter(a, keep) + Filter(b, keep)
    decreases |b|
  {
    if b == [] {
      assert a + b == a;
    } else {
      var ab := a + b;
      assert ab[..|ab| - 1] == a + b[..|b| - 1];
      FilterConcat(a, b[..|b| - 1], keep);
    }
  }

  /** A sequence none of whose elements is dropped filters to itself. */
  lemma {:induction false} FilterKeepsAll<T>(s: seq<T>, keep: T -> bool)
    requires forall k :: 0 <= k < |s| ==> keep(s[k])
    ensures Filter(s, keep) == s
    decreases |s|
  {
    if s != [] {
      FilterKeepsAll(s[..|s| - 1], keep);
      assert s[..|s| - 1] + [s[|s| - 1]] == s;
    }
  }

  /**
   * What a filter has produced from the first `i` elements is the start
   * of what it produces from all of them; when element `i` is kept it
   * comes next.
   */
  lemma FilterPrefix<T>(s: seq<T>, i: nat, keep: T -> bool)
    requires i <= |s|
    ensures |Filter(s[..i], keep)| <= |Filter(s, keep)|
    ensures Filter(s, keep)[..|Filter(s[..i], keep)|] == Filter(s[..i], keep)
    ensures i < |s| && keep(s[i]) ==>
      |Filter(s[..i], keep)| < |Filter(s, keep)| && Filter(s, keep)[|Filter(s[..i], keep)|] == s[i]
  {
    assert s == s[..i] + s[i..];
    FilterConcat(s[..i], s[i..], keep);
    if i < |s| {
      assert s[i..] == [s[i]] + s[i + 1..];
      FilterConcat([s[i]], s[i + 1..], keep);
      assert [s[i]][..0] == [];
    }
  }

  /** Filtering out the one dropped element between two kept stretches joins the stretches. */
  lemma FilterDropOne<T>(a: seq<T>, x: T, b: seq<T>, keep: T -> bool)
    requires forall k :: 0 <= k < |a| ==> keep(a[k])
    requires forall k :: 0 <= k < |b| ==> keep(b[k])
    requires !keep(x)
    ensures Filter(a + [x] + b, keep) == a + b
  {
    FilterConcat(a + [x], b, keep);
    FilterKeepsAll(a, keep);
    FilterKeepsAll(b, keep);
    assert (a + [x])[..|a|] == a;
    assert Filter(a + [x], keep) == a;
  }

  /** Two tests that agree on every element of `s` filter it alike. */
  lemma {:induction false} FilterAgree<T>(s: seq<T>, keep: T -> bool, keep': T -> bool)
    requires forall k :: 0 <= k < |s| ==> keep(s[k]) == keep'(s[k])
    ensures Filter(s, keep) == Filter(s, keep')
    decreases |s|
  {
    if s != [] {
      FilterAgree(s[..|s| - 1], keep, keep');
    }
  }

  /** Appending is associative. */
  lemma AppendAssoc<T>(a: seq<T>, b: seq<T>, c: seq<T>)
    ensures (a + b) + c == a + (b + c)
  {
  }
}

=== FILE: strings.dfy ===
/**
 * The few .NET string operations the plugins rely on, all compared
 * ordinally (char by char). .NET's `Contains`, `Split` and
 * `LastIndexOfAny` are ordinal; its one-argument `StartsWith` compares by
 * the current culture, which this model does not capture.
 */
module Strings {

  /** `s.StartsWith(prefix)`, compared ordinally. */
  predicate StartsWith(s: string, prefix: string) {
    |prefix| <= |s| && s[..|prefix|] == prefix
  }

  /** `s.Contains(part)`: `part` occurs somewhere in `s`. */
  predicate Contains(s: string, part: string)
    decreases |s|
  {
    StartsWith(s, part) || (|s| > 0 && Contains(s[1..], part))
  }

  /** `s.LastIndexOfAny(chars)`: the last position holding one of `chars`, or -1 when none does. */
  function LastIndexOfAny(s: string, chars: set<char>): (r: int)
    ensures -1 <= r < |s|
    ensures r >= 0 ==> s[r] in chars
    ensures forall k :: r < k < |s| ==> s[k] !in chars
    decreases |s|
  {
    if |s| == 0 then -1
    else if s[|s| - 1] in chars then |s| - 1
    else LastIndexOfAny(s[..|s| - 1], chars)
  }

  /** `s.Split(sep)[0]`: the text before the first `sep`, or all of `s` when there is none. */
  function FirstField(s: string, sep: char): (r: string)
    ensures StartsWith(s, r)
    ensures sep !in r
    ensures |r| < |s| ==> s[|r|] == sep
    decreases |s|
  {
    if |s| == 0 || s[0] == sep then [] else [s[0]] + FirstField(s[1..], sep)
  }

  /** `part` occurs in `s` at offset `k`. */
  predicate OccursAt(s: string, part: string, k: int) {
    0 <= k && k + |part| <= |s| && s[k..k + |part|] == part
  }

  /** Contains means an occurrence at some offset. */
  lemma {:induction false} ContainsIffOccurs(s: string, part: string)
    ensures Contains(s, part) <==> exists k :: OccursAt(s, part, k)
    decreases |s|
  {
    if Contains(s, part) {
      if StartsWith(s, part) {
        assert OccursAt(s, part, 0);
      } else {
        ContainsIffOccurs(s[1..], part);
        var k :| OccursAt(s[1..], part, k);
        assert s[k + 1..k + 1 + |part|] == s[1..][k..k + |part|];
        assert OccursAt(s, part, k + 1);
      }
    }
    if exists k :: OccursAt(s, part, k) {
      var k :| OccursAt(s, part, k);
      if k == 0 {
        assert StartsWith(s, part);
      } else {
        assert s[1..][k - 1..k - 1 + |part|] == s[k..k + |part|];
        assert OccursAt(s[1..], part, k - 1);
        ContainsIffOccurs(s[1..], part);
      }
    }
  }

  /** Two prefixes of the same string are prefixes of one another. */
  lemma PrefixesComparable(s: string, p: string, q: string)
    requires StartsWith(s, p) && StartsWith(s, q)
    ensures StartsWith(p, q) || StartsWith(q, p)
  {
    if |q| <= |p| {
      assert p[..|q|] == s[..|p|][..|q|] == s[..|q|];
    } else {
      assert q[..|p|] == s[..|q|][..|p|] == s[..|p|];
    }
  }

  /** A string that extends another keeps every prefix of it. */
  lemma StartsWithTrans(s: string, p: string, q: string)
    requires StartsWith(s, p) && StartsWith(p, q)
    ensures StartsWith(s, q)
  {
    assert s[..|q|] == s[..|p|][..|q|];
  }
}

=== FILE: unity.dfy ===
/**
 * The part of the host engine the plugins touch: materials and the
 * material slots of renderers.  Engine objects are opaque ids; a
 * material's mutable state is a value in the `Scene` store, so two
 * lists that hold the same id see the same material.
 */
module Unity {
  import opened Wrappers

  type MatId = nat
  type TexId = nat
  type BufId = nat
  type RendererId = nat

  datatype Color = Color(r: real, g: real, b: real, a: real)

  /** The value of one named shader property of a material. */
  datatype PropValue =
    | FloatVal(f: real)
    | ColorVal(c: Color)
    | TextureVal(tex: Option<TexId>)
    | BufferVal(buf: Option<BufId>)

  /** A material: its name, its shader, the shader keywords enabled on it and its properties. */
  datatype Material = Material(
    name: string,
    shader: string,
    keywords: set<string>,
    props: map<string, PropValue>,
    renderQueue: int)

  /** `mat.GetTexture(key)`: null when the material has no texture under that name. */
  function GetTexture(m: Material, key: string): Option<TexId> {
    if key in m.props && m.props[key].TextureVal? then m.props[key].tex else None
  }

  /** `mat.SetTexture(key, tex)`, `mat.SetFloat(key, f)`, `mat.SetColor(key, c)`, `mat.SetBuffer(key, b)`. */
  function WithProp(m: Material, key: string, v: PropValue): Material {
    m.(props := m.props[key := v])
  }

  /** Sets property `key` to `v` on every material of `ids`. */
  function SetAll(mats: map<MatId, Material>, ids: set<MatId>, key: string, v: PropValue): (r: map<MatId, Material>)
    ensures r.Keys == mats.Keys
    ensures forall id :: id in mats && id !in ids ==> r[id] == mats[id]
    ensures forall id :: id in mats && id in ids ==>
      r[id].props.Keys == mats[id].props.Keys + {key} && r[id].props[key] == v &&
      (forall k :: k in mats[id].props && k != key ==> r[id].props[k] == mats[id].props[k]) &&
      r[id].name == mats[id].name && r[id].shader == mats[id].shader &&
      r[id].keywords == mats[id].keywords && r[id].renderQueue == mats[id].renderQueue
  {
    map id | id in mats :: if id in ids then WithProp(mats[id], key, v) else mats[id]
  }

  /** Setting the property on one more material. */
  lemma SetAllInsert(mats: map<MatId, Material>, ids: set<MatId>, id: MatId, key: string, v: PropValue)
    requires id in mats
    ensures SetAll(mats, ids, key, v)[id := WithProp(SetAll(mats, ids, key, v)[id], key, v)] == SetAll(mats, ids + {id}, key, v)
  {
    var lhs := SetAll(mats, ids, key, v)[id := WithProp(SetAll(mats, ids, key, v)[id], key, v)];
    var rhs := SetAll(mats, ids + {id}, key, v);
    if id in ids {
      assert mats[id].props[key := v][key := v] == mats[id].props[key := v];
    }
    assert forall x :: x in mats ==> lhs[x] == rhs[x];
    assert lhs == rhs;
  }

  /** Setting the same value twice is setting it once, over the union of the two groups. */
  lemma SetAllUnion(mats: map<MatId, Material>, a: set<MatId>, b: set<MatId>, key: string, v: PropValue)
    ensures SetAll(SetAll(mats, a, key, v), b, key, v) == SetAll(mats, a + b, key, v)
  {
    var lhs := SetAll(SetAll(mats, a, key, v), b, key, v);
    var rhs := SetAll(mats, a + b, key, v);
    forall id | id in mats
      ensures lhs[id] == rhs[id]
    {
      if id in a && id in b {
        assert lhs[id].props == mats[id].props[key := v][key := v] == rhs[id].props;
      }
    }
    assert lhs == rhs;
  }

  /** The non-null materials of a list of material arrays, row by row (`rows.SelectMany(x => x).Where(x => x != null)`). */
  function Present(rows: seq<seq<Option<MatId>>>): (r: seq<MatId>)
    decreases |rows|
  {
    if rows == [] then [] else Present(rows[..|rows| - 1]) + Somes(rows[|rows| - 1])
  }

  /** The non-null entries of one row, in order. */
  function Somes(row: seq<Option<MatId>>): (r: seq<MatId>)
    ensures |r| <= |row|
    decreases |row|
  {
    if row == [] then []
    else Somes(row[..|row| - 1]) + (if row[|row| - 1].Some? then [row[|row| - 1].value] else [])
  }

  /** An id is among a row's non-null entries exactly when the row holds it. */
  lemma {:induction false} SomesIff(row: seq<Option<MatId>>, v: MatId)
    ensures v in Somes(row) <==> Some(v) in row
    decreases |row|
  {
    if row != [] {
      var init := row[..|row| - 1];
      SomesIff(init, v);
      assert row == init + [row[|row| - 1]];
    }
  }

  /** An id is flattened out of the rows exactly when some entry holds it. */
  lemma {:induction false} PresentIff(rows: seq<seq<Option<MatId>>>, v: MatId)
    ensures v in Present(rows) <==> exists i :: 0 <= i < |rows| && Some(v) in rows[i]
    decreases |rows|
  {
    if rows != [] {
      var init := rows[..|rows| - 1];
      PresentIff(init, v);
      SomesIff(rows[|rows| - 1], v);
      if v in Present(init) {
        var i :| 0 <= i < |init| && Some(v) in init[i];
        assert rows[i] == init[i];
      }
      if exists i :: 0 <= i < |rows| && Some(v) in rows[i] {
        var i :| 0 <= i < |rows| && Some(v) in rows[i];
        if i < |init| {
          assert Some(v) in init[i];
        }
      }
    }
  }

  /** The elements of a sequence. */
  function Elems(s: seq<MatId>): set<MatId> {
    set x | x in s
  }

  /** Setting the property on the next material of `ids` extends the set already handled by it. */
  lemma SetAllNext(mats: map<MatId, Material>, ids: seq<MatId>, k: nat, key: string, v: PropValue)
    requires k < |ids| && ids[k] in mats
    ensures SetAll(mats, Elems(ids[..k]), key, v)[ids[k] := WithProp(SetAll(mats, Elems(ids[..k]), key, v)[ids[k]], key, v)]
      == SetAll(mats, Elems(ids[..k + 1]), key, v)
  {
    SetAllInsert(mats, Elems(ids[..k]), ids[k], key, v);
    assert ids[..k + 1] == ids[..k] + [ids[k]];
    assert Elems(ids[..k + 1]) == Elems(ids[..k]) + {ids[k]};
  }

  /** The render queue of a new material: the shader's own. */
  const DefaultRenderQueue: int := -1

  class Scene {
    var mats: map<MatId, Material>
    var nextId: nat
    var rendererMats: map<RendererId, seq<MatId>>

    /** Every id handed out is below `nextId`; every renderer slot holds an existing material. */
    ghost predicate Valid()
      reads this
    {
      && (forall id :: id in mats ==> id < nextId)
      && (forall r, j :: r in rendererMats && 0 <= j < |rendererMats[r]| ==> rendererMats[r][j] in mats)
    }

    constructor ()
      ensures Valid() && mats == map[] && rendererMats == map[]
    {
      mats, nextId, rendererMats := map[], 0, map[];
    }

    /** `new Material(shader)`: a fresh material with no properties set. */
    method NewMaterial(shader: string) returns (id: MatId)
      requires Valid()
      modifies this
      ensures Valid()
      ensures id !in old(mats) && old(nextId) <= id < nextId
      ensures id in mats && mats == old(mats)[id := mats[id]]
      ensures mats[id] == Material("", shader, {}, map[], DefaultRenderQueue)
      ensures rendererMats == old(rendererMats)
    {
      id := nextId;
      mats := mats[id := Material("", shader, {}, map[], DefaultRenderQueue)];
      nextId := nextId + 1;
    }

    /** `new Material(src)`: a fresh copy of an existing material. */
    method CopyMaterial(src: MatId) returns (id: MatId)
      requires Valid() && src in mats
      modifies this
      ensures Valid()
      ensures id !in old(mats) && old(nextId) <= id < nextId
      ensures mats == old(mats)[id := old(mats)[src]]
      ensures rendererMats == old(rendererMats)
    {
      id := nextId;
      mats := mats[id := mats[src]];
      nextId := nextId + 1;
    }

    /** `mat.name = name`. */
    method SetName(id: MatId, name: string)
      requires Valid() && id in mats
      modifies this
      ensures Valid()
      ensures mats == old(mats)[id := old(mats)[id].(name := name)]
      ensures nextId == old(nextId) && rendererMats == old(rendererMats)
    {
      mats := mats[id := mats[id].(name := name)];
    }

    /** `mat.SetTexture`, `SetFloat`, `SetColor` or `SetBuffer` under `key`. */
    method SetProperty(id: MatId, key: string, v: PropValue)
      requires Valid() && id in mats
      modifies this
      ensures Valid()
      ensures mats == old(mats)[id := WithProp(old(mats)[id], key, v)]
      ensures nextId == old(nextId) && rendererMats == old(rendererMats)
    {
      mats := mats[id := WithProp(mats[id], key, v)];
    }

    /** `mat.renderQueue = q`. */
    method SetRenderQueue(id: MatId, q: int)
      requires Valid() && id in mats
      modifies this
      ensures Valid()
      ensures mats == old(mats)[id := old(mats)[id].(renderQueue := q)]
      ensures nextId == old(nextId) && rendererMats == old(rendererMats)
    {
      mats := mats[id := mats[id].(renderQueue := q)];
    }

    /** `renderer.materials = ms`. */
    method SetRendererMaterials(r: RendererId, ms: seq<MatId>)
      requires Valid() && forall j :: 0 <= j < |ms| ==> ms[j] in mats
      modifies this
      ensures Valid()
      ensures rendererMats == old(rendererMats)[r := ms]
      ensures mats == old(mats) && nextId == old(nextId)
    {
      rendererMats := rendererMats[r := ms];
    }
  }
}

=== FILE: unity_asset_vamifier.dfy ===
/**
 * Material substitution of the UnityAssetVamifier plugin.
 *
 * The plugin looks at the renderers of an imported asset, and for every
 * material that uses one of Unity's standard shaders (without
 * premultiplied alpha) creates a replacement material on the host's own
 * shader, copies the textures over and puts the replacement in the
 * renderer's slot.  Three parallel lists remember, per renderer, the
 * original materials and the replacements (null where a material was
 * not supported).  Nine UI settings are then pushed to every replacement;
 * the tenth, the IBL filter, only by its own handler.
 */
module UnityAssetVamifier {
  import opened Wrappers
  import opened Unity
  import opened Seqs

  /** `UNITY_SHADER_NAMES`: the shaders whose materials are replaced. */
  const UnityShaderNames: seq<string> := ["Standard", "Standard (Specular setup)", "Standard (Roughness setup)"]

  /** `INVALID_SHADER_KEYWORDS`: a material with any of these enabled is left alone. */
  const InvalidShaderKeywords: seq<string> := ["_ALPHAPREMULTIPLY_ON"]

  /** `VAM_SHADER_NAME`: the shader of every replacement material. */
  const VamShaderName: string := "Custom/Subsurface/GlossNMCull"

  /** The suffix appended to a replacement's name. */
  const VamSuffix: string := "vamified"

  /** A material the plugin can replace: standard shader, no invalid keyword enabled. */
  predicate Supported(m: Material) {
    m.shader in UnityShaderNames && forall k :: k in InvalidShaderKeywords ==> k !in m.keywords
  }

  /**
   * `IsValidMaterial`: the shader test, then one pass over the invalid
   * keywords, answering as soon as one is enabled.
   */
  method IsValidMaterial(mat: Material) returns (valid: bool)
    ensures valid <==> Supported(mat)
  {
    if mat.shader !in UnityShaderNames {
      return false;
    }
    var k := 0;
    while k < |InvalidShaderKeywords|
      invariant 0 <= k <= |InvalidShaderKeywords|
      invariant forall n :: 0 <= n < k ==> InvalidShaderKeywords[n] !in mat.keywords
    {
      if InvalidShaderKeywords[k] in mat.keywords {
        return false;
      }
      k := k + 1;
    }
    return true;
  }

  // ---------------------------------------------------------------------
  // Settings

  /** The ten material settings the plugin exposes. */
  datatype Property =
    | DiffColor | SpecColor | SpecIntensity | SpecSharpness | SpecFresnel
    | DiffOffset | SpecOffset | GlossOffset | IBLFilter | SubdermisColor

  /** The shader property each setting's handler writes. */
  function ShaderKey(p: Property): string {
    match p
    case DiffColor => "_Color"
    case SpecColor => "_SpecColor"
    case SpecIntensity => "_SpecInt"
    case SpecSharpness => "_Shininess"
    case SpecFresnel => "_Fresnel"
    case DiffOffset => "_DiffOffset"
    case SpecOffset => "_SpecOffset"
    case GlossOffset => "_GlossOffset"
    case IBLFilter => "_IBLFilter"
    case SubdermisColor => "_SubdermisColor"
  }

  /** The settings edited with a color picker; the others are sliders. */
  predicate IsColor(p: Property) {
    p == DiffColor || p == SpecColor || p == SubdermisColor
  }

  /** A value of the right kind for the setting. */
  predicate Fits(p: Property, v: PropValue) {
    if IsColor(p) then v.ColorVal? else v.FloatVal?
  }

  /** The value each setting starts with. */
  function Default(p: Property): (v: PropValue)
    ensures Fits(p, v)
  {
    match p
    case DiffColor => ColorVal(Color(1.0, 1.0, 1.0, 1.0))
    case SpecColor => ColorVal(Color(1.0, 1.0, 1.0, 1.0))
    case SpecIntensity => FloatVal(0.5)
    case SpecSharpness => FloatVal(6.0)
    case SpecFresnel => FloatVal(0.0)
    case DiffOffset => FloatVal(0.0)
    case SpecOffset => FloatVal(0.0)
    case GlossOffset => FloatVal(0.8)
    case IBLFilter => FloatVal(0.0)
    case SubdermisColor => ColorVal(Color(1.0, 1.0, 1.0, 1.0))
  }

  /** The settings pushed once after conversion, in order (the IBL filter is not among them). */
  const InitiallyApplied: seq<Property> :=
    [DiffColor, SpecColor, SpecIntensity, SpecSharpness, SpecFresnel, DiffOffset, SpecOffset, GlossOffset, SubdermisColor]

  /** The texture slots copied from an original: (replacement key, original key). */
  const TextureCopies: seq<(string, string)> :=
    [("_MainTex", "_MainTex"), ("_BumpMap", "_BumpMap"), ("_SpecTex", "_SpecGlossMap"), ("_GlossTex", "_MetallicGlossMap")]

  /** Each setting writes its own shader property, and none of them is a copied texture. */
  lemma ShaderKeysSeparate(p: Property, q: Property)
    ensures ShaderKey(p) == ShaderKey(q) <==> p == q
    ensures forall c :: c in TextureCopies ==> ShaderKey(p) != c.0
  {
  }

  // ---------------------------------------------------------------------
  // Replacement materials

  /** A replacement straight from `new Material(vamPropShader)`. */
  const BlankVam: Material := Material("", VamShaderName, {}, map[], DefaultRenderQueue)

  /** The replacement `m` after the substitution loop copied name and textures from `orig`. */
  function Vamify(m: Material, orig: Material): Material {
    m.(name := orig.name + VamSuffix,
       props := m.props["_MainTex" := TextureVal(GetTexture(orig, "_MainTex"))]
                       ["_BumpMap" := TextureVal(GetTexture(orig, "_BumpMap"))]
                       ["_SpecTex" := TextureVal(GetTexture(orig, "_SpecGlossMap"))]
                       ["_GlossTex" := TextureVal(GetTexture(orig, "_MetallicGlossMap"))])
  }

  /** `m` is a replacement for `orig`: the suffixed name, the host shader, the textures of the original. */
  ghost predicate IsVamified(m: Material, orig: Material) {
    && m.name == orig.name + VamSuffix
    && m.shader == VamShaderName
    && forall c :: c in TextureCopies ==> GetTexture(m, c.0) == GetTexture(orig, c.1)
  }

  lemma VamifyIsVamified(m: Material, orig: Material)
    requires m.shader == VamShaderName
    ensures IsVamified(Vamify(m, orig), orig)
  {
  }

  /** Setting a shader property through a handler keeps a replacement a replacement. */
  lemma SettingKeepsVamified(m: Material, m': Material, orig: Material, p: Property, v: PropValue)
    requires IsVamified(m, orig)
    requires m'.name == m.name && m'.shader == m.shader
    requires m'.props.Keys == m.props.Keys + {ShaderKey(p)} && m'.props[ShaderKey(p)] == v
    requires forall k :: k in m.props && k != ShaderKey(p) ==> m'.props[k] == m.props[k]
    ensures IsVamified(m', orig)
  {
    ShaderKeysSeparate(p, p);
    forall c | c in TextureCopies
      ensures GetTexture(m', c.0) == GetTexture(m, c.0)
    {
    }
  }

  /** Writing the same material twice: the second write is all that remains. */
  lemma Restamp(mats: map<MatId, Material>, v: MatId, first: Material, second: Material)
    ensures mats[v := first][v := second] == mats[v := second]
  {
  }

  /** The test `ConvertMaterial` puts to every original material: the ones it cannot replace. */
  function Rejects(mats: map<MatId, Material>): MatId -> bool {
    (id: MatId) => id !in mats || !Supported(mats[id])
  }

  /** `invalidMaterials`: the unsupported materials of the renderers, renderer by renderer. */
  function Skipped(mats: map<MatId, Material>, rmats: map<RendererId, seq<MatId>>, rs: seq<RendererId>): seq<MatId>
    decreases |rs|
  {
    if rs == [] then []
    else
      var r := rs[|rs| - 1];
      Skipped(mats, rmats, rs[..|rs| - 1]) + (if r in rmats then Filter(rmats[r], Rejects(mats)) else [])
  }

  /** The test that keeps a renderer in the plugin's lists: it has at least one material slot. */
  function HasSlots(rmats: map<RendererId, seq<MatId>>): RendererId -> bool {
    (r: RendererId) => r in rmats && |rmats[r]| > 0
  }

  /** Where a replacement sits: row (renderer) and column (material slot). */
  datatype Slot = Slot(row: int, col: int)

  /**
   * Slot `j` of row `i`: the original `o`, its replacement `s` (null for
   * an unsupported original) and the renderer's current materials `rmats`.
   * Before the substitution loop reaches the row the replacement is blank
   * and the renderer still shows the original; after, the replacement
   * carries the original's name and textures and sits in the slot.
   */
  ghost predicate SlotHolds(mats: map<MatId, Material>, rmats: seq<MatId>, o: MatId, s: Option<MatId>,
                            slotOf: map<MatId, Slot>, i: int, j: int, done: bool)
  {
    && o in mats && o !in slotOf && 0 <= j < |rmats|
    && (s.Some? <==> Supported(mats[o]))
    && (s.None? ==> rmats[j] == o)
    && (s.Some? ==>
          && s.value in slotOf && slotOf[s.value] == Slot(i, j) && s.value in mats
          && (done ==> IsVamified(mats[s.value], mats[o]) && rmats[j] == s.value)
          && (!done ==> mats[s.value] == BlankVam && rmats[j] == o))
  }

  /**
   * The row being built for one renderer: a blank replacement recorded at
   * its slot for each supported original, null for the others.
   */
  ghost predicate RowPending(mats0: map<MatId, Material>, mats: map<MatId, Material>, slotOf: map<MatId, Slot>,
                             row: int, origMats: seq<MatId>, vamMats: seq<Option<MatId>>)
  {
    && |vamMats| <= |origMats|
    && forall j :: 0 <= j < |vamMats| ==>
         && origMats[j] in mats0
         && (vamMats[j].Some? <==> Supported(mats0[origMats[j]]))
         && (vamMats[j].Some? ==>
               && vamMats[j].value in slotOf && slotOf[vamMats[j].value] == Slot(row, j)
               && vamMats[j].value !in mats0 && vamMats[j].value in mats && mats[vamMats[j].value] == BlankVam)
  }

  lemma RowPendingSnoc(mats0: map<MatId, Material>, mats: map<MatId, Material>, mats': map<MatId, Material>,
                       slotOf: map<MatId, Slot>, slotOf': map<MatId, Slot>,
                       row: int, origMats: seq<MatId>, vamMats: seq<Option<MatId>>, slot: Option<MatId>)
    requires RowPending(mats0, mats, slotOf, row, origMats, vamMats)
    requires |vamMats| < |origMats| && origMats[|vamMats|] in mats0
    requires slot.Some? <==> Supported(mats0[origMats[|vamMats|]])
    requires slot.None? ==> mats' == mats && slotOf' == slotOf
    requires slot.Some? ==>
      && slot.value !in mats && slot.value !in mats0
      && mats' == mats[slot.value := BlankVam] && slotOf' == slotOf[slot.value := Slot(row, |vamMats|)]
    ensures RowPending(mats0, mats', slotOf', row, origMats, vamMats + [slot])
  {
    var vamMats' := vamMats + [slot];
    forall j | 0 <= j < |vamMats'|
      ensures vamMats'[j].Some? ==>
        && vamMats'[j].value in slotOf' && slotOf'[vamMats'[j].value] == Slot(row, j)
        && vamMats'[j].value in mats' && mats'[vamMats'[j].value] == BlankVam
    {
      if j < |vamMats| {
        assert vamMats'[j] == vamMats[j];
      }
    }
  }

  /** Every replacement recorded since `slots0` sits, at the slot it records, in the row being built. */
  ghost predicate NewSlots(mats0: map<MatId, Material>, slots0: map<MatId, Slot>, slots: map<MatId, Slot>, row: int,
                           vamMats: seq<Option<MatId>>)
  {
    forall v :: v in slots && v !in slots0 ==>
      v !in mats0 && slots[v].row == row && 0 <= slots[v].col < |vamMats| && vamMats[slots[v].col] == Some(v)
  }

  lemma NewSlotsSnoc(mats0: map<MatId, Material>, slots0: map<MatId, Slot>, slots: map<MatId, Slot>, slots': map<MatId, Slot>,
                     row: int, vamMats: seq<Option<MatId>>, slot: Option<MatId>)
    requires NewSlots(mats0, slots0, slots, row, vamMats)
    requires slot.None? ==> slots' == slots
    requires slot.Some? ==> slot.value !in mats0
    requires slot.Some? ==> slots' == slots[slot.value := Slot(row, |vamMats|)]
    ensures NewSlots(mats0, slots0, slots', row, vamMats + [slot])
  {
    forall v | v in slots' && v !in slots0
      ensures v !in mats0 && slots'[v].row == row && 0 <= slots'[v].col < |vamMats| + 1 && (vamMats + [slot])[slots'[v].col] == Some(v)
    {
      if slot.None? || v != slot.value {
        assert v in slots;
      }
    }
  }

  /** A slot does not depend on the materials of other slots' replacements. */
  lemma SlotFrame(mats: map<MatId, Material>, rmats: seq<MatId>, o: MatId, s: Option<MatId>,
                  slotOf: map<MatId, Slot>, i: int, j: int, done: bool, v: MatId, m: Material)
    requires v in mats && v in slotOf && slotOf[v] != Slot(i, j)
    requires SlotHolds(mats, rmats, o, s, slotOf, i, j, done)
    ensures SlotHolds(mats[v := m], rmats, o, s, slotOf, i, j, done)
  {
  }

  /** A replacement the substitution loop has finished keeps being one when a setting is pushed to all of them. */
  lemma SlotAfterSetting(mats: map<MatId, Material>, rmats: seq<MatId>, o: MatId, s: Option<MatId>,
                         slotOf: map<MatId, Slot>, i: int, j: int, ids: set<MatId>, p: Property, v: PropValue)
    requires forall x :: x in ids ==> x in slotOf
    requires SlotHolds(mats, rmats, o, s, slotOf, i, j, true)
    ensures SlotHolds(SetAll(mats, ids, ShaderKey(p), v), rmats, o, s, slotOf, i, j, true)
  {
    var mats' := SetAll(mats, ids, ShaderKey(p), v);
    if s.Some? && s.value in ids {
      SettingKeepsVamified(mats[s.value], mats'[s.value], mats[o], p, v);
    }
  }

  /**
   * The three parallel lists against the scene: the lists have one row per
   * renderer, rows are non-empty, renderers are distinct and still have as
   * many slots as their row, every slot holds as `SlotHolds` says (rows
   * before `upto` substituted), and `slotOf` records only slots that exist.
   */
  ghost predicate Table(mats: map<MatId, Material>, rmap: map<RendererId, seq<MatId>>, rs: seq<RendererId>,
                        orig: seq<seq<MatId>>, vam: seq<seq<Option<MatId>>>, slotOf: map<MatId, Slot>, upto: int)
  {
    && |rs| == |orig| == |vam|
    && (forall i :: 0 <= i < |rs| ==> 0 < |vam[i]| == |orig[i]|)
    && (forall i, i' :: 0 <= i < i' < |rs| ==> rs[i] != rs[i'])
    && (forall i :: 0 <= i < |rs| ==> rs[i] in rmap && |rmap[rs[i]]| == |orig[i]|)
    && (forall v :: v in slotOf ==>
          0 <= slotOf[v].row < |vam| && 0 <= slotOf[v].col < |vam[slotOf[v].row]| &&
          vam[slotOf[v].row][slotOf[v].col] == Some(v))
    && (forall i, j :: 0 <= i < |rs| && 0 <= j < |orig[i]| ==>
          rs[i] in rmap && SlotHolds(mats, rmap[rs[i]], orig[i][j], vam[i][j], slotOf, i, j, i < upto))
  }

  /** A table without renderers has no rows and records no replacement. */
  lemma NoRows(mats: map<MatId, Material>, rmap: map<RendererId, seq<MatId>>, orig: seq<seq<MatId>>,
               vam: seq<seq<Option<MatId>>>, slotOf: map<MatId, Slot>, upto: int)
    requires Table(mats, rmap, [], orig, vam, slotOf, upto)
    ensures orig == [] && vam == [] && slotOf == map[]
  {
    if v :| v in slotOf {
      assert false;
    }
  }

  /**
   * The first loop appending the row of one more renderer `r` whose
   * replacements were just created: the table stays a table with every
   * row pending.
   */
  lemma TableAddRow(mats0: map<MatId, Material>, mats: map<MatId, Material>, rmap: map<RendererId, seq<MatId>>,
                    rs: seq<RendererId>, orig: seq<seq<MatId>>, vam: seq<seq<Option<MatId>>>,
                    slotOf: map<MatId, Slot>, slotOf': map<MatId, Slot>,
                    r: RendererId, origMats: seq<MatId>, vamMats: seq<Option<MatId>>)
    requires Table(mats0, rmap, rs, orig, vam, slotOf, 0)
    requires r in rmap && rmap[r] == origMats && 0 < |vamMats| == |origMats| && r !in rs
    requires forall j :: 0 <= j < |origMats| ==> origMats[j] !in slotOf
    requires forall id :: id in mats0 ==> id in mats && mats[id] == mats0[id]
    requires forall v :: v in slotOf ==> v in slotOf' && slotOf'[v] == slotOf[v]
    requires NewSlots(mats0, slotOf, slotOf', |rs|, vamMats)
    requires RowPending(mats0, mats, slotOf', |rs|, origMats, vamMats)
    ensures Table(mats, rmap, rs + [r], orig + [origMats], vam + [vamMats], slotOf', 0)
  {
    var rs', orig', vam' := rs + [r], orig + [origMats], vam + [vamMats];
    forall v | v in slotOf'
      ensures 0 <= slotOf'[v].row < |vam'| && 0 <= slotOf'[v].col < |vam'[slotOf'[v].row]|
      ensures vam'[slotOf'[v].row][slotOf'[v].col] == Some(v)
    {
    }
    forall i, j | 0 <= i < |rs'| && 0 <= j < |orig'[i]|
      ensures SlotHolds(mats, rmap[rs'[i]], orig'[i][j], vam'[i][j], slotOf', i, j, false)
    {
      if i < |rs| {
        assert SlotHolds(mats0, rmap[rs[i]], orig[i][j], vam[i][j], slotOf, i, j, false);
      }
    }
    forall i, i' | 0 <= i < i' < |rs'|
      ensures rs'[i] != rs'[i']
    {
      if i' < |rs| {
        assert rs[i] != rs[i'];
      } else {
        assert rs'[i] == rs[i];
      }
    }
  }

  /** The table survives new materials and no new replacement. */
  lemma TableKeep(mats0: map<MatId, Material>, mats: map<MatId, Material>, rmap: map<RendererId, seq<MatId>>,
                  rs: seq<RendererId>, orig: seq<seq<MatId>>, vam: seq<seq<Option<MatId>>>,
                  slotOf: map<MatId, Slot>, slotOf': map<MatId, Slot>)
    requires Table(mats0, rmap, rs, orig, vam, slotOf, 0)
    requires forall id :: id in mats0 ==> id in mats && mats[id] == mats0[id]
    requires forall v :: v in slotOf ==> v in slotOf' && slotOf'[v] == slotOf[v]
    requires forall v :: v in slotOf' ==> v in slotOf
    ensures Table(mats, rmap, rs, orig, vam, slotOf', 0)
  {
    assert slotOf' == slotOf;
    forall i, j | 0 <= i < |rs| && 0 <= j < |orig[i]|
      ensures SlotHolds(mats, rmap[rs[i]], orig[i][j], vam[i][j], slotOf', i, j, false)
    {
      assert SlotHolds(mats0, rmap[rs[i]], orig[i][j], vam[i][j], slotOf, i, j, false);
    }
  }

  /** One more renderer adds its rejected materials to the skip list. */
  lemma SkippedSnoc(mats: map<MatId, Material>, rmats: map<RendererId, seq<MatId>>, rs: seq<RendererId>, k: nat)
    requires k < |rs|
    ensures Skipped(mats, rmats, rs[..k + 1]) ==
      Skipped(mats, rmats, rs[..k]) + (if rs[k] in rmats then Filter(rmats[rs[k]], Rejects(mats)) else [])
  {
    assert rs[..k + 1][..k] == rs[..k];
  }

  /** Row `i` against the renderer's current materials `rmats`, its first `upto` slots substituted. */
  ghost predicate RowHolds(mats: map<MatId, Material>, rmats: seq<MatId>, origRow: seq<MatId>, vamRow: seq<Option<MatId>>,
                           slotOf: map<MatId, Slot>, i: int, upto: int)
  {
    && |origRow| == |vamRow| == |rmats|
    && forall j :: 0 <= j < |origRow| ==> SlotHolds(mats, rmats, origRow[j], vamRow[j], slotOf, i, j, j < upto)
  }

  /** The second loop reaching row `i`: every slot of it is pending. */
  lemma TableRowStart(mats: map<MatId, Material>, rmap: map<RendererId, seq<MatId>>, rs: seq<RendererId>,
                      orig: seq<seq<MatId>>, vam: seq<seq<Option<MatId>>>, slotOf: map<MatId, Slot>, i: int)
    requires Table(mats, rmap, rs, orig, vam, slotOf, i) && 0 <= i < |rs|
    ensures rs[i] in rmap && RowHolds(mats, rmap[rs[i]], orig[i], vam[i], slotOf, i, 0)
  {
    forall j | 0 <= j < |orig[i]|
      ensures SlotHolds(mats, rmap[rs[i]], orig[i][j], vam[i][j], slotOf, i, j, false)
    {
      assert SlotHolds(mats, rmap[rs[i]], orig[i][j], vam[i][j], slotOf, i, j, i < i);
    }
  }

  /** The inner loop's step on a supported slot: rename and retexture the replacement, put it in the slot. */
  lemma RowStep(mats: map<MatId, Material>, materials: seq<MatId>, origRow: seq<MatId>, vamRow: seq<Option<MatId>>,
                slotOf: map<MatId, Slot>, i: int, j: int)
    requires RowHolds(mats, materials, origRow, vamRow, slotOf, i, j) && 0 <= j < |origRow| && vamRow[j].Some?
    ensures RowHolds(mats[vamRow[j].value := Vamify(mats[vamRow[j].value], mats[origRow[j]])],
                     materials[j := vamRow[j].value], origRow, vamRow, slotOf, i, j + 1)
  {
    var v, o := vamRow[j].value, origRow[j];
    var m := Vamify(mats[v], mats[o]);
    var mats', materials' := mats[v := m], materials[j := v];
    assert SlotHolds(mats, materials, o, vamRow[j], slotOf, i, j, false);
    VamifyIsVamified(mats[v], mats[o]);
    forall j' | 0 <= j' < |origRow|
      ensures SlotHolds(mats', materials', origRow[j'], vamRow[j'], slotOf, i, j', j' < j + 1)
    {
      if j' != j {
        assert SlotHolds(mats, materials, origRow[j'], vamRow[j'], slotOf, i, j', j' < j);
        SlotFrame(mats, materials, origRow[j'], vamRow[j'], slotOf, i, j', j' < j, v, m);
      }
    }
  }

  /** The inner loop's step on an unsupported slot: nothing to do. */
  lemma RowSkip(mats: map<MatId, Material>, materials: seq<MatId>, origRow: seq<MatId>, vamRow: seq<Option<MatId>>,
                slotOf: map<MatId, Slot>, i: int, j: int)
    requires RowHolds(mats, materials, origRow, vamRow, slotOf, i, j) && 0 <= j < |origRow| && vamRow[j].None?
    ensures RowHolds(mats, materials, origRow, vamRow, slotOf, i, j + 1)
  {
    forall j' | 0 <= j' < |origRow|
      ensures SlotHolds(mats, materials, origRow[j'], vamRow[j'], slotOf, i, j', j' < j + 1)
    {
      assert SlotHolds(mats, materials, origRow[j'], vamRow[j'], slotOf, i, j', j' < j);
    }
  }

  /** The materials a row shows are all in the store. */
  lemma RowInStore(mats: map<MatId, Material>, rmats: seq<MatId>, origRow: seq<MatId>, vamRow: seq<Option<MatId>>,
                   slotOf: map<MatId, Slot>, i: int, upto: int)
    requires RowHolds(mats, rmats, origRow, vamRow, slotOf, i, upto)
    ensures forall j :: 0 <= j < |rmats| ==> rmats[j] in mats
  {
    forall j | 0 <= j < |rmats|
      ensures rmats[j] in mats
    {
      assert SlotHolds(mats, rmats, origRow[j], vamRow[j], slotOf, i, j, j < upto);
    }
  }

  /**
   * The second loop leaving row `i` with every slot substituted and the
   * renderer showing `materials`: the table has one more row done.  Only
   * row `i`'s replacements changed.
   */
  lemma TableRowEnd(mats0: map<MatId, Material>, mats: map<MatId, Material>, rmap: map<RendererId, seq<MatId>>,
                    rs: seq<RendererId>, orig: seq<seq<MatId>>, vam: seq<seq<Option<MatId>>>,
                    slotOf: map<MatId, Slot>, i: int, materials: seq<MatId>)
    requires Table(mats0, rmap, rs, orig, vam, slotOf, i) && 0 <= i < |rs|
    requires mats.Keys == mats0.Keys
    requires forall id :: id in mats0 && (id !in slotOf || slotOf[id].row != i) ==> mats[id] == mats0[id]
    requires RowHolds(mats, materials, orig[i], vam[i], slotOf, i, |orig[i]|)
    ensures Table(mats, rmap[rs[i] := materials], rs, orig, vam, slotOf, i + 1)
  {
    var rmap' := rmap[rs[i] := materials];
    forall i', j | 0 <= i' < |rs| && 0 <= j < |orig[i']|
      ensures rs[i'] in rmap' && SlotHolds(mats, rmap'[rs[i']], orig[i'][j], vam[i'][j], slotOf, i', j, i' < i + 1)
    {
      if i' == i {
        assert SlotHolds(mats, materials, orig[i][j], vam[i][j], slotOf, i, j, j < |orig[i]|);
      } else {
        assert rs[i'] != rs[i] by {
          if i' < i { assert rs[i'] != rs[i]; } else { assert rs[i] != rs[i']; }
        }
        assert SlotHolds(mats0, rmap[rs[i']], orig[i'][j], vam[i'][j], slotOf, i', j, i' < i);
      }
    }
  }

  /** Pushing a setting to replacements keeps a fully substituted table. */
  lemma TableAfterSetting(mats: map<MatId, Material>, rmap: map<RendererId, seq<MatId>>, rs: seq<RendererId>,
                          orig: seq<seq<MatId>>, vam: seq<seq<Option<MatId>>>, slotOf: map<MatId, Slot>,
                          ids: set<MatId>, p: Property, v: PropValue)
    requires Table(mats, rmap, rs, orig, vam, slotOf, |rs|)
    requires forall x :: x in ids ==> x in slotOf
    ensures Table(SetAll(mats, ids, ShaderKey(p), v), rmap, rs, orig, vam, slotOf, |rs|)
  {
    forall i, j | 0 <= i < |rs| && 0 <= j < |orig[i]|
      ensures SlotHolds(SetAll(mats, ids, ShaderKey(p), v), rmap[rs[i]], orig[i][j], vam[i][j], slotOf, i, j, i < |rs|)
    {
      SlotAfterSetting(mats, rmap[rs[i]], orig[i][j], vam[i][j], slotOf, i, j, ids, p, v);
    }
  }

  /** The table survives any run of pushes to recorded replacements. */
  lemma {:induction false} TableAfterSettings(mats: map<MatId, Material>, rmap: map<RendererId, seq<MatId>>,
                                              rs: seq<RendererId>, orig: seq<seq<MatId>>, vam: seq<seq<Option<MatId>>>,
                                              slotOf: map<MatId, Slot>, ids: set<MatId>, ps: seq<Property>,
                                              values: map<Property, PropValue>)
    requires forall p :: p in values
    requires Table(mats, rmap, rs, orig, vam, slotOf, |rs|)
    requires forall x :: x in ids ==> x in slotOf
    ensures Table(Settings(mats, ids, ps, values), rmap, rs, orig, vam, slotOf, |rs|)
    decreases |ps|
  {
    if ps != [] {
      var p := ps[|ps| - 1];
      TableAfterSettings(mats, rmap, rs, orig, vam, slotOf, ids, ps[..|ps| - 1], values);
      TableAfterSetting(Settings(mats, ids, ps[..|ps| - 1], values), rmap, rs, orig, vam, slotOf, ids, p, values[p]);
    }
  }

  /** The store after pushing the settings `ps`, in order, to the materials `ids`. */
  function Settings(mats: map<MatId, Material>, ids: set<MatId>, ps: seq<Property>, values: map<Property, PropValue>)
    : (r: map<MatId, Material>)
    requires forall p :: p in values
    decreases |ps|
  {
    if ps == [] then mats
    else
      var p := ps[|ps| - 1];
      SetAll(Settings(mats, ids, ps[..|ps| - 1], values), ids, ShaderKey(p), values[p])
  }

  /** An element of `ps` other than its last is in its front. */
  lemma InFront(ps: seq<Property>, q: Property)
    requires q in ps && q != ps[|ps| - 1]
    ensures q in ps[..|ps| - 1]
  {
    var i :| 0 <= i < |ps| && ps[i] == q;
    assert ps[..|ps| - 1][i] == q;
  }

  /** After the settings are pushed, every material of `ids` holds each pushed setting's value. */
  lemma {:induction false} SettingsSet(mats: map<MatId, Material>, ids: set<MatId>, ps: seq<Property>,
                                       values: map<Property, PropValue>, x: MatId, q: Property)
    requires forall p :: p in values
    requires x in mats && x in ids && q in ps
    ensures x in Settings(mats, ids, ps, values)
    ensures ShaderKey(q) in Settings(mats, ids, ps, values)[x].props
    ensures Settings(mats, ids, ps, values)[x].props[ShaderKey(q)] == values[q]
    decreases |ps|
  {
    var init, p := ps[..|ps| - 1], ps[|ps| - 1];
    var before := Settings(mats, ids, init, values);
    SettingsKeys(mats, ids, init, values);
    if q != p {
      InFront(ps, q);
      SettingsSet(mats, ids, init, values, x, q);
      ShaderKeysSeparate(p, q);
    }
  }

  /** Pushing one more setting of `ps` sets its property on every material of `ids`. */
  lemma SettingsNext(mats: map<MatId, Material>, ids: set<MatId>, ps: seq<Property>, k: nat,
                     values: map<Property, PropValue>)
    requires forall p :: p in values
    requires k < |ps|
    ensures Settings(mats, ids, ps[..k + 1], values) ==
      SetAll(Settings(mats, ids, ps[..k], values), ids, ShaderKey(ps[k]), values[ps[k]])
  {
    assert ps[..k + 1][..k] == ps[..k];
  }

  /** Material `m` carries, for each setting of `ps`, that setting's value in its shader property. */
  ghost predicate Holds(m: Material, ps: seq<Property>, values: map<Property, PropValue>)
    requires forall p :: p in values
  {
    forall q :: q in ps ==> ShaderKey(q) in m.props && m.props[ShaderKey(q)] == values[q]
  }

  /** After a push every material of `ids` holds each pushed setting, and no other material changed. */
  lemma SettingsHold(mats: map<MatId, Material>, ids: seq<MatId>, ps: seq<Property>, values: map<Property, PropValue>)
    requires forall p :: p in values
    requires forall x :: x in ids ==> x in mats
    ensures forall x :: x in ids ==>
      x in Settings(mats, Elems(ids), ps, values) && Holds(Settings(mats, Elems(ids), ps, values)[x], ps, values)
    ensures forall id :: id in mats && id !in ids ==>
      id in Settings(mats, Elems(ids), ps, values) && Settings(mats, Elems(ids), ps, values)[id] == mats[id]
  {
    forall x | x in ids
      ensures x in Settings(mats, Elems(ids), ps, values) && Holds(Settings(mats, Elems(ids), ps, values)[x], ps, values)
    {
      SettingsKeys(mats, Elems(ids), ps, values);
      forall q | q in ps
        ensures ShaderKey(q) in Settings(mats, Elems(ids), ps, values)[x].props
        ensures Settings(mats, Elems(ids), ps, values)[x].props[ShaderKey(q)] == values[q]
      {
        SettingsSet(mats, Elems(ids), ps, values, x, q);
      }
    }
    SettingsElsewhere(mats, Elems(ids), ps, values);
  }

  /** Pushing settings adds no material and leaves the materials outside `ids` alone. */
  lemma {:induction false} SettingsKeys(mats: map<MatId, Material>, ids: set<MatId>, ps: seq<Property>,
                                        values: map<Property, PropValue>)
    requires forall p :: p in values
    ensures Settings(mats, ids, ps, values).Keys == mats.Keys
    decreases |ps|
  {
    if ps != [] {
      SettingsKeys(mats, ids, ps[..|ps| - 1], values);
    }
  }

  /** Pushing settings leaves the materials outside `ids` alone. */
  lemma {:induction false} SettingsElsewhere(mats: map<MatId, Material>, ids: set<MatId>, ps: seq<Property>,
                                             values: map<Property, PropValue>)
    requires forall p :: p in values
    ensures forall id :: id in mats && id !in ids ==>
      id in Settings(mats, ids, ps, values) && Settings(mats, ids, ps, values)[id] == mats[id]
    decreases |ps|
  {
    if ps != [] {
      SettingsElsewhere(mats, ids, ps[..|ps| - 1], values);
    }
  }

  // ---------------------------------------------------------------------
  // Restoring the originals

  /** Row `i`'s replacements put back to their originals in the renderer's materials `shown`. */
  function RestoreRow(shown: seq<MatId>, origRow: seq<MatId>, vamRow: seq<Option<MatId>>): (r: seq<MatId>)
    requires |origRow| == |vamRow| == |shown|
    ensures |r| == |shown|
  {
    seq(|shown|, j requires 0 <= j < |shown| => if vamRow[j].Some? then origRow[j] else shown[j])
  }

  /** The renderers' materials after every row has been put back, row by row. */
  function Restored(rmap: map<RendererId, seq<MatId>>, rs: seq<RendererId>, orig: seq<seq<MatId>>,
                    vam: seq<seq<Option<MatId>>>): map<RendererId, seq<MatId>>
    requires |rs| == |orig| == |vam|
    decreases |rs|
  {
    if rs == [] then rmap
    else
      var k := |rs| - 1;
      var m := Restored(rmap, rs[..k], orig[..k], vam[..k]);
      if rs[k] in m && |m[rs[k]]| == |orig[k]| == |vam[k]| then m[rs[k] := RestoreRow(m[rs[k]], orig[k], vam[k])]
      else m
  }

  /**
   * `OnDestroy` as written: each `renderers[i].materials[j] = …` stores
   * into the fresh array the `materials` getter returns, so the
   * renderers' own slots are never written.
   */
  function RestoreAsWritten(rmap: map<RendererId, seq<MatId>>, rs: seq<RendererId>, orig: seq<seq<MatId>>,
                            vam: seq<seq<Option<MatId>>>): (r: map<RendererId, seq<MatId>>)
    ensures r.Keys == rmap.Keys
  {
    rmap
  }

  /** As written, a converted renderer keeps showing its replacement after `OnDestroy`. */
  lemma AsWrittenKeepsReplacements(mats: map<MatId, Material>, rmap: map<RendererId, seq<MatId>>, rs: seq<RendererId>,
                                   orig: seq<seq<MatId>>, vam: seq<seq<Option<MatId>>>, slotOf: map<MatId, Slot>,
                                   i: int, j: int)
    requires Table(mats, rmap, rs, orig, vam, slotOf, |rs|)
    requires 0 <= i < |rs| && 0 <= j < |orig[i]| && vam[i][j].Some?
    ensures rs[i] in RestoreAsWritten(rmap, rs, orig, vam)
    ensures RestoreAsWritten(rmap, rs, orig, vam)[rs[i]][j] == vam[i][j].value != orig[i][j]
  {
    assert SlotHolds(mats, rmap[rs[i]], orig[i][j], vam[i][j], slotOf, i, j, true);
  }

  /** The renderers of the rows are distinct, their slots match the rows, and unsupported slots show their original. */
  ghost predicate ShowsReplacements(rmap: map<RendererId, seq<MatId>>, rs: seq<RendererId>, orig: seq<seq<MatId>>,
                                    vam: seq<seq<Option<MatId>>>)
  {
    && |rs| == |orig| == |vam|
    && (forall i, i' :: 0 <= i < i' < |rs| ==> rs[i] != rs[i'])
    && (forall i :: 0 <= i < |rs| ==> rs[i] in rmap && |rmap[rs[i]]| == |orig[i]| == |vam[i]|)
    && (forall i, j :: 0 <= i < |rs| && 0 <= j < |orig[i]| && vam[i][j].None? ==>
          rs[i] in rmap && j < |rmap[rs[i]]| && rmap[rs[i]][j] == orig[i][j])
  }

  lemma TableShows(mats: map<MatId, Material>, rmap: map<RendererId, seq<MatId>>, rs: seq<RendererId>,
                   orig: seq<seq<MatId>>, vam: seq<seq<Option<MatId>>>, slotOf: map<MatId, Slot>, upto: int)
    requires Table(mats, rmap, rs, orig, vam, slotOf, upto)
    ensures ShowsReplacements(rmap, rs, orig, vam)
  {
    forall i, j | 0 <= i < |rs| && 0 <= j < |orig[i]| && vam[i][j].None?
      ensures rmap[rs[i]][j] == orig[i][j]
    {
      assert SlotHolds(mats, rmap[rs[i]], orig[i][j], vam[i][j], slotOf, i, j, i < upto);
    }
  }

  /** The first `k` rows of a table that shows its replacements do too. */
  lemma ShowsFront(rmap: map<RendererId, seq<MatId>>, rs: seq<RendererId>, orig: seq<seq<MatId>>,
                   vam: seq<seq<Option<MatId>>>, k: int)
    requires ShowsReplacements(rmap, rs, orig, vam) && 0 <= k <= |rs|
    ensures ShowsReplacements(rmap, rs[..k], orig[..k], vam[..k])
  {
    var rs0: seq<RendererId>, orig0: seq<seq<MatId>>, vam0: seq<seq<Option<MatId>>> := rs[..k], orig[..k], vam[..k];
    forall i, j | 0 <= i < |rs0| && 0 <= j < |orig0[i]| && vam0[i][j].None?
      ensures rs0[i] in rmap && j < |rmap[rs0[i]]| && rmap[rs0[i]][j] == orig0[i][j]
    {
      assert rs0[i] == rs[i] && orig0[i] == orig[i] && vam0[i] == vam[i];
    }
  }

  /** Putting back the replacements of row `k` on what its renderer shows gives the row's originals. */
  lemma RowRestores(rmap: map<RendererId, seq<MatId>>, rs: seq<RendererId>, orig: seq<seq<MatId>>,
                    vam: seq<seq<Option<MatId>>>, k: int)
    requires ShowsReplacements(rmap, rs, orig, vam) && 0 <= k < |rs|
    ensures RestoreRow(rmap[rs[k]], orig[k], vam[k]) == orig[k]
  {
    var row := RestoreRow(rmap[rs[k]], orig[k], vam[k]);
    forall j | 0 <= j < |row|
      ensures row[j] == orig[k][j]
    {
      if vam[k][j].None? {
        assert rmap[rs[k]][j] == orig[k][j];
      }
    }
  }

  /**
   * Putting every replacement back undoes the conversion: each converted
   * renderer shows its original materials again, and no other renderer
   * changes.
   */
  lemma {:induction false} RestoreUndoesConvert(rmap: map<RendererId, seq<MatId>>, rs: seq<RendererId>,
                                                orig: seq<seq<MatId>>, vam: seq<seq<Option<MatId>>>)
    requires ShowsReplacements(rmap, rs, orig, vam)
    ensures Restored(rmap, rs, orig, vam).Keys == rmap.Keys
    ensures forall i :: 0 <= i < |rs| ==> Restored(rmap, rs, orig, vam)[rs[i]] == orig[i]
    ensures forall r :: r in rmap && r !in rs ==> Restored(rmap, rs, orig, vam)[r] == rmap[r]
    decreases |rs|
  {
    if rs != [] {
      var k := |rs| - 1;
      var rs0, orig0, vam0 := rs[..k], orig[..k], vam[..k];
      ShowsFront(rmap, rs, orig, vam, k);
      RestoreUndoesConvert(rmap, rs0, orig0, vam0);
      var m := Restored(rmap, rs0, orig0, vam0);
      assert rs[k] !in rs0 by {
        forall i | 0 <= i < |rs0|
          ensures rs0[i] != rs[k]
        {
          assert rs[i] != rs[k];
        }
      }
      assert m[rs[k]] == rmap[rs[k]];
      RowRestores(rmap, rs, orig, vam, k);
      forall i | 0 <= i < k
        ensures Restored(rmap, rs, orig, vam)[rs[i]] == orig[i]
      {
        assert rs0[i] == rs[i] && orig0[i] == orig[i];
        assert rs[i] != rs[k];
      }
    }
  }

  /** A renderer the restore has not reached yet still shows what it showed. */
  lemma RestoredUntouched(rmap: map<RendererId, seq<MatId>>, rs: seq<RendererId>, orig: seq<seq<MatId>>,
                          vam: seq<seq<Option<MatId>>>, i: int)
    requires ShowsReplacements(rmap, rs, orig, vam) && 0 <= i < |rs|
    ensures rs[i] in Restored(rmap, rs[..i], orig[..i], vam[..i])
    ensures Restored(rmap, rs[..i], orig[..i], vam[..i])[rs[i]] == rmap[rs[i]]
    ensures |rmap[rs[i]]| == |orig[i]| == |vam[i]|
  {
    var rs0, orig0, vam0 := rs[..i], orig[..i], vam[..i];
    ShowsFront(rmap, rs, orig, vam, i);
    RestoreUndoesConvert(rmap, rs0, orig0, vam0);
    forall n | 0 <= n < |rs0|
      ensures rs0[n] != rs[i]
    {
      assert rs[n] != rs[i];
    }
  }

  /** Restoring one more row. */
  lemma RestoredSnoc(rmap: map<RendererId, seq<MatId>>, rs: seq<RendererId>, orig: seq<seq<MatId>>,
                     vam: seq<seq<Option<MatId>>>, i: int)
    requires |rs| == |orig| == |vam| && 0 <= i < |rs|
    requires rs[i] in Restored(rmap, rs[..i], orig[..i], vam[..i])
    requires |Restored(rmap, rs[..i], orig[..i], vam[..i])[rs[i]]| == |orig[i]| == |vam[i]|
    ensures Restored(rmap, rs[..i + 1], orig[..i + 1], vam[..i + 1]) ==
      Restored(rmap, rs[..i], orig[..i], vam[..i])[rs[i] :=
        RestoreRow(Restored(rmap, rs[..i], orig[..i], vam[..i])[rs[i]], orig[i], vam[i])]
  {
    assert rs[..i + 1][..i] == rs[..i];
    assert orig[..i + 1][..i] == orig[..i];
    assert vam[..i + 1][..i] == vam[..i];
  }

  /** Every original of a row is in the store. */
  lemma TableOrigInStore(mats: map<MatId, Material>, rmap: map<RendererId, seq<MatId>>, rs: seq<RendererId>,
                         orig: seq<seq<MatId>>, vam: seq<seq<Option<MatId>>>, slotOf: map<MatId, Slot>,
                         upto: int, i: int)
    requires Table(mats, rmap, rs, orig, vam, slotOf, upto) && 0 <= i < |rs|
    ensures forall j :: 0 <= j < |orig[i]| ==> orig[i][j] in mats
  {
    forall j | 0 <= j < |orig[i]|
      ensures orig[i][j] in mats
    {
      assert SlotHolds(mats, rmap[rs[i]], orig[i][j], vam[i][j], slotOf, i, j, i < upto);
    }
  }

  /**
   * What the first loop has produced after `k` of the renderers: the skip
   * list, the renderers that have materials, and their original materials.
   */
  ghost predicate Collected(mats0: map<MatId, Material>, rm0: map<RendererId, seq<MatId>>, all: seq<RendererId>, k: int,
                            invalid: seq<MatId>, rs: seq<RendererId>, orig: seq<seq<MatId>>)
  {
    && 0 <= k <= |all|
    && invalid == Skipped(mats0, rm0, all[..k])
    && rs == Filter(all[..k], HasSlots(rm0))
    && |orig| == |rs|
    && forall i :: 0 <= i < |rs| ==> rs[i] in rm0 && orig[i] == rm0[rs[i]]
  }

  /** The renderer the first loop comes to next is not yet in its list. */
  lemma CollectedExcludes(mats0: map<MatId, Material>, rm0: map<RendererId, seq<MatId>>, all: seq<RendererId>, k: int,
                          invalid: seq<MatId>, rs: seq<RendererId>, orig: seq<seq<MatId>>)
    requires Collected(mats0, rm0, all, k, invalid, rs, orig) && k < |all|
    requires forall n, n' :: 0 <= n < n' < |all| ==> all[n] != all[n']
    ensures all[k] !in rs
  {
    FilterMembers(all[..k], HasSlots(rm0));
  }

  lemma CollectedSnoc(mats0: map<MatId, Material>, rm0: map<RendererId, seq<MatId>>, all: seq<RendererId>, k: int,
                      invalid: seq<MatId>, rs: seq<RendererId>, orig: seq<seq<MatId>>,
                      rowInvalid: seq<MatId>, rs': seq<RendererId>, orig': seq<seq<MatId>>)
    requires Collected(mats0, rm0, all, k, invalid, rs, orig) && k < |all| && all[k] in rm0
    requires rowInvalid == Filter(rm0[all[k]], Rejects(mats0))
    requires rs' == rs + (if |rm0[all[k]]| > 0 then [all[k]] else [])
    requires orig' == orig + (if |rm0[all[k]]| > 0 then [rm0[all[k]]] else [])
    ensures Collected(mats0, rm0, all, k + 1, invalid + rowInvalid, rs', orig')
  {
    SkippedSnoc(mats0, rm0, all, k);
    FilterSnoc(all, k, HasSlots(rm0));
  }

  /** The first loop done: the skip list, the renderers kept and their originals, over all renderers. */
  lemma CollectedAll(mats0: map<MatId, Material>, rm0: map<RendererId, seq<MatId>>, all: seq<RendererId>,
                     invalid: seq<MatId>, rs: seq<RendererId>, orig: seq<seq<MatId>>)
    requires Collected(mats0, rm0, all, |all|, invalid, rs, orig)
    ensures invalid == Skipped(mats0, rm0, all)
    ensures rs == Filter(all, HasSlots(rm0))
    ensures forall i :: 0 <= i < |rs| ==> rs[i] in rm0 && orig[i] == rm0[rs[i]]
  {
    assert all[..|all|] == all;
  }

  /** The inner loop of `OnDestroy`: each replaced slot of a copy of the renderer's materials gets its original back. */
  method RestoreSlots(shown: seq<MatId>, origRow: seq<MatId>, vamRow: seq<Option<MatId>>) returns (materials: seq<MatId>)
    requires |origRow| == |vamRow| == |shown|
    ensures materials == RestoreRow(shown, origRow, vamRow)
  {
    materials := shown;
    var j := 0;
    while j < |materials|
      invariant 0 <= j <= |materials| == |shown|
      invariant forall j' :: 0 <= j' < |materials| ==>
        materials[j'] == (if j' < j && vamRow[j'].Some? then origRow[j'] else shown[j'])
    {
      if vamRow[j].Some? {
        materials := materials[j := origRow[j]];
      }
      j := j + 1;
    }
  }

  /**
   * The plugin's state: the renderers it converted and, per renderer,
   * the original materials and the replacements; the current value of
   * each setting.  `slotOf` is the proof's record of where each
   * replacement sits.
   */
  class Vamifier {
    const scene: Scene
    var renderers: seq<RendererId>
    var origMaterials: seq<seq<MatId>>
    var vamMaterials: seq<seq<Option<MatId>>>
    var values: map<Property, PropValue>
    ghost var slotOf: map<MatId, Slot>

    /** Every setting has a value of its kind; the lists and the scene agree as `Table` says, rows before `upto` substituted. */
    ghost predicate Slots(upto: nat)
      reads this, scene
    {
      && (forall p :: p in values && Fits(p, values[p]))
      && Table(scene.mats, scene.rendererMats, renderers, origMaterials, vamMaterials, slotOf, upto)
    }

    ghost predicate Valid()
      reads this, scene
    {
      scene.Valid() && Slots(|renderers|)
    }

    /** `Init`: the settings at their defaults, nothing converted yet. */
    constructor Init(scene: Scene)
      requires scene.Valid()
      ensures Valid() && this.scene == scene
      ensures renderers == [] && origMaterials == [] && vamMaterials == []
      ensures forall p :: values[p] == Default(p)
    {
      this.scene := scene;
      renderers, origMaterials, vamMaterials := [], [], [];
      values := map p: Property | true :: Default(p);
      slotOf := map[];
    }

    /** Every flattened replacement is a recorded replacement and an existing material. */
    lemma PresentAreReplacements(upto: nat)
      requires Table(scene.mats, scene.rendererMats, renderers, origMaterials, vamMaterials, slotOf, upto)
      ensures forall x :: x in Present(vamMaterials) ==> x in slotOf && x in scene.mats
    {
      forall x | x in Present(vamMaterials)
        ensures x in slotOf && x in scene.mats
      {
        PresentIff(vamMaterials, x);
        var i :| 0 <= i < |vamMaterials| && Some(x) in vamMaterials[i];
        var j :| 0 <= j < |vamMaterials[i]| && vamMaterials[i][j] == Some(x);
        assert SlotHolds(scene.mats, scene.rendererMats[renderers[i]], origMaterials[i][j], vamMaterials[i][j],
                         slotOf, i, j, i < upto);
      }
    }

    /** `new Material(vamPropShader)` for slot `j` of the row being built. */
    method NewReplacement(j: nat) returns (id: MatId)
      requires scene.Valid()
      requires forall v :: v in slotOf ==> v in scene.mats
      modifies scene, this`slotOf
      ensures scene.Valid() && scene.rendererMats == old(scene.rendererMats)
      ensures id !in old(scene.mats) && scene.mats == old(scene.mats)[id := BlankVam]
      ensures slotOf == old(slotOf)[id := Slot(|renderers|, j)]
      ensures forall v :: v in slotOf ==> v in scene.mats
    {
      id := scene.NewMaterial(VamShaderName);
      slotOf := slotOf[id := Slot(|renderers|, j)];
    }

    /** One step of the first loop: a blank replacement when `IsValidMaterial` accepts the original, else null. */
    method ClassifySlot(o: MatId, j: nat) returns (slot: Option<MatId>)
      requires scene.Valid() && o in scene.mats
      requires forall v :: v in slotOf ==> v in scene.mats
      modifies scene, this`slotOf
      ensures scene.Valid() && scene.rendererMats == old(scene.rendererMats)
      ensures slot.Some? <==> Supported(old(scene.mats)[o])
      ensures slot.None? ==> scene.mats == old(scene.mats) && slotOf == old(slotOf)
      ensures slot.Some? ==>
        && slot.value !in old(scene.mats) && scene.mats == old(scene.mats)[slot.value := BlankVam]
        && slotOf == old(slotOf)[slot.value := Slot(|renderers|, j)]
      ensures forall v :: v in slotOf ==> v in scene.mats
      ensures forall id :: id in old(scene.mats) ==> id in scene.mats && scene.mats[id] == old(scene.mats)[id]
      ensures forall v :: v in old(slotOf) ==> v in slotOf && slotOf[v] == old(slotOf)[v]
    {
      var valid := IsValidMaterial(scene.mats[o]);
      if valid {
        var id := NewReplacement(j);
        slot := Some(id);
      } else {
        slot := None;
      }
    }

    /** Slot `j` of the row classified: the row and the skip list grow by one step. */
    method ClassifyNext(origMats: seq<MatId>, j: nat, ghost mats0: map<MatId, Material>, ghost slots0: map<MatId, Slot>,
                        vamMats: seq<Option<MatId>>, invalid: seq<MatId>)
      returns (vamMats': seq<Option<MatId>>, invalid': seq<MatId>)
      requires scene.Valid() && j < |origMats| && |vamMats| == j
      requires forall k :: 0 <= k < |origMats| ==> origMats[k] in mats0
      requires forall v :: v in slotOf ==> v in scene.mats
      requires invalid == Filter(origMats[..j], Rejects(mats0))
      requires forall id :: id in mats0 ==> id in scene.mats && scene.mats[id] == mats0[id]
      requires forall v :: v in slots0 ==> v in slotOf && slotOf[v] == slots0[v]
      requires NewSlots(mats0, slots0, slotOf, |renderers|, vamMats)
      requires RowPending(mats0, scene.mats, slotOf, |renderers|, origMats, vamMats)
      modifies scene, this`slotOf
      ensures scene.Valid() && scene.rendererMats == old(scene.rendererMats)
      ensures forall v :: v in slotOf ==> v in scene.mats
      ensures |vamMats'| == j + 1
      ensures invalid' == Filter(origMats[..j + 1], Rejects(mats0))
      ensures forall id :: id in mats0 ==> id in scene.mats && scene.mats[id] == mats0[id]
      ensures forall v :: v in slots0 ==> v in slotOf && slotOf[v] == slots0[v]
      ensures NewSlots(mats0, slots0, slotOf, |renderers|, vamMats')
      ensures RowPending(mats0, scene.mats, slotOf, |renderers|, origMats, vamMats')
    {
      ghost var mats, slots := scene.mats, slotOf;
      var slot := ClassifySlot(origMats[j], j);
      RowPendingSnoc(mats0, mats, scene.mats, slots, slotOf, |renderers|, origMats, vamMats, slot);
      NewSlotsSnoc(mats0, slots0, slots, slotOf, |renderers|, vamMats, slot);
      FilterSnoc(origMats, j, Rejects(mats0));
      vamMats' := vamMats + [slot];
      invalid' := invalid + if slot.None? then [origMats[j]] else [];
    }

    /**
     * The first loop's body for one renderer: a blank replacement for
     * every supported material, null and a skip entry for every other.
     */
    method ClassifySlots(origMats: seq<MatId>) returns (vamMats: seq<Option<MatId>>, invalid: seq<MatId>)
      requires scene.Valid()
      requires forall j :: 0 <= j < |origMats| ==> origMats[j] in scene.mats
      requires forall v :: v in slotOf ==> v in scene.mats
      modifies scene, this`slotOf
      ensures scene.Valid() && scene.rendererMats == old(scene.rendererMats)
      ensures |vamMats| == |origMats|
      ensures invalid == Filter(origMats, Rejects(old(scene.mats)))
      ensures forall id :: id in old(scene.mats) ==> id in scene.mats && scene.mats[id] == old(scene.mats)[id]
      ensures forall v :: v in slotOf ==> v in scene.mats
      ensures forall v :: v in old(slotOf) ==> v in slotOf && slotOf[v] == old(slotOf)[v]
      ensures NewSlots(old(scene.mats), old(slotOf), slotOf, |renderers|, vamMats)
      ensures RowPending(old(scene.mats), scene.mats, slotOf, |renderers|, origMats, vamMats)
    {
      vamMats, invalid := [], [];
      var j := 0;
      while j < |origMats|
        invariant scene.Valid() && scene.rendererMats == old(scene.rendererMats)
        invariant forall v :: v in slotOf ==> v in scene.mats
        invariant 0 <= j <= |origMats| && |vamMats| == j
        invariant invalid == Filter(origMats[..j], Rejects(old(scene.mats)))
        invariant forall id :: id in old(scene.mats) ==> id in scene.mats && scene.mats[id] == old(scene.mats)[id]
        invariant forall v :: v in old(slotOf) ==> v in slotOf && slotOf[v] == old(slotOf)[v]
        invariant NewSlots(old(scene.mats), old(slotOf), slotOf, |renderers|, vamMats)
        invariant RowPending(old(scene.mats), scene.mats, slotOf, |renderers|, origMats, vamMats)
      {
        vamMats, invalid := ClassifyNext(origMats, j, old(scene.mats), old(slotOf), vamMats, invalid);
        j := j + 1;
      }
      assert origMats[..|origMats|] == origMats;
    }

    /** Row `vamMats` of renderer `r`, whose replacements were just made, appended to the lists. */
    method AppendRow(r: RendererId, origMats: seq<MatId>, vamMats: seq<Option<MatId>>,
                     ghost mats: map<MatId, Material>, ghost slots: map<MatId, Slot>)
      requires Table(mats, scene.rendererMats, renderers, origMaterials, vamMaterials, slots, 0)
      requires r in scene.rendererMats && scene.rendererMats[r] == origMats && r !in renderers
      requires 0 < |vamMats| == |origMats|
      requires forall j :: 0 <= j < |origMats| ==> origMats[j] !in slots
      requires forall id :: id in mats ==> id in scene.mats && scene.mats[id] == mats[id]
      requires forall v :: v in slots ==> v in slotOf && slotOf[v] == slots[v]
      requires NewSlots(mats, slots, slotOf, |renderers|, vamMats)
      requires RowPending(mats, scene.mats, slotOf, |renderers|, origMats, vamMats)
      modifies this`renderers, this`origMaterials, this`vamMaterials
      ensures Table(scene.mats, scene.rendererMats, renderers, origMaterials, vamMaterials, slotOf, 0)
      ensures renderers == old(renderers) + [r] && origMaterials == old(origMaterials) + [origMats]
      ensures vamMaterials == old(vamMaterials) + [vamMats]
    {
      TableAddRow(mats, scene.mats, scene.rendererMats, renderers, origMaterials, vamMaterials,
                  slots, slotOf, r, origMats, vamMats);
      renderers := renderers + [r];
      origMaterials := origMaterials + [origMats];
      vamMaterials := vamMaterials + [vamMats];
    }

    /**
     * The first loop's body for renderer `r`: classify its materials and,
     * when it has any, append its row.  `mats0` is the store before the
     * loop, whose materials the loop leaves alone.
     */
    method AddRenderer(r: RendererId, ghost mats0: map<MatId, Material>) returns (rowInvalid: seq<MatId>)
      requires scene.Valid() && Table(scene.mats, scene.rendererMats, renderers, origMaterials, vamMaterials, slotOf, 0)
      requires r in scene.rendererMats && r !in renderers
      requires forall j :: 0 <= j < |scene.rendererMats[r]| ==> scene.rendererMats[r][j] in mats0
      requires forall id :: id in mats0 ==> id in scene.mats && scene.mats[id] == mats0[id]
      requires forall v :: v in slotOf ==> v in scene.mats && v !in mats0
      modifies this`renderers, this`origMaterials, this`vamMaterials, this`slotOf, scene
      ensures scene.Valid() && scene.rendererMats == old(scene.rendererMats)
      ensures Table(scene.mats, scene.rendererMats, renderers, origMaterials, vamMaterials, slotOf, 0)
      ensures rowInvalid == Filter(old(scene.rendererMats)[r], Rejects(mats0))
      ensures renderers == old(renderers) + (if |old(scene.rendererMats)[r]| > 0 then [r] else [])
      ensures origMaterials == old(origMaterials) + (if |old(scene.rendererMats)[r]| > 0 then [old(scene.rendererMats)[r]] else [])
      ensures forall id :: id in mats0 ==> id in scene.mats && scene.mats[id] == mats0[id]
      ensures forall v :: v in slotOf ==> v in scene.mats && v !in mats0
    {
      var origMats := scene.rendererMats[r];
      ghost var mats, slots := scene.mats, slotOf;
      var vamMats;
      vamMats, rowInvalid := ClassifySlots(origMats);
      FilterAgree(origMats, Rejects(mats), Rejects(mats0));
      if |vamMats| > 0 {
        AppendRow(r, origMats, vamMats, mats, slots);
      } else {
        TableKeep(mats, scene.mats, scene.rendererMats, renderers, origMaterials, vamMaterials, slots, slotOf);
      }
    }

    /** One pass of the first loop, over renderer `allRenderers[k]`. */
    method CollectNext(allRenderers: seq<RendererId>, k: nat, invalid: seq<MatId>,
                       ghost mats0: map<MatId, Material>, ghost rm0: map<RendererId, seq<MatId>>)
      returns (invalid': seq<MatId>)
      requires k < |allRenderers|
      requires forall n, n' :: 0 <= n < n' < |allRenderers| ==> allRenderers[n] != allRenderers[n']
      requires forall n :: 0 <= n < |allRenderers| ==> allRenderers[n] in rm0
      requires Collecting(mats0, rm0, allRenderers, k, invalid)
      modifies this`renderers, this`origMaterials, this`vamMaterials, this`slotOf, scene
      ensures Collecting(mats0, rm0, allRenderers, k + 1, invalid')
    {
      CollectedExcludes(mats0, rm0, allRenderers, k, invalid, renderers, origMaterials);
      ghost var rs, orig := renderers, origMaterials;
      var rowInvalid := AddRenderer(allRenderers[k], mats0);
      CollectedSnoc(mats0, rm0, allRenderers, k, invalid, rs, orig, rowInvalid, renderers, origMaterials);
      invalid' := invalid + rowInvalid;
    }

    /**
     * The first loop's state after `k` renderers: the rows so far form a
     * table, the skip list and the renderer list are as `Collected` says,
     * the store only grew, and every replacement is new.
     */
    ghost predicate Collecting(mats0: map<MatId, Material>, rm0: map<RendererId, seq<MatId>>, all: seq<RendererId>,
                               k: int, invalid: seq<MatId>)
      reads this, scene
    {
      && scene.Valid() && scene.rendererMats == rm0
      && Table(scene.mats, scene.rendererMats, renderers, origMaterials, vamMaterials, slotOf, 0)
      && Collected(mats0, rm0, all, k, invalid, renderers, origMaterials)
      && (forall id :: id in mats0 ==> id in scene.mats && scene.mats[id] == mats0[id])
      && (forall v :: v in slotOf ==> v in scene.mats && v !in mats0)
      && (forall n :: 0 <= n < |all| ==> all[n] in rm0 && forall j :: 0 <= j < |rm0[all[n]]| ==> rm0[all[n]][j] in mats0)
    }

    method CollectRenderers(allRenderers: seq<RendererId>) returns (invalid: seq<MatId>)
      requires scene.Valid() && renderers == [] && origMaterials == [] && vamMaterials == [] && slotOf == map[]
      requires forall k, k' :: 0 <= k < k' < |allRenderers| ==> allRenderers[k] != allRenderers[k']
      requires forall k :: 0 <= k < |allRenderers| ==> allRenderers[k] in scene.rendererMats
      modifies this`renderers, this`origMaterials, this`vamMaterials, this`slotOf, scene
      ensures scene.Valid() && Table(scene.mats, scene.rendererMats, renderers, origMaterials, vamMaterials, slotOf, 0)
      ensures invalid == Skipped(old(scene.mats), old(scene.rendererMats), allRenderers)
      ensures renderers == Filter(allRenderers, HasSlots(old(scene.rendererMats)))
      ensures forall i :: 0 <= i < |renderers| ==>
        renderers[i] in old(scene.rendererMats) && origMaterials[i] == old(scene.rendererMats)[renderers[i]]
      ensures scene.rendererMats == old(scene.rendererMats)
      ensures forall id :: id in old(scene.mats) ==> id in scene.mats && scene.mats[id] == old(scene.mats)[id]
      ensures forall v :: v in slotOf ==> v !in old(scene.mats)
    {
      invalid := [];
      var k := 0;
      while k < |allRenderers|
        invariant Collecting(old(scene.mats), old(scene.rendererMats), allRenderers, k, invalid)
      {
        invalid := CollectNext(allRenderers, k, invalid, old(scene.mats), old(scene.rendererMats));
        k := k + 1;
      }
      CollectedAll(old(scene.mats), old(scene.rendererMats), allRenderers, invalid, renderers, origMaterials);
    }

    /** The inner loop's body on a supported slot: the replacement takes the original's name and textures. */
    method ReassignTextures(v: MatId, o: MatId)
      requires scene.Valid() && v in scene.mats && o in scene.mats && v != o
      modifies scene
      ensures scene.Valid() && scene.rendererMats == old(scene.rendererMats)
      ensures scene.mats == old(scene.mats)[v := Vamify(old(scene.mats)[v], old(scene.mats)[o])]
    {
      ghost var mats, orig := scene.mats, scene.mats[o];
      scene.SetName(v, scene.mats[o].name + VamSuffix);
      scene.SetProperty(v, "_MainTex", TextureVal(GetTexture(scene.mats[o], "_MainTex")));
      Restamp(mats, v, old(scene.mats)[v].(name := orig.name + VamSuffix), scene.mats[v]);
      ghost var m1 := scene.mats[v];
      scene.SetProperty(v, "_BumpMap", TextureVal(GetTexture(scene.mats[o], "_BumpMap")));
      Restamp(mats, v, m1, scene.mats[v]);
      ghost var m2 := scene.mats[v];
      scene.SetProperty(v, "_SpecTex", TextureVal(GetTexture(scene.mats[o], "_SpecGlossMap")));
      Restamp(mats, v, m2, scene.mats[v]);
      ghost var m3 := scene.mats[v];
      scene.SetProperty(v, "_GlossTex", TextureVal(GetTexture(scene.mats[o], "_MetallicGlossMap")));
      Restamp(mats, v, m3, scene.mats[v]);
    }

    /** The inner loop's body: slot `j` of row `i` takes its replacement, when it has one. */
    method SubstituteSlot(i: nat, j: nat, materials: seq<MatId>) returns (materials': seq<MatId>)
      requires scene.Valid() && i < |origMaterials| && i < |vamMaterials| && j < |materials|
      requires RowHolds(scene.mats, materials, origMaterials[i], vamMaterials[i], slotOf, i, j)
      modifies scene
      ensures scene.Valid() && scene.rendererMats == old(scene.rendererMats)
      ensures scene.mats.Keys == old(scene.mats).Keys
      ensures forall id :: id in old(scene.mats) && (id !in slotOf || slotOf[id].row != i) ==>
        scene.mats[id] == old(scene.mats)[id]
      ensures RowHolds(scene.mats, materials', origMaterials[i], vamMaterials[i], slotOf, i, j + 1)
    {
      if vamMaterials[i][j].Some? {
        assert SlotHolds(scene.mats, materials, origMaterials[i][j], vamMaterials[i][j], slotOf, i, j, false);
        RowStep(scene.mats, materials, origMaterials[i], vamMaterials[i], slotOf, i, j);
        ReassignTextures(vamMaterials[i][j].value, origMaterials[i][j]);
        materials' := materials[j := vamMaterials[i][j].value];
      } else {
        RowSkip(scene.mats, materials, origMaterials[i], vamMaterials[i], slotOf, i, j);
        materials' := materials;
      }
    }

    /** One pass of the second loop: substitute the supported slots of row `i` and hand the renderer its new materials. */
    method SubstituteRenderer(i: nat)
      requires scene.Valid() && i < |renderers|
      requires Table(scene.mats, scene.rendererMats, renderers, origMaterials, vamMaterials, slotOf, i)
      modifies scene
      ensures scene.Valid() && Table(scene.mats, scene.rendererMats, renderers, origMaterials, vamMaterials, slotOf, i + 1)
      ensures scene.mats.Keys == old(scene.mats).Keys
      ensures forall id :: id in old(scene.mats) && id !in slotOf ==> scene.mats[id] == old(scene.mats)[id]
      ensures scene.rendererMats.Keys == old(scene.rendererMats).Keys
      ensures forall r :: r in old(scene.rendererMats) && r != renderers[i] ==> scene.rendererMats[r] == old(scene.rendererMats)[r]
    {
      TableRowStart(scene.mats, scene.rendererMats, renderers, origMaterials, vamMaterials, slotOf, i);
      var r := renderers[i];
      var materials: seq<MatId> := scene.rendererMats[r];
      var j := 0;
      while j < |materials|
        invariant 0 <= j <= |materials|
        invariant scene.Valid() && scene.rendererMats == old(scene.rendererMats)
        invariant scene.mats.Keys == old(scene.mats).Keys
        invariant forall id :: id in old(scene.mats) && (id !in slotOf || slotOf[id].row != i) ==>
          scene.mats[id] == old(scene.mats)[id]
        invariant RowHolds(scene.mats, materials, origMaterials[i], vamMaterials[i], slotOf, i, j)
      {
        materials := SubstituteSlot(i, j, materials);
        j := j + 1;
      }
      RowInStore(scene.mats, materials, origMaterials[i], vamMaterials[i], slotOf, i, j);
      TableRowEnd(old(scene.mats), scene.mats, scene.rendererMats, renderers, origMaterials, vamMaterials, slotOf, i, materials);
      scene.SetRendererMaterials(r, materials);
    }

    /** The second loop of `ConvertMaterial`: every row substituted. */
    method SubstituteAll()
      requires scene.Valid() && Slots(0)
      modifies scene
      ensures Valid()
      ensures scene.mats.Keys == old(scene.mats).Keys
      ensures forall id :: id in old(scene.mats) && id !in slotOf ==> scene.mats[id] == old(scene.mats)[id]
      ensures scene.rendererMats.Keys == old(scene.rendererMats).Keys
      ensures forall r :: r in old(scene.rendererMats) && r !in renderers ==> scene.rendererMats[r] == old(scene.rendererMats)[r]
    {
      var i := 0;
      while i < |renderers|
        invariant 0 <= i <= |renderers|
        invariant scene.Valid()
        invariant Table(scene.mats, scene.rendererMats, renderers, origMaterials, vamMaterials, slotOf, i)
        invariant scene.mats.Keys == old(scene.mats).Keys
        invariant forall id :: id in old(scene.mats) && id !in slotOf ==> scene.mats[id] == old(scene.mats)[id]
        invariant scene.rendererMats.Keys == old(scene.rendererMats).Keys
        invariant forall r :: r in old(scene.rendererMats) && r !in renderers ==> scene.rendererMats[r] == old(scene.rendererMats)[r]
      {
        SubstituteRenderer(i);
        i := i + 1;
      }
    }

    /** The `foreach` of every handler: set `key` to `v` on each material of `ids`. */
    method SetOnEach(ids: seq<MatId>, key: string, v: PropValue)
      requires scene.Valid() && forall k :: 0 <= k < |ids| ==> ids[k] in scene.mats
      modifies scene
      ensures scene.Valid() && scene.rendererMats == old(scene.rendererMats)
      ensures scene.mats == SetAll(old(scene.mats), Elems(ids), key, v)
    {
      var k := 0;
      while k < |ids|
        invariant 0 <= k <= |ids|
        invariant scene.Valid() && scene.rendererMats == old(scene.rendererMats)
        invariant scene.mats == SetAll(old(scene.mats), Elems(ids[..k]), key, v)
      {
        SetAllNext(old(scene.mats), ids, k, key, v);
        scene.SetProperty(ids[k], key, v);
        k := k + 1;
      }
      assert ids[..|ids|] == ids;
    }

    /**
     * The body shared by the ten `Set…` handlers: write setting `p`'s
     * current value into its shader property on every replacement.
     */
    method Apply(p: Property)
      requires Valid()
      modifies scene
      ensures Valid()
      ensures scene.mats == SetAll(old(scene.mats), Elems(Present(vamMaterials)), ShaderKey(p), values[p])
      ensures scene.rendererMats == old(scene.rendererMats)
    {
      PresentAreReplacements(|renderers|);
      ghost var mats := scene.mats;
      SetOnEach(Present(vamMaterials), ShaderKey(p), values[p]);
      TableAfterSetting(mats, scene.rendererMats, renderers, origMaterials, vamMaterials, slotOf,
                        Elems(Present(vamMaterials)), p, values[p]);
    }

    /** A `Set…` handler: the UI moved setting `p` to `v`, and every replacement follows. */
    method SetProperty(p: Property, v: PropValue)
      requires Valid() && Fits(p, v)
      modifies this`values, scene
      ensures Valid() && values == old(values)[p := v]
      ensures scene.mats == SetAll(old(scene.mats), Elems(Present(vamMaterials)), ShaderKey(p), v)
      ensures scene.rendererMats == old(scene.rendererMats)
    {
      values := values[p := v];
      Apply(p);
    }

    /** The `k`-th initial setting pushed onto every material of `ids`. */
    method PushInitial(ids: seq<MatId>, k: nat, ghost mats0: map<MatId, Material>)
      requires k < |InitiallyApplied| && forall p :: p in values
      requires scene.Valid() && forall x :: x in ids ==> x in mats0
      requires scene.mats == Settings(mats0, Elems(ids), InitiallyApplied[..k], values)
      modifies scene
      ensures scene.Valid() && scene.rendererMats == old(scene.rendererMats)
      ensures scene.mats == Settings(mats0, Elems(ids), InitiallyApplied[..k + 1], values)
    {
      SettingsKeys(mats0, Elems(ids), InitiallyApplied[..k], values);
      SettingsNext(mats0, Elems(ids), InitiallyApplied, k, values);
      var p := InitiallyApplied[k];
      SetOnEach(ids, ShaderKey(p), values[p]);
    }

    /**
     * "apply values initially": every setting but the IBL filter pushed
     * once, in order, each by its handler's loop over the replacements.
     */
    method ApplyInitialValues()
      requires Valid()
      modifies scene
      ensures Valid() && scene.rendererMats == old(scene.rendererMats)
      ensures scene.mats == Settings(old(scene.mats), Elems(Present(vamMaterials)), InitiallyApplied, values)
    {
      PresentAreReplacements(|renderers|);
      var ids := Present(vamMaterials);
      var k := 0;
      while k < |InitiallyApplied|
        invariant 0 <= k <= |InitiallyApplied|
        invariant scene.Valid() && scene.rendererMats == old(scene.rendererMats)
        invariant scene.mats == Settings(old(scene.mats), Elems(ids), InitiallyApplied[..k], values)
      {
        PushInitial(ids, k, old(scene.mats));
        k := k + 1;
      }
      assert InitiallyApplied[..|InitiallyApplied|] == InitiallyApplied;
      TableAfterSettings(old(scene.mats), scene.rendererMats, renderers, origMaterials, vamMaterials, slotOf,
                         Elems(ids), InitiallyApplied, values);
    }

    /** The second half of `ConvertMaterial`: substitute every row, then push the initial settings. */
    method SubstituteAndApply()
      requires scene.Valid() && Slots(0)
      modifies scene
      ensures Valid()
      ensures scene.mats.Keys == old(scene.mats).Keys
      ensures forall id :: id in old(scene.mats) && id !in slotOf ==> scene.mats[id] == old(scene.mats)[id]
      ensures forall x :: x in Present(vamMaterials) ==> x in scene.mats && Holds(scene.mats[x], InitiallyApplied, values)
      ensures scene.rendererMats.Keys == old(scene.rendererMats).Keys
      ensures forall r :: r in old(scene.rendererMats) && r !in renderers ==> scene.rendererMats[r] == old(scene.rendererMats)[r]
    {
      SubstituteAll();
      PresentAreReplacements(|renderers|);
      ghost var mats := scene.mats;
      ApplyInitialValues();
      SettingsKeys(mats, Elems(Present(vamMaterials)), InitiallyApplied, values);
      SettingsHold(mats, Present(vamMaterials), InitiallyApplied, values);
    }

    /**
     * `ConvertMaterial`, run once on the renderers found under the
     * asset: replace every supported material by a replacement on the
     * host shader that carries its name and textures, remember the
     * originals, report the unsupported ones, then push the initial
     * settings.  With no renderers, or none with a material, it stops
     * early and nothing changes beyond the blank replacements made.
     */
    method ConvertMaterial(allRenderers: seq<RendererId>) returns (skipped: seq<MatId>)
      requires Valid() && renderers == []
      requires forall k, k' :: 0 <= k < k' < |allRenderers| ==> allRenderers[k] != allRenderers[k']
      requires forall k :: 0 <= k < |allRenderers| ==> allRenderers[k] in scene.rendererMats
      modifies this`renderers, this`origMaterials, this`vamMaterials, this`slotOf, scene
      ensures Valid()
      ensures skipped == Skipped(old(scene.mats), old(scene.rendererMats), allRenderers)
      ensures renderers == Filter(allRenderers, HasSlots(old(scene.rendererMats)))
      ensures forall i :: 0 <= i < |renderers| ==>
        renderers[i] in old(scene.rendererMats) && origMaterials[i] == old(scene.rendererMats)[renderers[i]]
      ensures forall id :: id in old(scene.mats) ==> id in scene.mats && scene.mats[id] == old(scene.mats)[id]
      ensures forall x :: x in Present(vamMaterials) ==> x !in old(scene.mats)
      ensures forall x :: x in Present(vamMaterials) ==> x in scene.mats && Holds(scene.mats[x], InitiallyApplied, values)
      ensures scene.rendererMats.Keys == old(scene.rendererMats).Keys
      ensures forall r :: r in old(scene.rendererMats) && r !in renderers ==> scene.rendererMats[r] == old(scene.rendererMats)[r]
    {
      if |allRenderers| == 0 {
        assert Present(vamMaterials) == [];
        return [];
      }
      NoRows(scene.mats, scene.rendererMats, origMaterials, vamMaterials, slotOf, |renderers|);
      skipped := CollectRenderers(allRenderers);
      PresentAreReplacements(0);
      if |renderers| == 0 {
        assert Present(vamMaterials) == [];
        return;
      }
      SubstituteAndApply();
    }

    /**
     * `OnDestroy`, corrected: put every replacement's original back in its
     * slot, through a copy of the renderer's materials that is then
     * assigned back, as the substitution loop does.
     */
    method OnDestroy()
      requires Valid()
      modifies scene
      ensures scene.mats == old(scene.mats)
      ensures scene.rendererMats == Restored(old(scene.rendererMats), renderers, origMaterials, vamMaterials)
    {
      TableShows(scene.mats, scene.rendererMats, renderers, origMaterials, vamMaterials, slotOf, |renderers|);
      var i := 0;
      while i < |renderers|
        invariant 0 <= i <= |renderers|
        invariant scene.Valid() && scene.mats == old(scene.mats)
        invariant scene.rendererMats == Restored(old(scene.rendererMats), renderers[..i], origMaterials[..i], vamMaterials[..i])
      {
        RestoredUntouched(old(scene.rendererMats), renderers, origMaterials, vamMaterials, i);
        TableOrigInStore(scene.mats, old(scene.rendererMats), renderers, origMaterials, vamMaterials, slotOf, |renderers|, i);
        var r := renderers[i];
        var materials := RestoreSlots(scene.rendererMats[r], origMaterials[i], vamMaterials[i]);
        RestoredSnoc(old(scene.rendererMats), renderers, origMaterials, vamMaterials, i);
        scene.SetRendererMaterials(r, materials);
        i := i + 1;
      }
      assert renderers[..i] == renderers && origMaterials[..i] == origMaterials && vamMaterials[..i] == vamMaterials;
    }
  }
}

=== FILE: wrappers.dfy ===
/** Option: a value that may be missing (a C# null, a failed lookup). */
module Wrappers {

  datatype Option<+T> = None | Some(value: T) {

    /** The value, or `default` when there is none. */
    function GetOr(default: T): T {
      match this
      case Some(v) => v
      case None => default
    }
  }
}
